=== FILE: README.md ===
# daemontools supervision core in Dafny

daemontools is a process supervisor. It starts each configured unit (a
command line, or a Java program), waits until the unit reports readiness,
respawns it, and stops it through a configurable strategy:

- an OS signal;
- text written to the child's stdin ("console");
- a separate stop command;
- a forced kill of the whole process tree.

A unit may instead be watched through a pidfile. In that case the supervisor
adopts an already running process and never kills it.

This project models the supervision logic as a sequential state machine. Every
answer the operating system would give is an input:

- whether a spawn fails;
- the text the child prints;
- how the child exits;
- whether the pidfile exists;
- whether a kill, a write or a rename fails.

The modules follow the Go files:

| module | file | what it holds |
|---|---|---|
| `Text` | (shared) | the Go library behaviour the core relies on: `strings.Index`/`Split`/`SplitN`/`Join`/`Replace`/`TrimSpace`/`ToLower`, `strconv.ParseInt`/`Itoa`, `%04d`, line scanning |
| `StreamMatch` | io_wrap.go | the streaming success-marker detector (`crossingMatch`, `match`, `matchWriter`, `wrap`) |
| `StreamMatchTable` | io_wrap_test.go | the test table of patterns and chunk splits |
| `Hjson` | hjson.go | `fixJSON` |
| `Config` | utils.go | the map lookups with defaults, the layered lookups, `readProperties` |
| `Supervision` | supervisor.go | state constants and names, `command()`, the stop strategies, the shared `supervisor` CAS/start/stop/interrupt |
| `DefaultSupervision` | supervisor_default.go | the default supervisor: status CAS, `untilWith`, `start`/`stop`, `interrupt`, `killByConsole`, `loop`, `run` |
| `PidfileSupervision` | supervisor_with_pidfile.go | the pidfile supervisor: `status`, `start`, `stop`, `untilWith`, `interrupt`, `run`, `readPidfile` |
| `ProcessTree` | kill.go | post-order process-tree kill over a snapshot; the liveness predicates |
| `Daemon` | daemon.go | unit validation (`loadSupervisor`), `loadCommand`, `loadJavaArguments`, the `.disabled` scan |
| `Rotation` | rotateFile.go | the size-rotated log file over a file system given as a map from names to contents |

State that the Go code updates in place appears as a `class` whose methods
carry `modifies` clauses. Examples are the supervisors' `srv_status`, `pid`,
`stdin` and `owner`, the matcher's `offset` and `matched`, and the rotating
file's byte counter and disk. Pure code appears as functions and lemmas. Each
loop of the source is a `while` loop with invariants:

- the matcher's failure chain;
- the retry and respawn loops;
- the pidfile poll loop;
- the child scan of the tree kill;
- the class-path globbing;
- the `.disabled` scan;
- the downward renaming loop of the rotation.

The success marker deserves a note. The matcher's failure chain is an exact
Knuth–Morris–Pratt step, so after any sequence of writes `Matched()` is
exactly "the marker occurs in the concatenation of everything written". The
test table's row `aaabbbc` / `["aaaaaaa","bbb","bc"]` (io_wrap_test.go:41)
expects `false`, and rightly so: the concatenation `aaaaaaabbbbc` has four
`b`s, so the marker `aaabbbc` does not occur in it. The model follows the
code (`StreamMatchTable.AbsentFourBs`).

## Model

| member | source | states |
|---|---|---|
| StreamMatch.CrossingMatch | io_wrap.go:10-22 | the result is the longest l ≤ min(len(s), len(pattern)) with the last l bytes of s equal to the first l bytes of the pattern, 0 when there is none |
| StreamMatch.Match | io_wrap.go:24-46 | given the carried offset (the longest overlap of everything seen before), reports true exactly when the pattern occurs in seen+chunk; otherwise the new offset is the longest overlap of seen+chunk and stays below len(pattern) |
| StreamMatch.OverlapSplits | io_wrap.go:26-40 | an overlap of seen+chunk longer than the chunk continues an overlap of seen by the whole chunk (why the failure chain only consults the pattern) |
| StreamMatch.ChainStep | io_wrap.go:26-40 | while following the failure chain, an overlap of seen of length k exists exactly when the pattern slice already matched has one (the recomputation of offset is exact) |
| StreamMatch.CompletionOccurs | io_wrap.go:42-45 | an overlap of seen completed by the start of the chunk is an occurrence in seen+chunk |
| StreamMatch.OccurrenceSplits | io_wrap.go:24-46 | an occurrence in seen+chunk lies in seen, in the chunk, or across the boundary as an overlap completed by the chunk |
| StreamMatch.MatchWriter.Matched | io_wrap.go:56-58 | Matched() is true exactly when the pattern occurs in everything relayed so far |
| StreamMatch.MatchWriter.Write | io_wrap.go:60-81 | the bytes the sink accepted are relayed unchanged and appended to the history, and the sink's count and error are returned as it gave them (the whole chunk and no error without a sink); matched stays true once set; the callback fires exactly on the write that first completes the marker, at most once in total |
| StreamMatch.Wrap | io_wrap.go:83-88 | no matcher (the sink itself) when the pattern is empty or there is no callback; otherwise a fresh, unmatched writer over the pattern |
| StreamMatch.Feed | io_wrap_test.go:52-71 | writing the chunks one by one relays their concatenation and ends matched exactly when the pattern occurs in it |
| StreamMatchTable.SingleChunkRows | io_wrap_test.go:14-22 | the expected results of the one-chunk rows |
| StreamMatchTable.SplitShortRows | io_wrap_test.go:23-32 | the expected results of the rows that split short markers across chunks |
| StreamMatchTable.RepeatedPrefixRows | io_wrap_test.go:33-40 | the expected results of the rows whose marker starts with a repeated letter |
| StreamMatchTable.AbsentMarkerRows | io_wrap_test.go:41-45 | the five `aaabbbc` rows that expect false: the marker really is absent from each concatenation |
| StreamMatchTable.ManyChunkRows | io_wrap_test.go:46-50 | the expected results of the rows with three and four chunks |
| StreamMatchTable.AbsentFourBs | io_wrap_test.go:41-42 | `aaabbbc` does not occur in `aaaaaaabbbbc`, the concatenation of both the 7/3/2 and the 7/2/3 splits |
| Hjson.FixJson | hjson.go:10-17 | the rewritten text is never longer than the input |
| Hjson.FixJsonUnchanged | hjson.go:10-17 | input without any of the five escapes is returned unchanged |
| Hjson.FixJsonClean | hjson.go:10-17 | none of the escapes `\u003c`, `\u003e`, `\u0026`, `\u0008`, `\u000c` survives in the output (no replacement can form one) |
| Hjson.StepClean | hjson.go:11-15 | one replace-all removes its target and cannot recreate an escape removed before it |
| Text.ReplaceAllRemoves | hjson.go:11-15 | a replacement that cannot overlap its target leaves no occurrence of the target |
| Config.Sprint | utils.go:301-305 | a string prints as itself; a bool prints as "true" or "false" |
| Config.BoolOf | utils.go:38-56 | a bool is read as itself; otherwise only text "1"/"true" gives true and "0"/"false" gives false |
| Config.IntOf | utils.go:58-84 | an integer is read as itself; anything else is its printed text parsed as a base-10 int64 |
| Config.StringsOf | utils.go:153-175 | a list gives one string per element, each being Sprint of that element; a string list is itself; a non-empty string is split on sep (joining the pieces gives it back, and no piece contains sep) or is a singleton when sep is empty; anything else has no value |
| Config.BoolWithDefault | utils.go:38-56 | a missing key or an unreadable value gives the default, otherwise the value read |
| Config.IntWithDefault | utils.go:58-84 | a missing key or an unparsable value gives the default, otherwise the value read |
| Config.StringWithDefault | utils.go:139-151 | a missing key or nil gives the default, otherwise the printed value |
| Config.StringsWithDefault | utils.go:153-175 | a missing key or a value of no list form gives the default, otherwise the list read |
| Config.MapWithDefault | utils.go:177-186 | only a map value is returned; anything else gives the default |
| Config.BoolWithArguments | utils.go:188-207 | the default when no layer has the key |
| Config.IntWithArguments | utils.go:209-237 | the default when no layer has the key |
| Config.DurationWithArguments | utils.go:239-263 | the default when no layer has the key |
| Config.StringWithArguments | utils.go:295-308 | the default when no layer has the key |
| Config.StringsWithArguments | utils.go:310-348 | in merge mode the default comes first; otherwise the default when no layer has the key |
| Config.OneLayerAgrees | utils.go:188-237 | over one layer the layered lookups agree with the single-map lookups |
| Config.LayeredIsChained | utils.go:188-237 | a layered lookup is the first layer's value when that layer yields one, else the lookup over the remaining layers |
| Config.FirstLayerWithKeyDecides | utils.go:295-308 | the first layer containing the key decides the string, even when later layers hold the key too |
| Config.StringLayeredNil | utils.go:295-308 | a nil value in the first layer prints as `<nil>` instead of falling back to the default |
| Config.IntSkipsUnreadable | utils.go:209-237 | a layer whose value does not parse is skipped |
| Config.BoolSkipsUnreadable | utils.go:188-207 | a layer whose value is no boolean is skipped |
| Config.IntReadsPrinted | utils.go:58-84 | an integer written as text reads back as that integer |
| Config.BoolWords | utils.go:38-56 | the text "1"/"true" reads as true, "0"/"false" as false, any other text as the default |
| Config.MergedConcatenates | utils.go:311-319 | merging over layers a+b is merging over a followed by merging over b |
| Config.Uncommented | utils.go:353-356 | the text before the first `#`, trimmed: it holds no `#` and no surrounding white space |
| Config.Assignment | utils.go:360-372 | an accepted assignment has a non-empty key without leading dot and without `=` and a non-empty trimmed value; text without `=` is no assignment |
| Config.ParseLine | utils.go:353-372 | a parsed line yields a non-empty key free of `#`, `=` and leading dots and a non-empty trimmed value free of `#` |
| Config.ParseLineRoundTrip | utils.go:353-372 | `key=value` with a clean key and clean value parses back to exactly (key, value), even when the value contains `=` |
| Config.CollectKeys | utils.go:367-373 | a key is in the result exactly when some line defines it |
| Config.CollectLastWins | utils.go:367-373 | the last line defining a key decides its (expanded) value |
| Config.ParseLines | utils.go:352-356 | one parse result per line, in order |
| Config.PropertiesKeys | utils.go:350-377 | the keys of the properties are exactly those of lines that parse |
| Config.LastDefinitionWins | utils.go:350-377 | a later duplicate key overwrites an earlier one |
| Config.ReadProperties | utils.go:350-377 | the scan loop builds exactly PropertiesOf of the text's lines |
| Supervision.SrvString | supervisor.go:32-44 | 0..3 give SRV_INIT…SRV_STOPPING; any other value gives its decimal text |
| Supervision.ProcString | supervisor.go:46-58 | 0..3 give PROC_INIT…PROC_STOPPING (the constant spelled PROC_STOPPNG included); any other value gives its decimal text |
| Supervision.SrvStringInjective | supervisor.go:32-44 | different statuses have different names |
| Supervision.ProcStringInjective | supervisor.go:46-58 | different process statuses have different names |
| Supervision.NameIsNotNumber | supervisor.go:32-58 | no decimal text equals a status name |
| Supervision.CommandOf | supervisor.go:67-81 | the command keeps path, arguments and directory; its environment is the unit's overrides followed by the inherited environment |
| Supervision.StrategyOf | supervisor.go:194-204 | "__kill___" (three underscores), "" or no stop command force-kill; "__signal__" signals; "__console__" writes to stdin; anything else runs the stop command |
| Supervision.KillSentinelSpelling | supervisor.go:195-203 | "__kill__" (two underscores) runs as a stop command, not as force-kill |
| Supervision.SignalOf | supervisor.go:250-260 | only "kill" and "int" name a signal |
| Supervision.KillBySignal | supervisor.go:245-275 | no arguments: "signal is empty"; an unknown first argument: "signal '<x>' is unsupported"; success exactly when the signal is known, delivered and the process exits in time |
| Supervision.WaitBudget | supervisor.go:320-335 | no budget once the stop command used killTimeout or more; otherwise the rest of killTimeout, positive |
| Supervision.KillByCmd | supervisor.go:314-336 | success exactly when the stop command runs, uses less than killTimeout and the process exits within the rest; "timed out after" otherwise |
| Supervision.KillByCmdWithinBudget | supervisor.go:320-335 | the stop command and the wait together never exceed killTimeout |
| Supervision.ForceKillText | supervisor.go:213-226 | strategy text plus CRLF, then "[sys]<error>" or "[sys] kill process when exit" |
| Supervision.ConsoleText | supervisor.go:290-295 | each console argument is written followed by CRLF, in order |
| Supervision.Written | supervisor.go:290-295 | the number of arguments written is the index of the first failing write, or all of them when none fails |
| Supervision.ConsoleWritten | supervisor.go:290-295 | the lines a console stop writes: each argument plus CRLF, up to the first failing write, all of them without a write error |
| Supervision.ConsoleReport | supervisor.go:277-312 | empty arguments, then stdin not redirected, then the first failing write, then the process lookup, then the wait fail with their own texts, in that order; success exactly when all arguments are written and the process is found and exits in time |
| Supervision.StrategyReport | supervisor.go:194-204 | no report for force-kill; otherwise the report of KillBySignal, ConsoleReport or KillByCmd as StrategyOf selects |
| Supervision.InterruptOutput | supervisor.go:206-226 | a successful strategy writes its own text; a failed one, or force-kill, writes the force-kill text after the strategy's |
| Supervision.UntilStep | supervisor_default.go:81-100 | done when the status is the target; wait while it is the source; any other status fails with the old/new/current names |
| Supervision.UntilOutcome | supervisor_default.go:81-100 | over a sequence of observed statuses: waiting exactly while every status is the source; otherwise the first status that is not the source (with all before it the source) decides, and the outcome is its UntilStep: done for the target, failure for a foreign status |
| Supervision.Supervisor.CasStatus | supervisor.go:128-135 | the status changes only when it equals the expected value, and broadcasts only then |
| Supervision.Supervisor.SetStatus | supervisor.go:137-140 | stores the status and broadcasts |
| Supervision.Supervisor.Start | supervisor.go:118-126 | a loop is launched only from INIT, which becomes STARTING with one broadcast; from any other status nothing changes; pid, output, stdin and the force-kill trace are untouched |
| Supervision.Supervisor.Stop | supervisor.go:171-180 | RUNNING or STARTING becomes STOPPING (one broadcast) and the output and stdin become exactly what interrupt leaves: nothing for pid 0, otherwise InterruptOutput of the strategy's report and the console lines, and the pid joins the force-kill trace exactly when interrupt falls back to killing the tree (ForceKills); any other status changes nothing |
| Supervision.Supervisor.KillByConsole | supervisor.go:277-312 | the report is ConsoleReport (the error text "stdin is not redirect." included); with arguments and a redirected stdin the arguments up to the first failing write are written, each plus CRLF, and stdin stays open (unlike the default supervisor's version); otherwise stdin is untouched |
| Supervision.Supervisor.Interrupt | supervisor.go:182-227 | pid 0 does nothing; otherwise the output grows by InterruptOutput of the selected strategy's report: force-kill strategies kill at once, a strategy that succeeds writes its text, one that fails is followed by a force kill; the pid is appended to the force-kill trace exactly when the child exists and the strategy is force-kill or did not succeed; the console strategy writes its lines to a redirected stdin |
| DefaultSupervision.StopStep | supervisor_default.go:124-133 | the status a stop leaves: STOPPING from RUNNING, STARTING or STOPPING, otherwise unchanged |
| DefaultSupervision.ReadyStep | supervisor_default.go:267-269 | the status readiness leaves: RUNNING from STARTING or RUNNING, otherwise unchanged |
| DefaultSupervision.StopWins | supervisor_default.go:124-133 | after a stop, readiness no longer changes the status and a second stop changes nothing |
| DefaultSupervision.MaxAttempts | supervisor_default.go:262-266 | at least one attempt, and exactly retries when retries ≥ 1 |
| DefaultSupervision.ConsoleEffect | supervisor_default.go:189-206 | interrupting writes the console lines exactly when there is a child, the console strategy has arguments and stdin is open |
| DefaultSupervision.InterruptText | supervisor_default.go:160-180 | a successful strategy logs its own text; otherwise the force-kill text follows the strategy's |
| DefaultSupervision.DefaultSupervisor.CloseStdin | supervisor_default.go:30-38 | stdin is closed and nothing else changes |
| DefaultSupervision.DefaultSupervisor.CasStatus | supervisor_default.go:59-66 | the status changes only when it equals the expected value, and broadcasts only then |
| DefaultSupervision.DefaultSupervisor.SetStatus | supervisor_default.go:68-71 | stores the status and broadcasts |
| DefaultSupervision.DefaultSupervisor.UntilWith | supervisor_default.go:81-100 | the outcome is UntilOutcome of the statuses observed at each wake-up; done leaves the status at the target |
| DefaultSupervision.DefaultSupervisor.Start | supervisor_default.go:108-122 | launches a loop exactly after a successful INIT→STARTING swap, directly or after waiting out STOPPING; from STARTING/RUNNING nothing happens |
| DefaultSupervision.DefaultSupervisor.KillByConsole | supervisor_default.go:183-222 | the report is ConsoleReport (the error text "stdin is not redirect" included): the write error, lookup error or wait error is the failure text; with arguments stdin ends closed on every path and holds the arguments up to the first failing write, each plus CRLF; without arguments nothing changes |
| DefaultSupervision.DefaultSupervisor.Interrupt | supervisor_default.go:135-181 | pid 0 only logs; otherwise the report is StrategyReport of the stop command, the log grows by InterruptText, the pid is force-killed exactly when the strategy did not succeed, and stdin and console change exactly as the console strategy leaves them |
| DefaultSupervision.DefaultSupervisor.RunStrategy | supervisor_default.go:148-158 | the report is that of the selected strategy (KillBySignal, ConsoleReport or KillByCmd); only the console strategy with arguments touches stdin, closing it after writing up to the first failing write |
| DefaultSupervision.DefaultSupervisor.Stop | supervisor_default.go:124-133 | the status becomes StopStep of the old one; after a swap from RUNNING/STARTING the log, the killed pids, stdin and console are exactly what interrupt leaves; from any other status only the "switching" line is logged |
| DefaultSupervision.DefaultSupervisor.Cleanup | supervisor_default.go:287-312 | every run ends with stdin closed, pid 0, PROC_INIT and the end-of-process log line |
| DefaultSupervision.DefaultSupervisor.Ready | supervisor_default.go:267-269 | the readiness callback's STARTING→RUNNING swap |
| DefaultSupervision.DefaultSupervisor.LogArguments | supervisor_default.go:347-353 | one log line per argument, in order |
| DefaultSupervision.DefaultSupervisor.Relay | supervisor_default.go:324-336 | the child's output is relayed unchanged; readiness fires exactly when a flag is set, the run has a callback and the flag occurs in the output |
| DefaultSupervision.DefaultSupervisor.Run | supervisor_default.go:284-407 | spawns exactly when the status is RUNNING or STARTING; ready exactly when the run has a callback and either no flag is set or the process started and printed the flag; the run is recorded with the status before and after it; every exit resets pid, stdin and process status; the log only grows, and when the child started its whole output appears in what was logged during the run |
| DefaultSupervision.DefaultSupervisor.Checked | supervisor_default.go:287-407 | spawns exactly when the status is RUNNING or STARTING, with the clean-up on both paths; the log only grows, and a started child's whole output appears in what this part of run logged |
| DefaultSupervision.DefaultSupervisor.Launch | supervisor_default.go:318-407 | a failed start still fires the callback when no flag is set; the process-status events are STARTING then RUNNING when the start succeeds |
| DefaultSupervision.DefaultSupervisor.Prepare | supervisor_default.go:318-355 | a stdin pipe exactly for the console strategy when the pipe can be made; one spawn counted |
| DefaultSupervision.DefaultSupervisor.Running | supervisor_default.go:367-378 | ready exactly when the run has a callback and either no flag is set or the flag occurs in the output |
| DefaultSupervision.DefaultSupervisor.Reap | supervisor_default.go:381-406 | a vanished process closes stdin; an exit keeps it |
| DefaultSupervision.DefaultSupervisor.Loop | supervisor_default.go:224-282 | at most max(retries,1) startup attempts, each with a callback, each starting in the status the previous run left; every attempt but the last left the service STARTING, and fewer attempts than allowed (with events to spare) means the last one left STARTING; respawns happen only while RUNNING and have no callback; a finished loop ends neither RUNNING nor still STARTING with attempts to spare, and resets to INIT with pid 0, stdin closed and PROC_INIT |
| PidfileSupervision.FirstLine | supervisor_with_pidfile.go:229-232 | the first line of the file without its line break and one CR; an empty file has none |
| PidfileSupervision.ParseIntError | supervisor_with_pidfile.go:235-237 | the strconv error texts for an empty line and an out-of-range number |
| PidfileSupervision.ReadPidfile | supervisor_with_pidfile.go:218-241 | a pid exactly when the file opens and its first line parses as a base-10 int64; otherwise the open, read or parse error message |
| PidfileSupervision.ReadPidfileRoundTrip | supervisor_with_pidfile.go:218-241 | a pidfile holding a pid's decimal text, with or without a line break and any later lines, reads back as that pid |
| PidfileSupervision.StopTarget | supervisor_with_pidfile.go:142 | the pid read from the pidfile, or 0 when it cannot be read |
| PidfileSupervision.PidfileStopReport | supervisor_with_pidfile.go:143-148 | "__signal__" signals; every other stop program, the force-kill names included, runs as a stop command |
| PidfileSupervision.StopText | supervisor_with_pidfile.go:150-157 | a success logs its text as it is; a failure logs its text followed by CRLF |
| PidfileSupervision.InterruptLog | supervisor_with_pidfile.go:138-157 | nothing is logged without a stop command; otherwise StopText of the strategy's report |
| PidfileSupervision.PidfileSupervisor.Status | supervisor_with_pidfile.go:34-42 | "running, extern" exactly when RUNNING and not the owner; otherwise srvString |
| PidfileSupervision.PidfileSupervisor.UntilWith | supervisor_with_pidfile.go:121-132 | never waits: the last error first, otherwise no error exactly when the status is the expected one |
| PidfileSupervision.PidfileSupervisor.Claim | supervisor_with_pidfile.go:68-71 | the run callback takes ownership only when it wins STARTING→RUNNING |
| PidfileSupervision.PidfileSupervisor.Run | supervisor_with_pidfile.go:160-205 | the callback is called exactly when the process starts, is waited for, and the pidfile appears within 10 polls; once started, the launcher's stdout and stderr output goes to the unit's output, followed by the wait failure or the missing pid file line when there is one |
| PidfileSupervision.PidfileSupervisor.Start | supervisor_with_pidfile.go:44-82 | an existing pidfile is adopted (RUNNING, owner 0, no run, false); otherwise at most retries runs from STARTING, false as soon as the status leaves STARTING, true when all runs fail |
| PidfileSupervision.PidfileSupervisor.Interrupt | supervisor_with_pidfile.go:134-158 | nothing without a stop command; otherwise StopTarget is the pid aimed at and the output grows by InterruptLog, StopText of PidfileStopReport |
| PidfileSupervision.PidfileSupervisor.Stop | supervisor_with_pidfile.go:84-111 | a non-owner never interrupts (RUNNING→INIT, false); the owner needs RUNNING/STARTING→STOPPING, aims the stop strategy at StopTarget, logs StopText of its report and the end line, then goes to INIT with owner 0 and returns true |
| PidfileSupervision.AdoptedIsNeverKilled | supervisor_with_pidfile.go:44-111 | an adopted process is never a kill target: start on an existing pidfile then stop leaves INIT, owner 0 and no target |
| ProcessTree.KillOrder | kill.go:25-44 | pid -1 kills nothing; otherwise pid is killed last |
| ProcessTree.KillProcessAndChildren | kill.go:25-44 | the kills follow KillOrder of the given snapshot (or of the listing, or only pid when listing fails); the result is only pid's own kill error |
| ProcessTree.KillChildren | kill.go:38-42 | every snapshot child of pid is killed with its subtree, in snapshot order |
| ProcessTree.Kill | kill.go:46-48 | a kill lists the processes and kills the tree of pid |
| ProcessTree.KillOrderStaysInTree | kill.go:38-43 | every process killed before the last one is a descendant of the root |
| ProcessTree.ChildrenKilledFirst | kill.go:38-43 | every child of pid is killed before pid itself |
| ProcessTree.UnreachableCycleAdmitted | kill.go:36-43 | a listing holding a self-parented entry that the kill of pid 5 never reaches is admitted, and the kill of 5 kills 5 alone |
| ProcessTree.MatchIgnoresCase | kill.go:77-84 | the image match ignores the case of the executable name and of the image |
| ProcessTree.ProcessExists | kill.go:71-85 | an unknown pid is not alive; with an image, the executable name must contain it ignoring case; a failed lookup panics |
| ProcessTree.FirstWithPid | kill.go:130-139 | the first snapshot entry with the pid, or none |
| ProcessTree.IsInProcessList | kill.go:121-145 | true on a live hit; otherwise the same pid/image rule applied to the cached snapshot |
| Daemon.Base | daemon.go:479 | the last element of a path, never empty |
| Daemon.BaseOfJoin | daemon.go:479 | the base of dir/name with trailing slashes is name |
| Daemon.ClasspathFromGlobs | daemon.go:507-524 | the class path is the concatenation of the globs' matches, skipping empty patterns; it fails exactly when a glob's pattern is bad |
| Daemon.ClasspathErrorSticks | daemon.go:514-516 | the first bad pattern ends the class path |
| Daemon.JavaArgumentsOrder | daemon.go:495-585 | the user's arguments come last and unchanged; `-Xms<size>` comes first when java_mem_mix is set; `-cp` and the class path joined by ';' (Windows) or ':' come right after the memory flags; enabled jmx always switches SSL off |
| Daemon.LoadJavaArguments | daemon.go:495-585 | fails with the glob error, otherwise gives exactly JavaArguments over the class path |
| Daemon.LoadCommand | daemon.go:460-493 | fails exactly when execute is empty or the Java arguments fail, with the message LoadFailure names; the directory falls back to root_dir of the later layers; a bare java runs the configured java |
| Daemon.CommandMap | daemon.go:390-418 | absent, not a map, or the map of the first layer's key |
| Daemon.PidfileStopError | daemon.go:428-437 | with a pidfile, a stop proc "__kill___", "" or "__console__" is rejected with its message |
| Daemon.SettingsError | daemon.go:377-388 | an empty name, retries ≤ 0 or a killTimeout ≤ 0 are rejected with their messages |
| Daemon.LoadSupervisor | daemon.go:367-458 | start must be present and a map, stop must be a map if present; a start or stop command that does not load fails with loadCommand's message (LoadFailure); a pid file unit refuses the force-kill and console stop commands; the result is Ok exactly when none of these rejections applies; on success one unit of the right kind is appended after the existing ones, and its start and stop commands carry the program, arguments, environment and directory loadCommand builds (CommandFits) |
| Daemon.ScanDisabled | daemon.go:140-155 | every `.disabled` key with a yes/no value disables the key minus the suffix, trimmed; any other value is reported invalid |
| Rotation.Slot | rotateFile.go:88 | copy names extend the base name |
| Rotation.SlotInjective | rotateFile.go:88 | different numbers give different copy names |
| Rotation.RotationDeterministic | rotateFile.go:80-137 | a complete rotation has exactly one outcome |
| Rotation.ShiftStep | rotateFile.go:99-113 | one turn of the renaming loop moves copy num to num+1 and keeps every other name |
| Rotation.RotateFile.SlotIsNotLive | rotateFile.go:84-88 | no numbered copy is the live file |
| Rotation.RotateFile.RemoveTop | rotateFile.go:87-96 | copy maxNum is removed if present; only an error other than not-exist fails |
| Rotation.RotateFile.ShiftSlots | rotateFile.go:98-113 | without failures every copy k moves to k+1 for k = maxNum−1 down to 1 and copy 1 is left free; names outside the copies never change |
| Rotation.RotateFile.Move | rotateFile.go:108-112 | rename copy num to num+1; a failed rename removes it instead, and fails only when that fails too |
| Rotation.RotateFile.MoveLive | rotateFile.go:116-125 | the file is closed and the live file renamed to the lowest copy; only an error other than not-exist fails |
| Rotation.RotateFile.Reopen | rotateFile.go:129-136 | the live file is opened (created empty when missing) and the count reset to 0, or the open error is returned |
| Rotation.RotateFile.InitRotate | rotateFile.go:80-137 | without failures an existing live file is rotated completely (RotatedFrom), a missing one created empty; on success the file is open with count 0 |
| Rotation.RotateFile.RotationComplete | rotateFile.go:80-137 | the four steps without failures make a complete rotation |
| Rotation.RotateFile.RotationFrame | rotateFile.go:80-137 | a rotation touches only the live file and the copies |
| Rotation.RotateFile.Write | rotateFile.go:27-55 | a full file is rotated first; a successful write appends the text and adds its length; below the limit a failed write gives 0 and changes neither file nor count; at the limit a rotation that goes through followed by a failed write leaves a fresh empty file, the rotated archives and a count of 0 |
| Rotation.RotateFile.RotateToError | rotateFile.go:21-25 | rotates into the `.error` copies while the renamed source is still the live file |
| Rotation.NewRotateFile | rotateFile.go:69-78 | the writer exists exactly when the first rotation and open succeed; it starts open with count 0 |
| Text.ParseShowInt | supervisor_with_pidfile.go:235 | every int64 printed in decimal parses back to itself |
| Text.Pad4Injective | rotateFile.go:88 | `%04d` is injective |
| Text.Index | io_wrap.go:42 | the first occurrence of the pattern, or none |

## Left out

- Concurrency: goroutines, `sync.Cond` waits and the atomics are a sequential
  state machine. The statuses seen at each wake-up, and whether a stop arrives
  before or while a process runs, are inputs. `go self.interrupt()` runs
  synchronously.
- Operating system, clocks and timers are inputs: spawning, waiting, signals,
  `waitWithTimeout`/`execWithTimeout` (only their outcome and the time a stop
  command used), the one-minute liveness ticker of `run`, and the cron restart
  schedule of `loop`.
- Log timestamps and the log writer's formatting. The log is modelled as the
  text appended to `out`.
- The stale `loop`/`run`/`runPidfile`/`utilExitedBy*` members of supervisor.go
  do not compile and are not modelled; only that file's helpers are.
- `pidFileExists`: an oracle, the pidfile's presence at each poll.
- `ListAllProcess` and its refresh timer: the cached snapshot is an input of
  `IsInProcessList`.
- ProcessTree.KillProcessAndChildren: termination rests on a rank that
  decreases from parent to child along the links the kill of `pid` can follow.
  A snapshot where a parent cycle is reachable from `pid`, on which the Go
  recursion never ends, is outside the model. Entries the kill never visits
  are unconstrained (`UnreachableCycleAdmitted`). KillOrder, KillChildren and
  Kill carry the same requirement.
- `command()` environment: exec's handling of duplicate variables depends on
  the Go runtime, so CommandOf states only the order (overrides first).
- `expandAll` and `os.ExpandEnv`: the expansion of values is a parameter, and
  expandAll's fix-point over map iteration order is not modelled.
- `durationWithDefault`, `timeWithDefault`, `timeWithArguments`: Go time
  parsing. The duration parser is a parameter.
- `loadConfig`, `loadConfigs`, `loadProperties`, `search_java_home`, `New`'s
  file discovery, the hjson library's `HjsonToJSON`/`Unmarshal`: file
  system, templates and foreign libraries. Only `fixJSON` and the `.disabled`
  scan of `New` are modelled.
- Daemon.Base: Unix `filepath.Base` only; the Windows separators are not modelled.
- Daemon.LoadSupervisor: the warning logged when a pidfile unit has a success
  flag is not modelled.
- PidfileSupervision.PidfileSupervisor.Run: the launcher's output is placed
  as one block right after a successful start. In Go a goroutine copies it
  into the unit's output, so it may interleave with the lines logged later.
  Output written after run returns is not modelled either, for example by a
  daemon that inherited the launcher's stdout.
- PidfileSupervision.ParseIntError: the line is quoted with plain double
  quotes. strconv's error quotes it with strconv.Quote, which also escapes
  `"`, `\` and non-printable characters, so lines holding those get a
  different text.
- Config.ReadProperties: every line of the file is read. Go's bufio.Scanner
  stops at a line longer than 64 KiB, and utils.go:352-376 never checks
  `scanner.Err()`, so the rest of such a file is silently ignored. The model
  does not cut the file off there.
- Rotation.ErrorText: a missing file's error is the fixed text "file does
  not exist", without the operation and path that Go's error would name.
- Rotation.RotateFile.Write: also stands for `WriteString`, whose code is the
  same. The error text uses plain quotes where Go's `%q` would escape special
  characters. A write error is all or nothing (no partial count).
- Rotation: a failed `stat` other than a missing file is treated as missing.
  `Flush`, `Sync`, `Close` and the `log to` console line are not modelled.
- manager.go, http.go, pid_file.go, kill_linux.go, the CLI and the mock
  helpers are not part of this model.
- Text.ToLower: ASCII case folding only; non-ASCII letters keep their case.
- `safe_writer` (a mutex around a writer) is not modelled.
- PidfileSupervision.PidfileSupervisor.Start: the recovery from a panic during
  the start attempts (supervisor_with_pidfile.go:57-64) is not modelled.
  That recovery swaps STARTING back to INIT and keeps the panic value as the
  last error. Nothing the model runs can panic.
- PidfileSupervision.PidfileSupervisor.Stop: the recovery from a panic during
  interrupt (supervisor_with_pidfile.go:92-98), which keeps the panic value as
  the last error, is not modelled.
- PidfileSupervision.PidfileSupervisor.UntilWith: because no panic is
  modelled, start and stop only ever clear the last error. The clause for a
  set last error is stated, but no sequence of the model's operations reaches
  it.
- DefaultSupervision.DefaultSupervisor.Loop: the recovery from a panic
  (supervisor_default.go:234-245) is not modelled. It logs "[panic] crashed
  with error" and the call stack, after the same reset as a normal exit.
- DefaultSupervision.DefaultSupervisor.Run: the recovery from a panic
  (supervisor_default.go:298-310) is not modelled. It logs the crash and the
  call stack after the clean-up.
- DefaultSupervision.DefaultSupervisor.Run: the call `self.cleanBefore()`
  (supervisor_default.go:321) is not modelled. No method of that name is
  defined in the source files of this model, so its effect is unknown.
- DefaultSupervision.DefaultSupervisor.Start: when waiting out STOPPING fails,
  the error goes to Go's global logger (supervisor_default.go:113), not to the
  unit's output. That line is not modelled; the model only returns without
  launching a loop.
- StreamMatch.MatchWriter.Write: the sink's count and error are inputs.
  Go's io.Writer rule that a short count comes with an error is not required
  of them.
- Supervision.Supervisor.Interrupt, DefaultSupervision.DefaultSupervisor.Interrupt
  and every other member that logs: the `-print` flag of logString
  (supervisor.go:338-342) is not modelled. That flag sends the text to the
  process's standard output instead. Every log text is appended to `out`.

=== FILE: config.dfy ===
/** The layered configuration lookups of utils.go and its `.properties` reader.
    A unit's settings are a list of layers (maps from key to a decoded value),
    searched in order; the value types are those JSON decoding and the
    properties reader produce. */
module Config {
  import opened Text

  /** A decoded configuration value (Go's `interface{}` as the daemon meets it).
      `Other` stands for any value of another Go type (a JSON number, which Go
      decodes as float64, among them) and carries its fmt.Sprint text. */
  datatype Value =
    | Nil
    | Bool(b: bool)
    | Int(i: int)                        // int, int64 or int32
    | Str(s: string)
    | List(items: seq<Value>)            // []interface{}
    | Strings(strs: seq<string>)         // []string
    | Map(entries: map<string, Value>)   // map[string]interface{}
    | Other(text: string)

  type Layer = map<string, Value>

  // ---------------------------------------------------------------- key order

  /** Byte-wise (code point) order on strings, the order fmt uses for map keys. */
  predicate StrLe(a: string, b: string) {
    a == [] || (b != [] && (a[0] < b[0] || (a[0] == b[0] && StrLe(a[1..], b[1..]))))
  }

  lemma {:induction false} StrLeReflexive(a: string)
    ensures StrLe(a, a)
  {
    if a != [] {
      StrLeReflexive(a[1..]);
    }
  }

  lemma {:induction false} StrLeTotal(a: string, b: string)
    ensures StrLe(a, b) || StrLe(b, a)
  {
    if a != [] && b != [] && a[0] == b[0] {
      StrLeTotal(a[1..], b[1..]);
    }
  }

  lemma {:induction false} StrLeAntisymmetric(a: string, b: string)
    requires StrLe(a, b) && StrLe(b, a)
    ensures a == b
  {
    if a != [] && b != [] {
      StrLeAntisymmetric(a[1..], b[1..]);
      assert a == [a[0]] + a[1..] && b == [b[0]] + b[1..];
    }
  }

  lemma {:induction false} StrLeTransitive(a: string, b: string, c: string)
    requires StrLe(a, b) && StrLe(b, c)
    ensures StrLe(a, c)
  {
    if a != [] && b != [] && c != [] && a[0] == b[0] && b[0] == c[0] {
      StrLeTransitive(a[1..], b[1..], c[1..]);
    }
  }

  predicate IsLeast(k: string, ks: set<string>) {
    k in ks && forall j | j in ks :: StrLe(k, j)
  }

  lemma {:induction false} LeastExists(ks: set<string>)
    requires ks != {}
    ensures exists k :: IsLeast(k, ks)
    decreases |ks|
  {
    var x :| x in ks;
    var rest := ks - {x};
    StrLeReflexive(x);
    if rest == {} {
      assert ks == {x};
      assert IsLeast(x, ks);
    } else {
      LeastExists(rest);
      var m :| IsLeast(m, rest);
      StrLeTotal(x, m);
      if StrLe(x, m) {
        forall j | j in ks ensures StrLe(x, j) {
          if j != x {
            StrLeTransitive(x, m, j);
          }
        }
        assert IsLeast(x, ks);
      } else {
        assert StrLe(m, x);
        assert IsLeast(m, ks);
      }
    }
  }

  lemma LeastUnique(ks: set<string>)
    ensures forall a, b | IsLeast(a, ks) && IsLeast(b, ks) :: a == b
  {
    forall a, b | IsLeast(a, ks) && IsLeast(b, ks) ensures a == b {
      StrLeAntisymmetric(a, b);
    }
  }

  /** The keys of a map in ascending order. */
  function SortedKeys(ks: set<string>): (r: seq<string>)
    ensures |r| == |ks| && forall k | 0 <= k < |r| :: r[k] in ks
    ensures forall i, j | 0 <= i < j < |r| :: StrLe(r[i], r[j])
    decreases |ks|
  {
    if ks == {} then []
    else
      LeastExists(ks);
      LeastUnique(ks);
      var k :| IsLeast(k, ks);
      var rest := SortedKeys(ks - {k});
      [k] + rest
  }

  // ---------------------------------------------------------------- fmt.Sprint

  /** fmt.Sprint of a single value: lists print as `[a b]`, maps as
      `map[k1:v1 k2:v2]` with the keys in ascending order, nil as `<nil>`. */
  function Sprint(v: Value): (s: string)
    ensures v.Str? ==> s == v.s
    ensures v.Bool? ==> (s == "true" <==> v.b) && (s == "false" <==> !v.b)
    decreases v, 1
  {
    match v
    case Nil => "<nil>"
    case Bool(b) => if b then "true" else "false"
    case Int(i) => ShowInt(i)
    case Str(s) => s
    case List(items) => "[" + Join(SprintList(items, v), " ") + "]"
    case Strings(strs) => "[" + Join(strs, " ") + "]"
    case Map(entries) => "map[" + Join(SprintEntries(SortedKeys(entries.Keys), v), " ") + "]"
    case Other(text) => text
  }

  function SprintList(items: seq<Value>, ghost parent: Value): (r: seq<string>)
    requires parent.List? && forall k | 0 <= k < |items| :: items[k] in parent.items
    ensures |r| == |items|
    ensures forall k | 0 <= k < |items| :: r[k] == Sprint(items[k])
    decreases parent, 0, |items|
  {
    if items == [] then [] else [Sprint(items[0])] + SprintList(items[1..], parent)
  }

  function SprintEntries(keys: seq<string>, parent: Value): (r: seq<string>)
    requires parent.Map? && forall k | 0 <= k < |keys| :: keys[k] in parent.entries
    ensures |r| == |keys|
    decreases parent, 0, |keys|
  {
    if keys == [] then []
    else [keys[0] + ":" + Sprint(parent.entries[keys[0]])] + SprintEntries(keys[1..], parent)
  }

  // ---------------------------------------------------------------- per-value readings

  /** How boolWithDefault reads a present value: a bool as itself, otherwise its
      printed text when that is "1"/"true" or "0"/"false"; anything else is no answer. */
  function BoolOf(v: Value): (r: Option<bool>)
    ensures v.Bool? ==> r == Some(v.b)
    ensures r == Some(true) ==> v == Bool(true) || Sprint(v) == "1" || Sprint(v) == "true"
    ensures r == Some(false) ==> v == Bool(false) || Sprint(v) == "0" || Sprint(v) == "false"
  {
    if v.Bool? then Some(v.b)
    else
      var s := Sprint(v);
      if s == "1" || s == "true" then Some(true)
      else if s == "0" || s == "false" then Some(false)
      else None
  }

  /** How intWithDefault reads a present value: an integer as itself, a string
      through strconv.ParseInt, anything else through the same parse of its printed text. */
  function IntOf(v: Value): (r: Option<int>)
    ensures v.Int? ==> r == Some(v.i)
    ensures !v.Int? ==> r == ParseInt(Sprint(v))
  {
    match v
    case Int(i) => Some(i)
    case Str(s) => ParseInt(s)
    case _ => ParseInt(Sprint(v))
  }

  /** How stringsWithDefault reads a present value: a []interface{} element by
      element, a []string as it is, a non-empty string split at `sep` (or whole
      when `sep` is empty); anything else is no answer. */
  function StringsOf(v: Value, sep: string): (r: Option<seq<string>>)
    ensures v.List? ==> r.Some? && |r.value| == |v.items|
    ensures v.List? ==> forall k | 0 <= k < |v.items| :: r.value[k] == Sprint(v.items[k])
    ensures v.Strings? ==> r == Some(v.strs)
    ensures v.Str? && v.s != "" && sep != "" ==> r.Some? && Join(r.value, sep) == v.s
    ensures v.Str? && v.s != "" && sep != "" ==> forall k | 0 <= k < |r.value| :: !Contains(r.value[k], sep)
    ensures v.Str? && v.s != "" && sep == "" ==> r == Some([v.s])
    ensures !(v.List? || v.Strings? || (v.Str? && v.s != "")) ==> r == None
  {
    match v
    case List(items) => Some(SprintList(items, v))
    case Strings(strs) => Some(strs)
    case Str(s) =>
      if s == "" then None
      else if sep == "" then Some([s])
      else
        JoinSplit(s, sep);
        SplitPiecesFree(s, sep);
        Some(Split(s, sep))
    case _ => None
  }

  // ---------------------------------------------------------------- one layer

  /** boolWithDefault. */
  function BoolWithDefault(args: Layer, key: string, defaultValue: bool): (r: bool)
    ensures key !in args ==> r == defaultValue
    ensures key in args && BoolOf(args[key]).Some? ==> r == BoolOf(args[key]).value
    ensures key in args && BoolOf(args[key]).None? ==> r == defaultValue
  {
    if key !in args then defaultValue
    else match BoolOf(args[key])
      case Some(b) => b
      case None => defaultValue
  }

  /** intWithDefault. */
  function IntWithDefault(args: Layer, key: string, defaultValue: int): (r: int)
    ensures key !in args ==> r == defaultValue
    ensures key in args && IntOf(args[key]).Some? ==> r == IntOf(args[key]).value
    ensures key in args && IntOf(args[key]).None? ==> r == defaultValue
  {
    if key !in args then defaultValue
    else match IntOf(args[key])
      case Some(i) => i
      case None => defaultValue
  }

  /** stringWithDefault: a missing key or nil gives the default; a non-empty
      string is itself; anything else (the empty string included) its printed text. */
  function StringWithDefault(args: Layer, key: string, defaultValue: string): (r: string)
    ensures key !in args || args[key] == Nil ==> r == defaultValue
    ensures key in args && args[key] != Nil ==> r == Sprint(args[key])
  {
    if key !in args then defaultValue
    else if args[key] == Nil then defaultValue
    else if args[key].Str? && args[key].s != "" then args[key].s
    else Sprint(args[key])
  }

  /** stringsWithDefault. */
  function StringsWithDefault(args: Layer, key: string, sep: string, defaultValue: seq<string>): (r: seq<string>)
    ensures key !in args ==> r == defaultValue
    ensures key in args && StringsOf(args[key], sep).Some? ==> r == StringsOf(args[key], sep).value
    ensures key in args && StringsOf(args[key], sep).None? ==> r == defaultValue
  {
    if key !in args then defaultValue
    else match StringsOf(args[key], sep)
      case Some(ss) => ss
      case None => defaultValue
  }

  /** mapWithDefault: only a map value is taken. */
  function MapWithDefault(args: Layer, key: string, defaultValue: Layer): (r: Layer)
    ensures key in args && args[key].Map? ==> r == args[key].entries
    ensures !(key in args && args[key].Map?) ==> r == defaultValue
  {
    if key in args && args[key].Map? then args[key].entries else defaultValue
  }

  // ---------------------------------------------------------------- several layers

  /** boolWithArguments: the first layer whose value for `key` reads as a bool. */
  function BoolWithArguments(layers: seq<Layer>, key: string, defaultValue: bool): (r: bool)
    ensures (forall k | 0 <= k < |layers| :: key !in layers[k]) ==> r == defaultValue
  {
    if layers == [] then defaultValue
    else if key in layers[0] && BoolOf(layers[0][key]).Some? then BoolOf(layers[0][key]).value
    else BoolWithArguments(layers[1..], key, defaultValue)
  }

  /** intWithArguments: the first layer whose value for `key` reads as an integer. */
  function IntWithArguments(layers: seq<Layer>, key: string, defaultValue: int): (r: int)
    ensures (forall k | 0 <= k < |layers| :: key !in layers[k]) ==> r == defaultValue
  {
    if layers == [] then defaultValue
    else if key in layers[0] && IntOf(layers[0][key]).Some? then IntOf(layers[0][key]).value
    else IntWithArguments(layers[1..], key, defaultValue)
  }

  /** durationWithArguments: the first layer whose value for `key` parses as a
      duration. time.ParseDuration is a parameter of the model (nanoseconds or no answer). */
  function DurationWithArguments(layers: seq<Layer>, key: string, defaultValue: int,
                                 parseDuration: string -> Option<int>): (r: int)
    ensures (forall k | 0 <= k < |layers| :: key !in layers[k]) ==> r == defaultValue
  {
    if layers == [] then defaultValue
    else if key in layers[0] && parseDuration(Sprint(layers[0][key])).Some? then
      parseDuration(Sprint(layers[0][key])).value
    else DurationWithArguments(layers[1..], key, defaultValue, parseDuration)
  }

  /** stringWithArguments: the value in the first layer that has `key`, printed,
      whatever later layers hold. */
  function StringWithArguments(layers: seq<Layer>, key: string, defaultValue: string): (r: string)
    ensures (forall k | 0 <= k < |layers| :: key !in layers[k]) ==> r == defaultValue
  {
    if layers == [] then defaultValue
    else if key in layers[0] then
      (if layers[0][key].Str? && layers[0][key].s != "" then layers[0][key].s else Sprint(layers[0][key]))
    else StringWithArguments(layers[1..], key, defaultValue)
  }

  /** stringsWithArguments. In merge mode: the default followed by every layer's
      list, in layer order. Otherwise: the list of the first layer whose value
      for `key` reads as a list. */
  function StringsWithArguments(layers: seq<Layer>, key: string, sep: string,
                                defaultValue: seq<string>, merge: bool): (r: seq<string>)
    ensures !merge && (forall k | 0 <= k < |layers| :: key !in layers[k]) ==> r == defaultValue
    ensures merge ==> |r| >= |defaultValue| && r[..|defaultValue|] == defaultValue
  {
    if merge then defaultValue + Merged(layers, key, sep)
    else FirstStrings(layers, key, sep, defaultValue)
  }

  function Merged(layers: seq<Layer>, key: string, sep: string): seq<string> {
    if layers == [] then []
    else StringsWithDefault(layers[0], key, sep, []) + Merged(layers[1..], key, sep)
  }

  function FirstStrings(layers: seq<Layer>, key: string, sep: string, defaultValue: seq<string>): (r: seq<string>)
    ensures (forall k | 0 <= k < |layers| :: key !in layers[k]) ==> r == defaultValue
  {
    if layers == [] then defaultValue
    else if key in layers[0] && StringsOf(layers[0][key], sep).Some? then StringsOf(layers[0][key], sep).value
    else FirstStrings(layers[1..], key, sep, defaultValue)
  }

  // ---------------------------------------------------------------- lookup lemmas

  /** With one layer the layered lookups agree with the single-map ones. */
  lemma OneLayerAgrees(args: Layer, key: string, b: bool, i: int, ss: seq<string>, sep: string)
    ensures BoolWithArguments([args], key, b) == BoolWithDefault(args, key, b)
    ensures IntWithArguments([args], key, i) == IntWithDefault(args, key, i)
    ensures FirstStrings([args], key, sep, ss) == StringsWithDefault(args, key, sep, ss)
  {
    assert [args][1..] == [];
  }

  /** Each layered lookup is the single-map lookup on the first layer, with the
      answer of the remaining layers as its default. */
  lemma LayeredIsChained(layers: seq<Layer>, key: string, b: bool, i: int, ss: seq<string>, sep: string)
    requires |layers| > 0
    ensures BoolWithArguments(layers, key, b) ==
            BoolWithDefault(layers[0], key, BoolWithArguments(layers[1..], key, b))
    ensures IntWithArguments(layers, key, i) ==
            IntWithDefault(layers[0], key, IntWithArguments(layers[1..], key, i))
    ensures FirstStrings(layers, key, sep, ss) ==
            StringsWithDefault(layers[0], key, sep, FirstStrings(layers[1..], key, sep, ss))
  {
  }

  /** For strings the chaining holds except on nil: stringWithDefault treats a
      nil value as missing, stringWithArguments prints it as "<nil>". */
  lemma StringLayeredNil(layers: seq<Layer>, key: string, d: string)
    requires |layers| > 0
    ensures key in layers[0] && layers[0][key] == Nil ==> StringWithArguments(layers, key, d) == "<nil>"
    ensures !(key in layers[0] && layers[0][key] == Nil) ==>
            StringWithArguments(layers, key, d) == StringWithDefault(layers[0], key, StringWithArguments(layers[1..], key, d))
  {
  }

  /** The first layer that has `key` decides stringWithArguments, even when its
      value is empty and a later layer has a non-empty one. */
  lemma {:induction false} FirstLayerWithKeyDecides(layers: seq<Layer>, key: string, defaultValue: string, k: nat)
    requires k < |layers| && key in layers[k]
    requires forall j | 0 <= j < k :: key !in layers[j]
    ensures StringWithArguments(layers, key, defaultValue) ==
            (if layers[k][key].Str? && layers[k][key].s != "" then layers[k][key].s else Sprint(layers[k][key]))
  {
    if k > 0 {
      assert key !in layers[0];
      FirstLayerWithKeyDecides(layers[1..], key, defaultValue, k - 1);
    }
  }

  /** A layer whose value does not read as a number is passed over: the answer
      comes from the later layers. */
  lemma IntSkipsUnreadable(layers: seq<Layer>, key: string, defaultValue: int)
    requires |layers| > 0 && key in layers[0] && IntOf(layers[0][key]).None?
    ensures IntWithArguments(layers, key, defaultValue) == IntWithArguments(layers[1..], key, defaultValue)
  {
  }

  /** Likewise for booleans. */
  lemma BoolSkipsUnreadable(layers: seq<Layer>, key: string, defaultValue: bool)
    requires |layers| > 0 && key in layers[0] && BoolOf(layers[0][key]).None?
    ensures BoolWithArguments(layers, key, defaultValue) == BoolWithArguments(layers[1..], key, defaultValue)
  {
  }

  /** A decimal string written by strconv.Itoa reads back as the same number. */
  lemma IntReadsPrinted(args: Layer, key: string, i: int, defaultValue: int)
    requires IsInt64(i) && key in args && (args[key] == Str(ShowInt(i)) || args[key] == Other(ShowInt(i)))
    ensures IntWithDefault(args, key, defaultValue) == i
  {
    ParseShowInt(i);
  }

  /** Only "1"/"true"/"0"/"false" (or a bool) are read as booleans. */
  lemma BoolWords(args: Layer, key: string, s: string, defaultValue: bool)
    requires key in args && args[key] == Str(s)
    ensures BoolWithDefault(args, key, defaultValue) ==
      (if s == "1" || s == "true" then true else if s == "0" || s == "false" then false else defaultValue)
  {
  }

  /** In merge mode every layer contributes, in order, and no layer is skipped. */
  lemma {:induction false} MergedConcatenates(a: seq<Layer>, b: seq<Layer>, key: string, sep: string)
    ensures Merged(a + b, key, sep) == Merged(a, key, sep) + Merged(b, key, sep)
  {
    if a != [] {
      assert (a + b)[1..] == a[1..] + b;
      MergedConcatenates(a[1..], b, key, sep);
    } else {
      assert a + b == b;
    }
  }

  // ---------------------------------------------------------------- .properties

  /** A character absent from a text is absent from every slice of it. */
  lemma SliceFree(s: string, t: string, i: int, c: char)
    requires 0 <= i <= |s| - |t| && t == s[i..i + |t|] && c !in s
    ensures c !in t
  {
    forall k | 0 <= k < |t| ensures t[k] != c {
      assert t[k] == s[i + k];
    }
  }

  /** A text in which the one-character `[c]` does not occur does not hold `c`. */
  lemma NoCharIn(s: string, c: char)
    requires !Contains(s, [c])
    ensures c !in s
  {
    forall k | 0 <= k < |s| ensures s[k] != c {
      assert !OccursAt(s, [c], k);
      assert s[k..k + 1] == [s[k]];
    }
  }

  lemma TrimSpaceKeepsOut(s: string, c: char)
    requires c !in s
    ensures c !in TrimSpace(s)
  {
    var i :| TrimmedAt(s, TrimSpace(s), i);
    SliceFree(s, TrimSpace(s), i, c);
  }

  lemma TrimLeftCharKeepsOut(s: string, d: char, c: char)
    requires c !in s
    ensures c !in TrimLeftChar(s, d)
  {
    SliceFree(s, TrimLeftChar(s, d), |s| - |TrimLeftChar(s, d)|, c);
  }

  /** A text with no white space at either end is its own TrimSpace. */
  lemma TrimSpaceOfTrimmed(s: string)
    requires s == [] || (!IsSpace(s[0]) && !IsSpace(s[|s| - 1]))
    ensures TrimSpace(s) == s
  {
    assert TrimLeftSpace(s) == s;
    assert TrimRightSpace(s) == s;
  }

  /** The text of a line before its first '#', trimmed. */
  function Uncommented(line: string): (s: string)
    ensures '#' !in s
    ensures s == [] || (!IsSpace(s[0]) && !IsSpace(s[|s| - 1]))
  {
    var before := SplitFirst(line, "#")[0];
    NoCharIn(before, '#');
    TrimSpaceKeepsOut(before, '#');
    TrimSpace(before)
  }

  /** The `key=value` reading of an uncommented line: cut at the first '=';
      the key trimmed and stripped of leading dots, the value trimmed; no
      answer without '=' or with an empty key or value. */
  function Assignment(s: string): (r: Option<(string, string)>)
    ensures r.Some? ==> r.value.0 != "" && r.value.0[0] != '.' && '=' !in r.value.0
    ensures r.Some? ==> r.value.1 != "" && TrimSpace(r.value.1) == r.value.1
    ensures r.Some? && '#' !in s ==> '#' !in r.value.0 && '#' !in r.value.1
    ensures !Contains(s, "=") ==> r == None
  {
    var parts := SplitFirst(s, "=");
    if |parts| != 2 then None
    else
      var key := TrimLeftChar(TrimSpace(parts[0]), '.');
      var value := TrimSpace(parts[1]);
      if key == "" || value == "" then None
      else
        AssignmentFree(s, parts[0], parts[1]);
        TrimSpaceIdempotent(parts[1]);
        Some((key, value))
  }

  lemma AssignmentFree(s: string, left: string, right: string)
    requires left + "=" + right == s && !Contains(left, "=")
    ensures '=' !in TrimLeftChar(TrimSpace(left), '.')
    ensures '#' !in s ==> '#' !in TrimLeftChar(TrimSpace(left), '.') && '#' !in TrimSpace(right)
  {
    NoCharIn(left, '=');
    TrimSpaceKeepsOut(left, '=');
    TrimLeftCharKeepsOut(TrimSpace(left), '.', '=');
    if '#' !in s {
      assert s[..|left|] == left && s[|left| + 1..] == right;
      SliceFree(s, left, 0, '#');
      SliceFree(s, right, |left| + 1, '#');
      TrimSpaceKeepsOut(left, '#');
      TrimLeftCharKeepsOut(TrimSpace(left), '.', '#');
      TrimSpaceKeepsOut(right, '#');
    }
  }

  /** One line of a .properties file: blank and comment-only lines, lines
      without '=' and lines with an empty key or value define nothing. */
  function ParseLine(line: string): (r: Option<(string, string)>)
    ensures r.Some? ==> r.value.0 != "" && r.value.0[0] != '.' && '#' !in r.value.0 && '=' !in r.value.0
    ensures r.Some? ==> r.value.1 != "" && '#' !in r.value.1 && TrimSpace(r.value.1) == r.value.1
  {
    var s := Uncommented(line);
    if s == "" then None else Assignment(s)
  }

  /** A character that is in neither half of `x + [m] + y` and is not `m` does not occur in it. */
  lemma JoinedFree(x: string, m: char, y: string, c: char)
    requires c !in x && c !in y && c != m
    ensures !Contains(x + [m] + y, [c])
  {
    var t := x + [m] + y;
    forall k | 0 <= k <= |t| - 1 ensures !OccursAt(t, [c], k) {
      assert t[k..k + 1] == [t[k]];
      if k < |x| {
        assert t[k] == x[k];
      } else if k > |x| {
        assert t[k] == y[k - |x| - 1];
      }
    }
  }

  /** Cutting `key + "=" + value` at its first '=' gives back the two halves. */
  lemma SplitAtFirstEquals(key: string, value: string)
    requires '=' !in key
    ensures SplitFirst(key + "=" + value, "=") == [key, value]
  {
    var line := key + "=" + value;
    assert Index(line, "=") == |key| by {
      assert OccursAt(line, "=", |key|);
      forall j | 0 <= j < |key| ensures !OccursAt(line, "=", j) {
        assert line[j..j + 1] == [key[j]];
      }
    }
    assert line[..|key|] == key && line[|key| + 1..] == value;
  }

  /** A clean `key=value` line reads back as that pair. */
  lemma ParseLineRoundTrip(key: string, value: string)
    requires key != "" && value != "" && key[0] != '.'
    requires '#' !in key && '#' !in value && '=' !in key
    requires TrimSpace(key) == key && TrimSpace(value) == value
    ensures ParseLine(key + "=" + value) == Some((key, value))
  {
    var line := key + "=" + value;
    JoinedFree(key, '=', value, '#');
    assert SplitFirst(line, "#")[0] == line;
    assert line[0] == key[0] && line[|line| - 1] == value[|value| - 1];
    TrimSpaceOfTrimmed(line);
    assert Uncommented(line) == line;
    SplitAtFirstEquals(key, value);
    assert TrimLeftChar(key, '.') == key;
    assert Assignment(line) == Some((key, value));
  }

  /** The `i`-th parsed line defines `key`. */
  predicate DefinesAt(entries: seq<Option<(string, string)>>, i: int, key: string) {
    0 <= i < |entries| && entries[i].Some? && entries[i].value.0 == key
  }

  /** The map built from parsed lines in order, each definition storing its
      expanded value and later definitions overwriting earlier ones. */
  function Collect(entries: seq<Option<(string, string)>>, expand: string -> string): map<string, string> {
    if entries == [] then map[]
    else
      var m := Collect(entries[..|entries| - 1], expand);
      match entries[|entries| - 1]
      case None => m
      case Some(kv) => m[kv.0 := expand(kv.1)]
  }

  /** One more entry updates the map with that entry alone. */
  lemma CollectSnoc(entries: seq<Option<(string, string)>>, n: nat, expand: string -> string)
    requires n < |entries|
    ensures Collect(entries[..n + 1], expand) ==
            if entries[n].Some? then Collect(entries[..n], expand)[entries[n].value.0 := expand(entries[n].value.1)]
            else Collect(entries[..n], expand)
  {
    assert entries[..n + 1][..n] == entries[..n];
  }

  /** A key is in the map exactly when some entry defines it. */
  lemma {:induction false} CollectKeys(entries: seq<Option<(string, string)>>, expand: string -> string, key: string)
    ensures key in Collect(entries, expand) <==> exists i :: DefinesAt(entries, i, key)
  {
    if entries != [] {
      var init := entries[..|entries| - 1];
      CollectKeys(init, expand, key);
      var last := entries[|entries| - 1];
      if last.Some? && last.value.0 == key {
        assert DefinesAt(entries, |entries| - 1, key);
      }
      if exists i :: DefinesAt(init, i, key) {
        var i :| DefinesAt(init, i, key);
        assert DefinesAt(entries, i, key);
      }
      if exists i :: DefinesAt(entries, i, key) {
        var i :| DefinesAt(entries, i, key);
        if i < |init| {
          assert DefinesAt(init, i, key);
        }
      }
    }
  }

  /** The value of a key is the expansion of its last definition. */
  lemma {:induction false} CollectLastWins(entries: seq<Option<(string, string)>>, expand: string -> string, i: int)
    requires 0 <= i < |entries| && entries[i].Some?
    requires forall j | i < j :: !DefinesAt(entries, j, entries[i].value.0)
    ensures entries[i].value.0 in Collect(entries, expand)
    ensures Collect(entries, expand)[entries[i].value.0] == expand(entries[i].value.1)
  {
    var init := entries[..|entries| - 1];
    if i < |entries| - 1 {
      assert init[i] == entries[i];
      forall j | i < j ensures !DefinesAt(init, j, init[i].value.0) {
        if j < |init| {
          assert !DefinesAt(entries, j, entries[i].value.0);
        }
      }
      CollectLastWins(init, expand, i);
      assert !DefinesAt(entries, |entries| - 1, entries[i].value.0);
    }
  }

  function ParseLines(lines: seq<string>): (entries: seq<Option<(string, string)>>)
    ensures |entries| == |lines| && forall k | 0 <= k < |lines| :: entries[k] == ParseLine(lines[k])
  {
    seq(|lines|, k requires 0 <= k < |lines| => ParseLine(lines[k]))
  }

  /** The map readProperties builds from the lines of a file, before expandAll;
      `expand` stands for os.ExpandEnv over the process environment. */
  function PropertiesOf(lines: seq<string>, expand: string -> string): map<string, string> {
    Collect(ParseLines(lines), expand)
  }

  /** A key is in the map exactly when some line defines it. */
  lemma PropertiesKeys(lines: seq<string>, expand: string -> string, key: string)
    ensures key in PropertiesOf(lines, expand) <==>
            exists i | 0 <= i < |lines| :: ParseLine(lines[i]).Some? && ParseLine(lines[i]).value.0 == key
  {
    var entries := ParseLines(lines);
    CollectKeys(entries, expand, key);
    if exists i :: DefinesAt(entries, i, key) {
      var i :| DefinesAt(entries, i, key);
      assert ParseLine(lines[i]) == entries[i];
    }
    if exists i | 0 <= i < |lines| :: ParseLine(lines[i]).Some? && ParseLine(lines[i]).value.0 == key {
      var i :| 0 <= i < |lines| && ParseLine(lines[i]).Some? && ParseLine(lines[i]).value.0 == key;
      assert DefinesAt(entries, i, key);
    }
  }

  /** The value of a key is the expansion of the value on the last line that defines it. */
  lemma LastDefinitionWins(lines: seq<string>, expand: string -> string, i: int, key: string, value: string)
    requires 0 <= i < |lines| && ParseLine(lines[i]) == Some((key, value))
    requires forall j | i < j < |lines| :: ParseLine(lines[j]).None? || ParseLine(lines[j]).value.0 != key
    ensures key in PropertiesOf(lines, expand) && PropertiesOf(lines, expand)[key] == expand(value)
  {
    var entries := ParseLines(lines);
    forall j | i < j ensures !DefinesAt(entries, j, key) {
      if j < |lines| {
        assert entries[j] == ParseLine(lines[j]);
      }
    }
    CollectLastWins(entries, expand, i);
  }

  /** readProperties up to expandAll: reads `text` line by line, as
      bufio.Scanner splits it, and fills the map. */
  method ReadProperties(text: string, expand: string -> string) returns (cfg: map<string, string>)
    ensures cfg == PropertiesOf(Lines(text), expand)
  {
    var lines := Lines(text);
    ghost var entries := ParseLines(lines);
    cfg := map[];
    var n := 0;
    while n < |lines|
      invariant n <= |lines|
      invariant cfg == Collect(entries[..n], expand)
    {
      CollectSnoc(entries, n, expand);
      var parsed := ParseLine(lines[n]);
      assert parsed == entries[n];
      if parsed.Some? {
        cfg := cfg[parsed.value.0 := expand(parsed.value.1)];
      }
      n := n + 1;
    }
    assert entries[..n] == entries;
  }
}

=== FILE: daemon.dfy ===
/** daemon.go: turning a unit's configuration layers into a supervisor
    description (loadSupervisor, loadCommand, loadJavaArguments), and the scan
    of `<name>.disabled` settings. The layers are searched in order, the unit's
    own map first. Path resolution, globbing and time.ParseDuration are inputs. */
module Daemon {
  import opened Text
  import opened Config
  import opened Supervision

  datatype Result<T> = Ok(value: T) | Err(msg: string)

  /** A loaded unit: which supervisor runs it, and its settings. */
  datatype Unit =
    | DefaultUnit(name: string, mode: string, retries: int, killTimeout: int,
                  start: Command, stop: Option<Command>, successFlag: string)
    | PidfileUnit(name: string, mode: string, retries: int, killTimeout: int,
                  start: Command, stop: Option<Command>, pidfile: string)

  /** What the host provides: the default java executable, whether paths and
      class paths follow Windows conventions, filepath.Glob, the absolute and
      cleaned form of a path, and time.ParseDuration (in nanoseconds). */
  datatype Host = Host(javaPath: string, windows: bool, glob: string -> Glob,
                       absClean: string -> string, parseDuration: string -> Option<int>)

  /** filepath.Glob's answer: the matching names (none when nothing matches),
      or a malformed pattern. */
  datatype Glob = Matches(files: seq<string>) | BadPattern(err: string)

  const Second := 1_000_000_000

  // ---------------------------------------------------------------- file names

  /** Drops every trailing '/'. */
  function TrimTrailingSlashes(p: string): (r: string)
    ensures |r| <= |p| && r == p[..|r|]
    ensures r == [] || r[|r| - 1] != '/'
    ensures forall k | |r| <= k < |p| :: p[k] == '/'
  {
    if p != [] && p[|p| - 1] == '/' then TrimTrailingSlashes(p[..|p| - 1]) else p
  }

  /** The text after the last '/'. */
  function AfterLastSlash(p: string): (r: string)
    ensures '/' !in r
    ensures |r| <= |p| && r == p[|p| - |r|..]
    ensures |r| < |p| ==> p[|p| - |r| - 1] == '/'
  {
    if p == [] || p[|p| - 1] == '/' then []
    else
      var r := AfterLastSlash(p[..|p| - 1]) + [p[|p| - 1]];
      assert p[..|p| - 1] + [p[|p| - 1]] == p;
      r
  }

  /** filepath.Base with '/' separators: the last element of the path,
      trailing separators ignored; "." for the empty path and "/" for a path
      of separators only. */
  function Base(p: string): (b: string)
    ensures b != ""
    ensures b == "/" || '/' !in b
  {
    if p == "" then "."
    else
      var q := TrimTrailingSlashes(p);
      if q == "" then "/" else AfterLastSlash(q)
  }

  /** The last element of `dir/name` is `name`, however many separators follow. */
  lemma BaseOfJoin(dir: string, name: string, trailing: nat)
    requires name != "" && '/' !in name
    ensures Base(dir + "/" + name + Slashes(trailing)) == name
  {
    var p := dir + "/" + name + Slashes(trailing);
    var q := dir + "/" + name;
    TrimmedJoin(q, trailing);
    assert TrimTrailingSlashes(p) == q;
    AfterSlashIs(dir, name);
  }

  function Slashes(n: nat): (s: string)
    ensures |s| == n && forall k | 0 <= k < n :: s[k] == '/'
  {
    if n == 0 then "" else Slashes(n - 1) + "/"
  }

  lemma {:induction false} TrimmedJoin(q: string, n: nat)
    requires q != [] && q[|q| - 1] != '/'
    ensures TrimTrailingSlashes(q + Slashes(n)) == q
  {
    if n > 0 {
      var p := q + Slashes(n);
      assert p[..|p| - 1] == q + Slashes(n - 1);
      TrimmedJoin(q, n - 1);
    } else {
      assert q + Slashes(0) == q;
    }
  }

  lemma {:induction false} AfterSlashIs(dir: string, name: string)
    requires '/' !in name
    ensures AfterLastSlash(dir + "/" + name) == name
    decreases |name|
  {
    var p := dir + "/" + name;
    if name == [] {
      assert p[|p| - 1] == '/';
    } else {
      assert p[..|p| - 1] == dir + "/" + name[..|name| - 1];
      AfterSlashIs(dir, name[..|name| - 1]);
      assert name[..|name| - 1] + [name[|name| - 1]] == name;
    }
  }

  /** loadCommand recognises a java launcher by its last path element, in any case. */
  predicate IsJava(proc: string) {
    ToLower(Base(proc)) == "java" || ToLower(Base(proc)) == "java.exe"
  }

  // ---------------------------------------------------------------- java command line

  /** The class path: the matches of every non-empty pattern, in order; the
      first malformed pattern is an error. */
  function Classpath(patterns: seq<string>, glob: string -> Glob): (r: Result<seq<string>>)
  {
    if patterns == [] then Ok([])
    else
      var p := patterns[|patterns| - 1];
      match Classpath(patterns[..|patterns| - 1], glob)
      case Err(e) => Err(e)
      case Ok(cp) =>
        if p == "" then Ok(cp)
        else match glob(p)
          case BadPattern(e) => Err(e)
          case Matches(fs) => Ok(cp + fs)
  }

  /** A class path is found exactly when no non-empty pattern is malformed,
      and it then holds the matches of every non-empty pattern and nothing else. */
  lemma {:induction false} ClasspathFromGlobs(patterns: seq<string>, glob: string -> Glob)
    ensures Classpath(patterns, glob).Ok? <==>
            forall i | 0 <= i < |patterns| && patterns[i] != "" :: glob(patterns[i]).Matches?
    ensures Classpath(patterns, glob).Ok? ==>
            (forall i, f | 0 <= i < |patterns| && patterns[i] != "" && f in glob(patterns[i]).files ::
               f in Classpath(patterns, glob).value) &&
            (forall f | f in Classpath(patterns, glob).value ::
               exists i | 0 <= i < |patterns| :: patterns[i] != "" && glob(patterns[i]).Matches? && f in glob(patterns[i]).files)
    ensures Classpath(patterns, glob).Err? ==>
            exists i | 0 <= i < |patterns| :: patterns[i] != "" && glob(patterns[i]) == BadPattern(Classpath(patterns, glob).msg)
  {
    if patterns != [] {
      var init := patterns[..|patterns| - 1];
      var p := patterns[|patterns| - 1];
      ClasspathFromGlobs(init, glob);
      assert forall i | 0 <= i < |init| :: init[i] == patterns[i];
    }
  }

  /** The "-cp" option, when the class path is not empty; entries are joined
      with ';' on Windows and ':' elsewhere. */
  function ClasspathFlags(cp: seq<string>, windows: bool): seq<string> {
    if cp == [] then [] else ["-cp", Join(cp, if windows then ";" else ":")]
  }

  function MemoryFlags(layers: seq<Layer>): seq<string> {
    var ms := StringWithArguments(layers, "java_mem_mix", "");
    var mx := StringWithArguments(layers, "java_mem_max", "");
    (if ms != "" then ["-Xms" + ms] else []) + (if mx != "" then ["-Xmx" + mx] else [])
  }

  function DebugFlags(layers: seq<Layer>): seq<string> {
    var debug := StringWithArguments(layers, "java_debug", "");
    if debug == "" then []
    else if BoolWithArguments(layers, "java_debug_suspend", false) then
      ["-agentlib:jdwp=transport=dt_socket,server=y,suspend=y,address=" + debug]
    else ["-agentlib:jdwp=transport=dt_socket,server=y,suspend=n,address=" + debug]
  }

  predicate JmxEnabled(layers: seq<Layer>) {
    var o := StringWithArguments(layers, "jmx_option", "");
    o == "true" || o == "enable"
  }

  const JmxSsl := "-Dcom.sun.management.jmxremote.ssl=false"

  function JmxFlags(layers: seq<Layer>): seq<string> {
    if !JmxEnabled(layers) then []
    else
      var port := StringWithArguments(layers, "jmx_port", "");
      var password := StringWithArguments(layers, "jmx_password", "");
      var access := StringWithArguments(layers, "jmx_access", "");
      ["-Dcom.sun.management.jmxremote"] +
      (if port != "" then ["-Dcom.sun.management.jmxremote.port=" + port] else []) +
      (if access != "" && password != "" then
         ["-Dcom.sun.management.jmxremote.authenticate=true",
          "-Dcom.sun.management.jmxremote.access.file=" + access,
          "-Dcom.sun.management.jmxremote.password.file=" + password]
       else ["-Dcom.sun.management.jmxremote.authenticate=false"]) +
      [JmxSsl]
  }

  function NonEmpty(s: string): seq<string> {
    if s == "" then [] else [s]
  }

  /** Everything loadJavaArguments puts after the class path and before the
      user's arguments. */
  function JavaTail(layers: seq<Layer>): seq<string> {
    DebugFlags(layers) + JmxFlags(layers) +
    StringsWithArguments(layers, "java_options", ",", [], false) +
    NonEmpty(StringWithArguments(layers, "java_class", "")) +
    NonEmpty(StringWithArguments(layers, "java_jar", ""))
  }

  /** The JVM command line loadJavaArguments builds around the user's arguments. */
  function JavaArguments(arguments: seq<string>, layers: seq<Layer>, cp: seq<string>, windows: bool): seq<string> {
    MemoryFlags(layers) + ClasspathFlags(cp, windows) + JavaTail(layers) + arguments
  }

  /** The order of the java command line: memory sizes first, then the class
      path, the user's arguments last; the jmx switches always turn SSL off. */
  lemma JavaArgumentsOrder(arguments: seq<string>, layers: seq<Layer>, cp: seq<string>, windows: bool)
    ensures var r := JavaArguments(arguments, layers, cp, windows);
            |r| >= |arguments| && r[|r| - |arguments|..] == arguments
    ensures var r := JavaArguments(arguments, layers, cp, windows);
            StringWithArguments(layers, "java_mem_mix", "") != "" ==> r[0] == "-Xms" + StringWithArguments(layers, "java_mem_mix", "")
    ensures var r := JavaArguments(arguments, layers, cp, windows);
            JmxEnabled(layers) ==> JmxSsl in r
    ensures var r := JavaArguments(arguments, layers, cp, windows);
            cp != [] ==> r[|MemoryFlags(layers)|] == "-cp" && r[|MemoryFlags(layers)| + 1] == Join(cp, if windows then ";" else ":")
  {
    JavaArgumentsLast(arguments, layers, cp, windows);
    JavaMemoryFirst(arguments, layers, cp, windows);
    JavaJmxSsl(arguments, layers, cp, windows);
    JavaClasspathSecond(arguments, layers, cp, windows);
  }

  lemma JavaArgumentsLast(arguments: seq<string>, layers: seq<Layer>, cp: seq<string>, windows: bool)
    ensures var r := JavaArguments(arguments, layers, cp, windows);
            |r| >= |arguments| && r[|r| - |arguments|..] == arguments
  {
    var head := MemoryFlags(layers) + ClasspathFlags(cp, windows) + JavaTail(layers);
    assert JavaArguments(arguments, layers, cp, windows) == head + arguments;
    assert (head + arguments)[|head|..] == arguments;
  }

  lemma JavaMemoryFirst(arguments: seq<string>, layers: seq<Layer>, cp: seq<string>, windows: bool)
    ensures var ms := StringWithArguments(layers, "java_mem_mix", "");
            ms != "" ==> JavaArguments(arguments, layers, cp, windows)[0] == "-Xms" + ms
  {
    var m := MemoryFlags(layers);
    if StringWithArguments(layers, "java_mem_mix", "") != "" {
      assert |m| > 0 && m[0] == "-Xms" + StringWithArguments(layers, "java_mem_mix", "");
    }
  }

  lemma JavaJmxSsl(arguments: seq<string>, layers: seq<Layer>, cp: seq<string>, windows: bool)
    ensures JmxEnabled(layers) ==> JmxSsl in JavaArguments(arguments, layers, cp, windows)
  {
    if JmxEnabled(layers) {
      var j := JmxFlags(layers);
      assert j[|j| - 1] == JmxSsl;
      assert JmxSsl in DebugFlags(layers) + j;
      assert JmxSsl in JavaTail(layers);
      assert JmxSsl in MemoryFlags(layers) + ClasspathFlags(cp, windows) + JavaTail(layers);
    }
  }

  lemma JavaClasspathSecond(arguments: seq<string>, layers: seq<Layer>, cp: seq<string>, windows: bool)
    ensures var r := JavaArguments(arguments, layers, cp, windows);
            cp != [] ==> r[|MemoryFlags(layers)|] == "-cp" && r[|MemoryFlags(layers)| + 1] == Join(cp, if windows then ";" else ":")
  {
    var c := ClasspathFlags(cp, windows);
    if cp != [] {
      assert |c| == 2 && c[0] == "-cp";
    }
  }

  /** loadJavaArguments: memory sizes, class path (each non-empty pattern
      expanded by glob), debug agent, jmx switches, java_options, class, jar,
      then the user's arguments; a malformed class path pattern is an error. */
  method LoadJavaArguments(arguments: seq<string>, layers: seq<Layer>, host: Host) returns (r: Result<seq<string>>)
    ensures var cp := Classpath(StringsWithArguments(layers, "java_classpath", ";", [], false), host.glob);
            cp.Err? ==> r == Err(cp.msg)
    ensures var cp := Classpath(StringsWithArguments(layers, "java_classpath", ";", [], false), host.glob);
            cp.Ok? ==> r == Ok(JavaArguments(arguments, layers, cp.value, host.windows))
  {
    var results := MemoryFlags(layers);
    var patterns := StringsWithArguments(layers, "java_classpath", ";", [], false);
    var classpath: seq<string> := [];
    var i := 0;
    while i < |patterns|
      invariant 0 <= i <= |patterns|
      invariant Classpath(patterns[..i], host.glob) == Ok(classpath)
    {
      assert patterns[..i + 1][..i] == patterns[..i];
      var p := patterns[i];
      if p != "" {
        match host.glob(p)
        case BadPattern(e) =>
          ClasspathErrorSticks(patterns, host.glob, i + 1);
          return Err(e);
        case Matches(fs) =>
          classpath := classpath + fs;
      }
      i := i + 1;
    }
    assert patterns[..i] == patterns;
    results := results + ClasspathFlags(classpath, host.windows);
    results := results + JavaTail(layers) + arguments;
    return Ok(results);
  }

  /** Once a prefix of the patterns fails, the whole class path fails the same way. */
  lemma {:induction false} ClasspathErrorSticks(patterns: seq<string>, glob: string -> Glob, n: nat)
    requires n <= |patterns| && Classpath(patterns[..n], glob).Err?
    ensures Classpath(patterns, glob) == Classpath(patterns[..n], glob)
    decreases |patterns| - n
  {
    if n < |patterns| {
      assert patterns[..n + 1][..n] == patterns[..n];
      ClasspathErrorSticks(patterns, glob, n + 1);
    } else {
      assert patterns[..n] == patterns;
    }
  }

  // ---------------------------------------------------------------- commands

  /** The working directory loadCommand settles on: the command's own
      `directory`, else `root_dir` from the layers after the first. */
  function DirectoryOf(layers: seq<Layer>): string
    requires layers != []
  {
    var own := StringWithDefault(layers[0], "directory", "");
    if own == "" && 1 < |layers| then StringWithArguments(layers[1..], "root_dir", "") else own
  }

  /** The program loadCommand settles on: `execute`, except that a bare
      "java" or "java.exe" becomes the configured java executable. */
  function ProcOf(layers: seq<Layer>, javaPath: string): string {
    var proc := StringWithArguments(layers, "execute", "");
    if proc == "java" || proc == "java.exe" then StringWithArguments(layers, "java", javaPath) else proc
  }

  /** loadCommand succeeds: `execute` is set, and a java launcher's class path can be built. */
  predicate CommandLoads(layers: seq<Layer>, glob: string -> Glob) {
    var proc := StringWithArguments(layers, "execute", "");
    proc != "" && (IsJava(proc) ==> Classpath(StringsWithArguments(layers, "java_classpath", ";", [], false), glob).Ok?)
  }

  /** The command loadCommand builds from its layers: the program (a bare java
      replaced by the configured one), the directory, the environment, and the
      arguments, which for a java launcher are the full JVM command line. */
  predicate CommandFits(c: Command, layers: seq<Layer>, host: Host) {
    layers != [] && c.proc == ProcOf(layers, host.javaPath) &&
    c.directory == DirectoryOf(layers) &&
    c.environments == StringsWithArguments(layers, "environments", "", [], false) &&
    (!IsJava(StringWithArguments(layers, "execute", "")) ==>
       c.arguments == StringsWithArguments(layers, "arguments", "", [], false)) &&
    (IsJava(StringWithArguments(layers, "execute", "")) ==>
       var cp := Classpath(StringsWithArguments(layers, "java_classpath", ";", [], false), host.glob);
       cp.Ok? && c.arguments == JavaArguments(StringsWithArguments(layers, "arguments", "", [], false), layers, cp.value, host.windows))
  }

  /** The message loadCommand fails with: a missing `execute`, or the class
      path error of a java launcher. */
  function LoadFailure(layers: seq<Layer>, glob: string -> Glob): string
    requires !CommandLoads(layers, glob)
  {
    if StringWithArguments(layers, "execute", "") == "" then "'execute' is missing."
    else Classpath(StringsWithArguments(layers, "java_classpath", ";", [], false), glob).msg
  }

  /** loadCommand: `execute` is required; arguments and environment are read as
      lists; a java launcher gets its JVM command line built, and a bare
      "java"/"java.exe" is replaced by the configured java executable. */
  method LoadCommand(layers: seq<Layer>, host: Host) returns (r: Result<Command>)
    ensures r.Ok? <==> CommandLoads(layers, host.glob)
    ensures StringWithArguments(layers, "execute", "") == "" ==> r == Err("'execute' is missing.")
    ensures StringWithArguments(layers, "execute", "") != "" && r.Err? ==>
            Classpath(StringsWithArguments(layers, "java_classpath", ";", [], false), host.glob) == Err(r.msg)
    ensures r.Ok? ==> CommandFits(r.value, layers, host)
    ensures r.Err? ==> r.msg == LoadFailure(layers, host.glob)
  {
    var proc := StringWithArguments(layers, "execute", "");
    if proc == "" {
      return Err("'execute' is missing.");
    }
    var arguments := StringsWithArguments(layers, "arguments", "", [], false);
    var environments := StringsWithArguments(layers, "environments", "", [], false);
    var directory := DirectoryOf(layers);
    if IsJava(proc) {
      var java := LoadJavaArguments(arguments, layers, host);
      if java.Err? {
        return Err(java.msg);
      }
      arguments := java.value;
    }
    return Ok(Command(ProcOf(layers, host.javaPath), arguments, environments, directory));
  }

  // ---------------------------------------------------------------- units

  const DefaultRetries := 5
  const DefaultKillTimeout := 5 * Second

  /** The command map under `key` in the unit's own layer, as loadSupervisor
      finds it: absent, not a map, or a map. */
  datatype Entry = Absent | NotAMap | Present(m: Layer)

  function CommandMap(layers: seq<Layer>, key: string): (f: Entry)
    requires layers != []
    ensures f.Absent? <==> key !in layers[0]
    ensures f.Present? <==> key in layers[0] && layers[0][key].Map?
    ensures f.Present? ==> f.m == layers[0][key].entries
  {
    if key !in layers[0] then Absent
    else if layers[0][key].Map? then Present(layers[0][key].entries)
    else NotAMap
  }

  /** The layers a command is read from: its own map, then the unit's other layers. */
  function CommandLayers(m: Layer, layers: seq<Layer>): seq<Layer>
    requires layers != []
  {
    [m] + layers[1..]
  }

  /** The stop strategies a pid file supervisor cannot carry out. */
  function PidfileStopError(stop: Option<Command>): (e: Option<string>)
    ensures e.Some? <==> stop.Some? && stop.value.proc in {"__kill___", "", "__console__"}
    ensures e.Some? && stop.value.proc == "__console__" ==> e.value == "'__console__' is not unsupported for pidfile"
    ensures e.Some? && stop.value.proc != "__console__" ==> e.value == "'__kill___' is not unsupported for pidfile"
  {
    if stop.None? then None
    else if stop.value.proc == "__kill___" || stop.value.proc == "" then Some("'__kill___' is not unsupported for pidfile")
    else if stop.value.proc == "__console__" then Some("'__console__' is not unsupported for pidfile")
    else None
  }

  /** The first complaint about the unit's name, retries or kill timeout. */
  function SettingsError(layers: seq<Layer>, parseDuration: string -> Option<int>): (e: Option<string>)
    ensures e.None? ==> layers != []
    ensures e.None? <==> StringWithArguments(layers, "name", "") != "" &&
                         IntWithArguments(layers, "retries", DefaultRetries) > 0 &&
                         DurationWithArguments(layers, "killTimeout", DefaultKillTimeout, parseDuration) > 0
    ensures StringWithArguments(layers, "name", "") == "" ==> e == Some("'name' is missing.")
  {
    if StringWithArguments(layers, "name", "") == "" then Some("'name' is missing.")
    else if IntWithArguments(layers, "retries", DefaultRetries) <= 0 then Some("'retries' must is greate 0.")
    else if DurationWithArguments(layers, "killTimeout", DefaultKillTimeout, parseDuration) <= 0 then Some("'killTimeout' must is greate 0s.")
    else None
  }

  /** loadSupervisor: the unit needs a name, positive retries (default 5) and
      a positive kill timeout (default 5s), and a `start` command map; a `stop`
      map is optional. A unit with a pid file gets a pid file supervisor, which
      cannot stop by force-kill or console; any other unit gets the default
      supervisor. The new unit goes after the ones already loaded. */
  method LoadSupervisor(layers: seq<Layer>, supervisors: seq<Unit>, host: Host) returns (r: Result<seq<Unit>>)
    ensures SettingsError(layers, host.parseDuration).Some? ==> r == Err(SettingsError(layers, host.parseDuration).value)
    ensures SettingsError(layers, host.parseDuration).None? && CommandMap(layers, "start").Absent? ==> r == Err("'start' is missing.")
    ensures SettingsError(layers, host.parseDuration).None? && CommandMap(layers, "start").NotAMap? ==> r == Err("'start' is invalid.")
    ensures SettingsError(layers, host.parseDuration).None? && CommandMap(layers, "start").Present? &&
            CommandMap(layers, "stop").NotAMap? && CommandLoads(CommandLayers(CommandMap(layers, "start").m, layers), host.glob) ==>
            r == Err("'stop' is invalid.")
    ensures SettingsError(layers, host.parseDuration).None? && CommandMap(layers, "start").Present? &&
            !CommandLoads(CommandLayers(CommandMap(layers, "start").m, layers), host.glob) ==>
            r == Err(LoadFailure(CommandLayers(CommandMap(layers, "start").m, layers), host.glob))
    ensures SettingsError(layers, host.parseDuration).None? && CommandMap(layers, "start").Present? &&
            CommandLoads(CommandLayers(CommandMap(layers, "start").m, layers), host.glob) &&
            CommandMap(layers, "stop").Present? && !CommandLoads(CommandLayers(CommandMap(layers, "stop").m, layers), host.glob) ==>
            r == Err(LoadFailure(CommandLayers(CommandMap(layers, "stop").m, layers), host.glob))
    ensures SettingsError(layers, host.parseDuration).None? && CommandMap(layers, "start").Present? &&
            CommandLoads(CommandLayers(CommandMap(layers, "start").m, layers), host.glob) &&
            CommandMap(layers, "stop").Present? && CommandLoads(CommandLayers(CommandMap(layers, "stop").m, layers), host.glob) &&
            StringWithArguments(layers, "pidfile", "") != "" &&
            ProcOf(CommandLayers(CommandMap(layers, "stop").m, layers), host.javaPath) in {"__kill___", "", "__console__"} ==>
            r == Err(if ProcOf(CommandLayers(CommandMap(layers, "stop").m, layers), host.javaPath) == "__console__"
                     then "'__console__' is not unsupported for pidfile" else "'__kill___' is not unsupported for pidfile")
    ensures r.Ok? <==>
            SettingsError(layers, host.parseDuration).None? && CommandMap(layers, "start").Present? &&
            CommandLoads(CommandLayers(CommandMap(layers, "start").m, layers), host.glob) &&
            (CommandMap(layers, "stop").Absent? ||
             (CommandMap(layers, "stop").Present? && CommandLoads(CommandLayers(CommandMap(layers, "stop").m, layers), host.glob))) &&
            (StringWithArguments(layers, "pidfile", "") == "" || CommandMap(layers, "stop").Absent? ||
             ProcOf(CommandLayers(CommandMap(layers, "stop").m, layers), host.javaPath) !in {"__kill___", "", "__console__"})
    ensures r.Ok? ==> layers != [] && |r.value| == |supervisors| + 1 && r.value[..|supervisors|] == supervisors
    ensures r.Ok? ==> UnitFits(r.value[|supervisors|], layers, host)
  {
    var problem := SettingsError(layers, host.parseDuration);
    if problem.Some? {
      return Err(problem.value);
    }
    var name := StringWithArguments(layers, "name", "");
    var retries := IntWithArguments(layers, "retries", DefaultRetries);
    var killTimeout := DurationWithArguments(layers, "killTimeout", DefaultKillTimeout, host.parseDuration);
    var startMap := CommandMap(layers, "start");
    if startMap.Absent? {
      return Err("'start' is missing.");
    } else if startMap.NotAMap? {
      return Err("'start' is invalid.");
    }
    var start := LoadCommand(CommandLayers(startMap.m, layers), host);
    if start.Err? {
      return Err(start.msg);
    }
    var stop: Option<Command> := None;
    var stopMap := CommandMap(layers, "stop");
    if stopMap.NotAMap? {
      return Err("'stop' is invalid.");
    } else if stopMap.Present? {
      var loaded := LoadCommand(CommandLayers(stopMap.m, layers), host);
      if loaded.Err? {
        return Err(loaded.msg);
      }
      stop := Some(loaded.value);
    }
    var successFlag := StringWithArguments(layers, "success_flag", "");
    var pidfile := StringWithArguments(layers, "pidfile", "");
    var mode := StringWithArguments(layers, "mode", "");
    var unit: Unit;
    if pidfile != "" {
      var refused := PidfileStopError(stop);
      if refused.Some? {
        return Err(refused.value);
      }
      unit := PidfileUnit(name, mode, retries, killTimeout, start.value, stop, host.absClean(pidfile));
    } else {
      unit := DefaultUnit(name, mode, retries, killTimeout, start.value, stop, successFlag);
    }
    return Ok(supervisors + [unit]);
  }

  /** What a loaded unit holds, read off its configuration layers. */
  predicate UnitFits(u: Unit, layers: seq<Layer>, host: Host)
    requires layers != []
  {
    var pidfile := StringWithArguments(layers, "pidfile", "");
    u.name == StringWithArguments(layers, "name", "") && u.name != "" &&
    u.retries == IntWithArguments(layers, "retries", DefaultRetries) && u.retries > 0 &&
    u.killTimeout == DurationWithArguments(layers, "killTimeout", DefaultKillTimeout, host.parseDuration) && u.killTimeout > 0 &&
    u.mode == StringWithArguments(layers, "mode", "") &&
    CommandMap(layers, "start").Present? && CommandLoads(CommandLayers(CommandMap(layers, "start").m, layers), host.glob) &&
    CommandFits(u.start, CommandLayers(CommandMap(layers, "start").m, layers), host) &&
    (u.stop.Some? <==> CommandMap(layers, "stop").Present?) &&
    (u.stop.Some? ==> CommandFits(u.stop.value, CommandLayers(CommandMap(layers, "stop").m, layers), host)) &&
    (u.PidfileUnit? <==> pidfile != "") &&
    (u.PidfileUnit? ==> u.pidfile == host.absClean(pidfile) && PidfileStopError(u.stop).None?) &&
    (u.DefaultUnit? ==> u.successFlag == StringWithArguments(layers, "success_flag", ""))
  }

  // ---------------------------------------------------------------- disabled units

  /** The unit a `<name>.disabled` key names: the key without the suffix, trimmed. */
  function DisabledUnit(key: string): string {
    TrimSpace(TrimSuffix(key, ".disabled"))
  }

  /** The values a `.disabled` setting may take, once printed and lower-cased. */
  predicate IsSwitch(v: Value) {
    ToLower(Sprint(v)) in {"1", "yes", "true", "0", "no", "false"}
  }

  /** The scan of the settings in New: every `.disabled` key disables its unit,
      whether it says yes or no; a value that is neither ends the program with
      a message. Keys are visited in no particular order (Go map order), so on
      an invalid value the units disabled before it are some of the others. */
  method ScanDisabled(settings: map<string, Value>) returns (disabled: set<string>, invalid: Option<string>)
    ensures invalid.None? <==> forall k | k in settings && HasSuffix(k, ".disabled") :: IsSwitch(settings[k])
    ensures invalid.None? ==> disabled == set k | k in settings && HasSuffix(k, ".disabled") :: DisabledUnit(k)
    ensures invalid.Some? ==> exists k | k in settings && HasSuffix(k, ".disabled") && !IsSwitch(settings[k]) ::
                                invalid.value == "'" + k + "=" + Sprint(settings[k]) + "' is invalid."
    ensures forall n | n in disabled :: exists k | k in settings && HasSuffix(k, ".disabled") :: DisabledUnit(k) == n
  {
    var remaining := settings.Keys;
    disabled := {};
    while remaining != {}
      invariant remaining <= settings.Keys
      invariant forall k | k in settings && k !in remaining && HasSuffix(k, ".disabled") :: IsSwitch(settings[k])
      invariant disabled == DisabledOutside(settings, remaining)
      decreases |remaining|
    {
      var k :| k in remaining;
      DisabledOutsideStep(settings, remaining, k);
      if HasSuffix(k, ".disabled") {
        if !IsSwitch(settings[k]) {
          return disabled, Some("'" + k + "=" + Sprint(settings[k]) + "' is invalid.");
        }
        disabled := disabled + {DisabledUnit(k)};
      }
      remaining := remaining - {k};
    }
    assert DisabledOutside(settings, {}) == set k | k in settings && HasSuffix(k, ".disabled") :: DisabledUnit(k);
    return disabled, None;
  }

  /** The units switched off by the `.disabled` keys already scanned, i.e. not in `remaining`. */
  ghost function DisabledOutside(settings: map<string, Value>, remaining: set<string>): set<string> {
    set k | k in settings && k !in remaining && HasSuffix(k, ".disabled") :: DisabledUnit(k)
  }

  /** Scanning one more key adds its unit when it is a `.disabled` key, and nothing otherwise. */
  lemma DisabledOutsideStep(settings: map<string, Value>, remaining: set<string>, k: string)
    requires k in remaining && k in settings
    ensures DisabledOutside(settings, remaining - {k}) ==
            DisabledOutside(settings, remaining) + (if HasSuffix(k, ".disabled") then {DisabledUnit(k)} else {})
  {
  }
}

=== FILE: default_supervisor.dfy ===
/** supervisor_default.go: the supervisor that owns its child process.
    The service moves INIT -> STARTING -> RUNNING -> STOPPING -> INIT through
    compare-and-swap; a supervision loop makes a bounded number of start
    attempts, then respawns the child for as long as the service is RUNNING.
    Concurrency is flattened: what other goroutines do (a stop request, the
    status changes a waiter wakes up to, the child's output and exit) arrives
    as input to the methods, in the order given. */
module DefaultSupervision {
  import opened Text
  import opened Supervision
  import opened StreamMatch

  /** How a running child ends: Wait returns (with or without an error), or the
      minute ticker no longer finds the pid in the process list. */
  datatype Exit = Exited(waitErr: Option<string>) | Vanished

  /** What happens around one run of the child. */
  datatype RunEvent = RunEvent(
    stopBefore: bool,          // a stop request is handled before the run looks at the status
    path: string,              // the program path the command resolves to
    pipeErr: Option<string>,   // cmd.StdinPipe, for a console stop strategy
    startErr: Option<string>,  // cmd.Start
    newPid: int,               // the child's pid when it starts
    output: seq<string>,       // what the child writes to stdout and stderr, in order
    stopWhileRunning: bool,    // a stop request is handled after that output
    exit: Exit)

  /** One run of the child as the loop launched it: with the readiness callback
      (a start attempt) or without (a respawn), the service state at that
      moment, and the service state when the run returned. */
  datatype RunRecord = RunRecord(withCallback: bool, status: int, after: int)

  /** The state change stop() makes. */
  function StopStep(s: int): (t: int)
    ensures t == SrvStopping <==> s == SrvRunning || s == SrvStarting || s == SrvStopping
    ensures t != SrvStopping ==> t == s
  {
    if s == SrvRunning || s == SrvStarting then SrvStopping else s
  }

  /** The state change of the readiness callback casStatus(STARTING, RUNNING). */
  function ReadyStep(s: int): (t: int)
    ensures t == SrvRunning <==> s == SrvStarting || s == SrvRunning
    ensures t != SrvRunning ==> t == s
  {
    if s == SrvStarting then SrvRunning else s
  }

  /** The start attempts the loop makes: `retries`, but at least one. */
  function MaxAttempts(retries: int): (n: int)
    ensures n >= 1 && n >= retries
    ensures retries >= 1 ==> n == retries
  {
    if retries <= 0 then 1 else retries
  }

  /** The error text supervisor_default.go gives when the child's stdin is not redirected. */
  const NotRedirectedDefault := "stdin is not redirect"

  /** What interrupting the child `pid` writes to its stdin: the console
      strategy's lines when stdin is open, nothing otherwise. */
  function ConsoleEffect(pid: int, stop: Option<Command>, stdinOpen: bool, writeErr: Option<(int, string)>): (lines: seq<string>)
    ensures !WritesConsole(pid, stop) || !stdinOpen ==> lines == []
    ensures WritesConsole(pid, stop) && stdinOpen ==> lines == ConsoleWritten(stop.value.arguments, writeErr)
  {
    if WritesConsole(pid, stop) && stdinOpen then ConsoleWritten(stop.value.arguments, writeErr) else []
  }

  /** What interrupt logs after the pid check: the strategy's text, then, unless
      the strategy succeeded, the force-kill text. */
  function InterruptText(report: Option<Report>, killErr: Option<string>): (t: string)
    ensures report.Some? && report.value.ok ==> t == report.value.txt
    ensures report.None? ==> t == ForceKillText("", killErr)
    ensures report.Some? && !report.value.ok ==>
            t == report.value.txt + ForceKillText(report.value.txt, killErr)
  {
    var txt := if report.Some? then report.value.txt else "";
    if report.Some? && report.value.ok then txt else txt + ForceKillText(txt, killErr)
  }

  /** Once a stop has been requested, the readiness callback cannot bring the
      service back to RUNNING, and a second stop changes nothing. */
  lemma StopWins(s: int)
    ensures ReadyStep(StopStep(s)) == StopStep(s)
    ensures StopStep(StopStep(s)) == StopStep(s)
    ensures StopStep(s) != SrvRunning && StopStep(s) != SrvStarting
  {
  }

  class DefaultSupervisor {
    const retries: int
    const killTimeout: int
    const successFlag: string
    const start: Command
    const stop: Option<Command>

    var srvStatus: int
    var procStatus: int
    var pid: int
    /** whether the child's stdin is a pipe the supervisor holds */
    var stdinOpen: bool
    /** everything written to children's stdin */
    var console: seq<string>
    /** everything written to the unit's output */
    var out: string
    var broadcasts: nat
    /** the onEvent notifications, in order */
    var events: seq<int>
    /** the pids the force-kill fallback killed */
    var killed: seq<int>
    /** the runs the supervision loop made */
    var runs: seq<RunRecord>
    /** how many times cmd.Start was attempted */
    var spawns: nat
    var loopsLaunched: nat

    constructor (retries: int, killTimeout: int, successFlag: string, start: Command, stop: Option<Command>)
      ensures this.retries == retries && this.killTimeout == killTimeout && this.successFlag == successFlag
      ensures this.start == start && this.stop == stop
      ensures srvStatus == SrvInit && procStatus == ProcInit && pid == 0 && !stdinOpen
      ensures console == [] && out == "" && broadcasts == 0 && events == [] && killed == []
      ensures runs == [] && spawns == 0 && loopsLaunched == 0
    {
      this.retries := retries;
      this.killTimeout := killTimeout;
      this.successFlag := successFlag;
      this.start := start;
      this.stop := stop;
      srvStatus := SrvInit;
      procStatus := ProcInit;
      pid := 0;
      stdinOpen := false;
      console := [];
      out := "";
      broadcasts := 0;
      events := [];
      killed := [];
      runs := [];
      spawns := 0;
      loopsLaunched := 0;
    }

    /** closeStdin: drop the stdin pipe if there is one. */
    method CloseStdin()
      modifies this
      ensures !stdinOpen
      ensures srvStatus == old(srvStatus) && procStatus == old(procStatus) && pid == old(pid)
      ensures console == old(console) && out == old(out) && broadcasts == old(broadcasts)
      ensures events == old(events) && killed == old(killed) && runs == old(runs)
      ensures spawns == old(spawns) && loopsLaunched == old(loopsLaunched)
    {
      if !stdinOpen {
        return;
      }
      stdinOpen := false;
    }

    /** casStatus: compare-and-swap on the service state, broadcasting only on success. */
    method CasStatus(expected: int, next: int) returns (swapped: bool)
      modifies this
      ensures swapped <==> old(srvStatus) == expected
      ensures srvStatus == (if swapped then next else old(srvStatus))
      ensures broadcasts == old(broadcasts) + (if swapped then 1 else 0)
      ensures procStatus == old(procStatus) && pid == old(pid) && stdinOpen == old(stdinOpen)
      ensures console == old(console) && out == old(out)
      ensures events == old(events) && killed == old(killed) && runs == old(runs)
      ensures spawns == old(spawns) && loopsLaunched == old(loopsLaunched)
    {
      if srvStatus != expected {
        return false;
      }
      srvStatus := next;
      broadcasts := broadcasts + 1;
      swapped := true;
    }

    /** setStatus: store and broadcast. */
    method SetStatus(next: int)
      modifies this
      ensures srvStatus == next && broadcasts == old(broadcasts) + 1
      ensures procStatus == old(procStatus) && pid == old(pid) && stdinOpen == old(stdinOpen)
      ensures console == old(console) && out == old(out)
      ensures events == old(events) && killed == old(killed) && runs == old(runs)
      ensures spawns == old(spawns) && loopsLaunched == old(loopsLaunched)
    {
      srvStatus := next;
      broadcasts := broadcasts + 1;
    }

    /** untilWith(from, to): decide on the current state; while it is `from`,
        wait for a broadcast and look again. Each element of `wakeups` is the
        state another goroutine has set when the waiter wakes up; when they run
        out while the state is still `from`, the waiter is still blocked (Wait). */
    method UntilWith(from: int, to: int, wakeups: seq<int>) returns (u: Until)
      modifies this
      ensures u == UntilOutcome(from, to, [old(srvStatus)] + wakeups)
      ensures u == Done ==> srvStatus == to
      ensures u == Wait ==> srvStatus == from
      ensures u.Failed? ==> u == UntilStep(from, to, srvStatus)
      ensures procStatus == old(procStatus) && pid == old(pid) && stdinOpen == old(stdinOpen)
      ensures console == old(console) && out == old(out) && broadcasts == old(broadcasts)
      ensures events == old(events) && killed == old(killed) && runs == old(runs)
      ensures spawns == old(spawns) && loopsLaunched == old(loopsLaunched)
    {
      var seen := [srvStatus] + wakeups;
      var k := 0;
      while true
        invariant 0 <= k <= |wakeups|
        invariant srvStatus == seen[k]
        invariant UntilOutcome(from, to, seen) == UntilOutcome(from, to, seen[k..])
        invariant procStatus == old(procStatus) && pid == old(pid) && stdinOpen == old(stdinOpen)
        invariant console == old(console) && out == old(out) && broadcasts == old(broadcasts)
        invariant events == old(events) && killed == old(killed) && runs == old(runs)
        invariant spawns == old(spawns) && loopsLaunched == old(loopsLaunched)
        decreases |wakeups| - k
      {
        UntilOutcomeFirst(from, to, seen[k..]);
        var step := UntilStep(from, to, srvStatus);
        if step != Wait {
          return step;
        }
        assert seen[k..][1..] == seen[k + 1..];
        if k == |wakeups| {
          return Wait;
        }
        srvStatus := wakeups[k];
        k := k + 1;
      }
    }

    /** start: INIT -> STARTING and a loop is launched. From any other state it
        waits for the service to stop (STOPPING -> INIT) and tries once more;
        from STARTING or RUNNING that wait fails at once and nothing happens. */
    method Start(wakeups: seq<int>) returns (launched: bool)
      modifies this
      ensures launched <==> old(srvStatus) == SrvInit ||
                            UntilOutcome(SrvStopping, SrvInit, [old(srvStatus)] + wakeups) == Done
      ensures launched ==> srvStatus == SrvStarting && loopsLaunched == old(loopsLaunched) + 1
      ensures !launched ==> loopsLaunched == old(loopsLaunched)
      ensures procStatus == old(procStatus) && pid == old(pid) && stdinOpen == old(stdinOpen)
      ensures console == old(console) && out == old(out)
      ensures events == old(events) && killed == old(killed) && runs == old(runs) && spawns == old(spawns)
    {
      var ok := CasStatus(SrvInit, SrvStarting);
      if !ok {
        var u := UntilWith(SrvStopping, SrvInit, wakeups);
        if u != Done {
          return false;
        }
        ok := CasStatus(SrvInit, SrvStarting);
      }
      loopsLaunched := loopsLaunched + 1;
      launched := true;
    }

    /** killByConsole: the stop arguments are written to the child's stdin, each
        followed by a line break, until a write fails; stdin is then closed
        either way, and the child is waited for. */
    method KillByConsole(os: Os) returns (r: Report)
      requires stop.Some?
      modifies this
      ensures r == ConsoleReport(stop.value.arguments, old(stdinOpen), NotRedirectedDefault, killTimeout, os)
      ensures stop.value.arguments == [] ==> stdinOpen == old(stdinOpen) && console == old(console)
      ensures stop.value.arguments != [] ==>
              !stdinOpen && console == old(console) + (if old(stdinOpen) then ConsoleWritten(stop.value.arguments, os.writeErr) else [])
      ensures srvStatus == old(srvStatus) && procStatus == old(procStatus) && pid == old(pid)
      ensures out == old(out) && broadcasts == old(broadcasts)
      ensures events == old(events) && killed == old(killed) && runs == old(runs)
      ensures spawns == old(spawns) && loopsLaunched == old(loopsLaunched)
    {
      var args := stop.value.arguments;
      if args == [] {
        return Report(false, "console arguments is empty");
      }
      if !stdinOpen {
        return Report(false, NotRedirectedDefault);
      }
      var n := Written(args, os.writeErr);
      var i := 0;
      assert args[..0] == [] && ConsoleText([]) == [];
      assert old(console) + ConsoleText(args[..0]) == console;
      while i < n
        invariant 0 <= i <= n
        invariant console == old(console) + ConsoleText(args[..i])
        invariant stdinOpen
        invariant srvStatus == old(srvStatus) && procStatus == old(procStatus) && pid == old(pid)
        invariant out == old(out) && broadcasts == old(broadcasts)
        invariant events == old(events) && killed == old(killed) && runs == old(runs)
        invariant spawns == old(spawns) && loopsLaunched == old(loopsLaunched)
      {
        assert args[..i + 1][..i] == args[..i];
        assert ConsoleText(args[..i + 1]) == ConsoleText(args[..i]) + [args[i] + "\r\n"];
        assert old(console) + ConsoleText(args[..i + 1]) == console + [args[i] + "\r\n"];
        console := console + [args[i] + "\r\n"];
        i := i + 1;
      }
      stdinOpen := false;
      if n < |args| {
        return Report(false, os.writeErr.value.1);
      }
      if os.findErr.Some? {
        return Report(false, os.findErr.value);
      }
      if os.wait(killTimeout).Some? {
        return Report(false, os.wait(killTimeout).value);
      }
      r := Report(true, "");
    }

    /** interrupt: with no child (pid 0) only a note is logged. Otherwise the
        strategy the stop command selects runs and its text is logged; if it
        fails, or the strategy is force-kill, the process tree is killed and
        the fallback text logged. `report` is what the strategy reported. */
    method Interrupt(os: Os) returns (report: Option<Report>)
      modifies this
      ensures report == (if old(pid) == 0 then None else StrategyReport(stop, old(stdinOpen), NotRedirectedDefault, killTimeout, os))
      ensures out == old(out) + (if old(pid) == 0 then " [sys] pid = 0\r\n" else InterruptText(report, os.killErr))
      ensures killed == old(killed) + (if old(pid) == 0 || (report.Some? && report.value.ok) then [] else [old(pid)])
      ensures stdinOpen == (old(stdinOpen) && !WritesConsole(old(pid), stop))
      ensures console == old(console) + ConsoleEffect(old(pid), stop, old(stdinOpen), os.writeErr)
      ensures srvStatus == old(srvStatus) && procStatus == old(procStatus) && pid == old(pid)
      ensures broadcasts == old(broadcasts) && events == old(events) && runs == old(runs)
      ensures spawns == old(spawns) && loopsLaunched == old(loopsLaunched)
    {
      if pid == 0 {
        out := out + " [sys] pid = 0\r\n";
        return None;
      }
      if StrategyOf(stop) == ForceKill {
        killed := killed + [pid];
        out := out + ForceKillText("", os.killErr);
        return None;
      }
      var r := RunStrategy(os);
      report := Some(r);
      if r.ok {
        out := out + r.txt;
        return;
      }
      killed := killed + [pid];
      out := out + (r.txt + ForceKillText(r.txt, os.killErr));
    }

    /** The strategy interrupt dispatches to when it does not force-kill at once. */
    method RunStrategy(os: Os) returns (r: Report)
      requires StrategyOf(stop) != ForceKill
      modifies this
      ensures Some(r) == StrategyReport(stop, old(stdinOpen), NotRedirectedDefault, killTimeout, os)
      ensures StrategyOf(stop) == ByConsole && stop.value.arguments != [] ==>
              !stdinOpen && console == old(console) + (if old(stdinOpen) then ConsoleWritten(stop.value.arguments, os.writeErr) else [])
      ensures !(StrategyOf(stop) == ByConsole && stop.value.arguments != []) ==>
              stdinOpen == old(stdinOpen) && console == old(console)
      ensures srvStatus == old(srvStatus) && procStatus == old(procStatus) && pid == old(pid)
      ensures out == old(out) && broadcasts == old(broadcasts)
      ensures events == old(events) && killed == old(killed) && runs == old(runs)
      ensures spawns == old(spawns) && loopsLaunched == old(loopsLaunched)
    {
      var strategy := StrategyOf(stop);
      if strategy == BySignal {
        r := KillBySignal(stop.value.arguments, killTimeout, os);
      } else if strategy == ByConsole {
        r := KillByConsole(os);
      } else {
        r := KillByCmd(killTimeout, os);
      }
    }

    /** stop: RUNNING or STARTING -> STOPPING, then the child is interrupted;
        from any other state only the "switching" line is logged. */
    method Stop(os: Os)
      modifies this
      ensures srvStatus == StopStep(old(srvStatus))
      ensures old(srvStatus) == SrvRunning || old(srvStatus) == SrvStarting ==>
              var report := if old(pid) == 0 then None else StrategyReport(stop, old(stdinOpen), NotRedirectedDefault, killTimeout, os);
              out == old(out) + " [sys]swithing to '" + SrvString(old(srvStatus)) + "'\r\n" +
                     " [sys]swith to '" + SrvString(SrvStopping) + "'\r\n" +
                     (if old(pid) == 0 then " [sys] pid = 0\r\n" else InterruptText(report, os.killErr)) &&
              killed == old(killed) + (if old(pid) == 0 || (report.Some? && report.value.ok) then [] else [old(pid)]) &&
              stdinOpen == (old(stdinOpen) && !WritesConsole(old(pid), stop)) &&
              console == old(console) + ConsoleEffect(old(pid), stop, old(stdinOpen), os.writeErr) &&
              broadcasts == old(broadcasts) + 1
      ensures !(old(srvStatus) == SrvRunning || old(srvStatus) == SrvStarting) ==>
              out == old(out) + " [sys]swithing to '" + SrvString(old(srvStatus)) + "'\r\n" &&
              killed == old(killed) && stdinOpen == old(stdinOpen) && console == old(console) &&
              broadcasts == old(broadcasts)
      ensures procStatus == old(procStatus) && pid == old(pid)
      ensures events == old(events) && runs == old(runs)
      ensures spawns == old(spawns) && loopsLaunched == old(loopsLaunched)
      ensures old(out) <= out
    {
      out := out + " [sys]swithing to '" + SrvString(srvStatus) + "'\r\n";
      var ok := CasStatus(SrvRunning, SrvStopping);
      if !ok {
        ok := CasStatus(SrvStarting, SrvStopping);
        if !ok {
          return;
        }
      }
      out := out + " [sys]swith to '" + SrvString(srvStatus) + "'\r\n";
      var _ := Interrupt(os);
    }

    /** The deferred clean-up of run: the stdin pipe and pid are dropped, the
        PROC_STOPPNG event is sent and the process state returns to PROC_INIT. */
    method Cleanup()
      modifies this
      ensures !stdinOpen && pid == 0 && procStatus == ProcInit
      ensures events == old(events) + [ProcStopping]
      ensures out == old(out) + ProcEndLine
      ensures srvStatus == old(srvStatus) && console == old(console) && broadcasts == old(broadcasts)
      ensures killed == old(killed) && runs == old(runs)
      ensures spawns == old(spawns) && loopsLaunched == old(loopsLaunched)
    {
      stdinOpen := false;
      pid := 0;
      events := events + [ProcStopping];
      procStatus := ProcInit;
      out := out + ProcEndLine;
    }

    /** The readiness callback of a start attempt: casStatus(STARTING, RUNNING). */
    method Ready()
      modifies this
      ensures srvStatus == ReadyStep(old(srvStatus))
      ensures broadcasts == old(broadcasts) + (if old(srvStatus) == SrvStarting then 1 else 0)
      ensures procStatus == old(procStatus) && pid == old(pid) && stdinOpen == old(stdinOpen)
      ensures console == old(console) && out == old(out)
      ensures events == old(events) && killed == old(killed) && runs == old(runs)
      ensures spawns == old(spawns) && loopsLaunched == old(loopsLaunched)
    {
      var _ := CasStatus(SrvStarting, SrvRunning);
    }

    /** Logs each argument of the start command on a line of its own. */
    method LogArguments(args: seq<string>)
      modifies this
      ensures out == old(out) + ArgLines(args)
      ensures srvStatus == old(srvStatus) && procStatus == old(procStatus) && pid == old(pid)
      ensures stdinOpen == old(stdinOpen) && console == old(console) && broadcasts == old(broadcasts)
      ensures events == old(events) && killed == old(killed) && runs == old(runs)
      ensures spawns == old(spawns) && loopsLaunched == old(loopsLaunched)
    {
      var i := 0;
      assert args[..0] == [];
      while i < |args|
        invariant 0 <= i <= |args|
        invariant out == old(out) + ArgLines(args[..i])
        invariant srvStatus == old(srvStatus) && procStatus == old(procStatus) && pid == old(pid)
        invariant stdinOpen == old(stdinOpen) && console == old(console) && broadcasts == old(broadcasts)
        invariant events == old(events) && killed == old(killed) && runs == old(runs)
        invariant spawns == old(spawns) && loopsLaunched == old(loopsLaunched)
      {
        var line := "[sys] \t\t" + args[i] + "\r\n";
        ArgLinesStep(args, i);
        AppendLine(old(out), ArgLines(args[..i]), line);
        out := out + line;
        i := i + 1;
      }
      assert args[..i] == args;
    }

    /** The child's output reaches the unit's output. With a success flag and a
        callback it passes through the marker detector, and the callback runs
        once, when the relayed text first contains the flag. */
    method Relay(withCallback: bool, output: seq<string>) returns (ready: bool)
      modifies this
      ensures out == old(out) + Concat(output)
      ensures ready <==> successFlag != "" && withCallback && Contains(Concat(output), successFlag)
      ensures srvStatus == (if ready then ReadyStep(old(srvStatus)) else old(srvStatus))
      ensures broadcasts == old(broadcasts) + (if ready && old(srvStatus) == SrvStarting then 1 else 0)
      ensures procStatus == old(procStatus) && pid == old(pid) && stdinOpen == old(stdinOpen)
      ensures console == old(console) && events == old(events) && killed == old(killed) && runs == old(runs)
      ensures spawns == old(spawns) && loopsLaunched == old(loopsLaunched)
    {
      var w: MatchWriter?<char> := null;
      if successFlag != "" {
        w := Wrap(true, successFlag, withCallback);
      }
      var j := 0;
      ready := false;
      assert output[..0] == [];
      while j < |output|
        invariant 0 <= j <= |output|
        invariant out == old(out) + Concat(output[..j])
        invariant w != null ==> w.Valid() && w.pattern == successFlag && w.hasSink && w.hasCallback &&
                                w.relayed == Concat(output[..j]) && ready == w.matched
        invariant w == null ==> !ready
        invariant srvStatus == (if ready then ReadyStep(old(srvStatus)) else old(srvStatus))
        invariant broadcasts == old(broadcasts) + (if ready && old(srvStatus) == SrvStarting then 1 else 0)
        invariant procStatus == old(procStatus) && pid == old(pid) && stdinOpen == old(stdinOpen)
        invariant console == old(console) && events == old(events) && killed == old(killed) && runs == old(runs)
        invariant spawns == old(spawns) && loopsLaunched == old(loopsLaunched)
        modifies this, w
      {
        ConcatSnoc(output, j);
        assert output[j][..|output[j]|] == output[j];
        if w != null {
          var n, _, fired := w.Write(output[j], |output[j]|, None);
          if fired {
            Ready();
            ready := true;
          }
        }
        AppendLine(old(out), Concat(output[..j]), output[j]);
        out := out + output[j];
        j := j + 1;
      }
      assert output[..j] == output;
    }

    /** run: one life of the child. Nothing is spawned unless the service is
        RUNNING or STARTING; the clean-up runs on every path. With an empty
        success flag the callback runs whether the start succeeds or fails;
        with a flag it runs only when the output shows the flag. */
    method Run(withCallback: bool, ev: RunEvent, os: Os) returns (spawned: bool, ready: bool)
      modifies this
      ensures var s1 := if ev.stopBefore then StopStep(old(srvStatus)) else old(srvStatus);
              spawned <==> s1 == SrvRunning || s1 == SrvStarting
      ensures ready <==> withCallback && spawned &&
                         (successFlag == "" || (ev.startErr.None? && Contains(Concat(ev.output), successFlag)))
      ensures var s1 := if ev.stopBefore then StopStep(old(srvStatus)) else old(srvStatus);
              var s2 := if ready then ReadyStep(s1) else s1;
              srvStatus == (if spawned && ev.startErr.None? && ev.stopWhileRunning then StopStep(s2) else s2)
      ensures !stdinOpen && pid == 0 && procStatus == ProcInit
      ensures events == old(events) + (if spawned then [ProcStarting] + (if ev.startErr.None? then [ProcRunning] else []) else []) + [ProcStopping]
      ensures spawns == old(spawns) + (if spawned then 1 else 0)
      ensures runs == old(runs) + [RunRecord(withCallback, old(srvStatus), srvStatus)]
      ensures !ev.stopBefore && !ev.stopWhileRunning ==> killed == old(killed) && console == old(console)
      ensures old(out) <= out && HasSuffix(out, ProcEndLine)
      ensures spawned && ev.startErr.None? ==> Contains(out[|old(out)|..], Concat(ev.output))
      ensures loopsLaunched == old(loopsLaunched)
    {
      var before := srvStatus;
      if ev.stopBefore {
        Stop(os);
      }
      ghost var checked := out;
      spawned, ready := Checked(withCallback, ev, os, before);
      LogGrows(old(out), checked, out);
      if spawned && ev.startErr.None? {
        RelayedKept(out, out, |checked|, |old(out)|, Concat(ev.output));
      }
    }

    /** The part of run from the status check on: nothing is spawned unless
        the service is RUNNING or STARTING, and the clean-up runs either way.
        The run is recorded with the status `before` the early stop request. */
    method Checked(withCallback: bool, ev: RunEvent, os: Os, before: int) returns (spawned: bool, ready: bool)
      modifies this
      ensures spawned <==> old(srvStatus) == SrvRunning || old(srvStatus) == SrvStarting
      ensures ready <==> withCallback && spawned &&
                         (successFlag == "" || (ev.startErr.None? && Contains(Concat(ev.output), successFlag)))
      ensures var s2 := if ready then ReadyStep(old(srvStatus)) else old(srvStatus);
              srvStatus == (if spawned && ev.startErr.None? && ev.stopWhileRunning then StopStep(s2) else s2)
      ensures !stdinOpen && pid == 0 && procStatus == ProcInit
      ensures events == old(events) + (if spawned then [ProcStarting] + (if ev.startErr.None? then [ProcRunning] else []) else []) + [ProcStopping]
      ensures spawns == old(spawns) + (if spawned then 1 else 0)
      ensures runs == old(runs) + [RunRecord(withCallback, before, srvStatus)]
      ensures !ev.stopWhileRunning ==> killed == old(killed) && console == old(console)
      ensures old(out) <= out && HasSuffix(out, ProcEndLine)
      ensures spawned && ev.startErr.None? ==> Contains(out[|old(out)|..], Concat(ev.output))
      ensures loopsLaunched == old(loopsLaunched)
    {
      if srvStatus != SrvRunning && srvStatus != SrvStarting {
        spawned, ready := false, false;
        Cleanup();
        runs := runs + [RunRecord(withCallback, before, srvStatus)];
        return;
      }
      spawned := true;
      ready := Launch(withCallback, ev, os);
      ghost var launched := out;
      Cleanup();
      LogGrows(old(out), launched, out);
      if ev.startErr.None? {
        RelayedKept(launched, out, |old(out)|, |old(out)|, Concat(ev.output));
      }
      runs := runs + [RunRecord(withCallback, before, srvStatus)];
    }

    /** The part of run after the status check, up to the child's end. */
    method Launch(withCallback: bool, ev: RunEvent, os: Os) returns (ready: bool)
      modifies this
      ensures ready <==> withCallback &&
                         (successFlag == "" || (ev.startErr.None? && Contains(Concat(ev.output), successFlag)))
      ensures var s2 := if ready then ReadyStep(old(srvStatus)) else old(srvStatus);
              srvStatus == (if ev.startErr.None? && ev.stopWhileRunning then StopStep(s2) else s2)
      ensures events == old(events) + [ProcStarting] + (if ev.startErr.None? then [ProcRunning] else [])
      ensures spawns == old(spawns) + 1
      ensures runs == old(runs) && loopsLaunched == old(loopsLaunched)
      ensures !ev.stopWhileRunning ==> killed == old(killed) && console == old(console)
      ensures old(out) <= out
      ensures ev.startErr.None? ==> Contains(out[|old(out)|..], Concat(ev.output))
    {
      var pipe := Prepare(ev);
      ghost var prepared := out;
      if ev.startErr.Some? {
        ready := false;
        if successFlag == "" && withCallback {
          Ready();
          ready := true;
        }
        out := out + "[sys] start process failed - " + ev.startErr.value + "\r\n";
      } else {
        ready := Running(withCallback, ev, pipe, os);
        RelayedAfter(prepared, Concat(ev.output), out, |old(out)|);
      }
    }

    /** Before the start: the banner, the stdin pipe of a console-stopped unit,
        the command line, and the PROC_STARTING event. */
    method Prepare(ev: RunEvent) returns (pipe: bool)
      modifies this
      ensures pipe <==> StrategyOf(stop) == ByConsole && ev.pipeErr.None?
      ensures procStatus == ProcStarting
      ensures events == old(events) + [ProcStarting] && spawns == old(spawns) + 1
      ensures srvStatus == old(srvStatus) && pid == old(pid) && stdinOpen == old(stdinOpen)
      ensures console == old(console) && broadcasts == old(broadcasts)
      ensures killed == old(killed) && runs == old(runs) && loopsLaunched == old(loopsLaunched)
      ensures old(out) <= out
    {
      procStatus := ProcStarting;
      var byConsole := StrategyOf(stop) == ByConsole;
      pipe := byConsole && ev.pipeErr.None?;
      var pipeLine := if byConsole && ev.pipeErr.Some? then "[sys] create pipe failed for stdin - " + ev.pipeErr.value + "\r\n" else "";
      out := out + "[sys] -------------------- proc start --------------------\r\n" + pipeLine + "[sys] " + ev.path + "\r\n";
      LogArguments(start.arguments);
      events := events + [ProcStarting];
      spawns := spawns + 1;
    }

    /** A started child: it is recorded, its output relayed, and its end awaited. */
    method Running(withCallback: bool, ev: RunEvent, pipe: bool, os: Os) returns (ready: bool)
      requires ev.startErr.None?
      modifies this
      ensures ready <==> withCallback && (successFlag == "" || Contains(Concat(ev.output), successFlag))
      ensures var s2 := if ready then ReadyStep(old(srvStatus)) else old(srvStatus);
              srvStatus == (if ev.stopWhileRunning then StopStep(s2) else s2)
      ensures events == old(events) + [ProcRunning]
      ensures spawns == old(spawns) && runs == old(runs) && loopsLaunched == old(loopsLaunched)
      ensures !ev.stopWhileRunning ==> killed == old(killed) && console == old(console)
      ensures old(out) + Concat(ev.output) <= out
    {
      procStatus := ProcRunning;
      stdinOpen := pipe;
      pid := ev.newPid;
      ready := false;
      if successFlag == "" && withCallback {
        Ready();
        ready := true;
      }
      events := events + [ProcRunning];
      var flagged := Relay(withCallback, ev.output);
      ready := ready || flagged;
      ghost var relayed := out;
      if ev.stopWhileRunning {
        Stop(os);
      }
      ghost var stopped := out;
      Reap(ev);
      LogGrows(relayed, stopped, out);
    }

    /** The end of the child as the wait loop sees it. */
    method Reap(ev: RunEvent)
      modifies this
      ensures ev.exit.Vanished? ==> !stdinOpen
      ensures ev.exit.Exited? ==> stdinOpen == old(stdinOpen)
      ensures srvStatus == old(srvStatus) && procStatus == old(procStatus) && pid == old(pid)
      ensures console == old(console) && broadcasts == old(broadcasts) && events == old(events)
      ensures killed == old(killed) && runs == old(runs)
      ensures spawns == old(spawns) && loopsLaunched == old(loopsLaunched)
      ensures old(out) <= out
    {
      match ev.exit
      case Vanished =>
        CloseStdin();
        out := out + "[sys] process pid('" + ShowInt(ev.newPid) + "') is not found.\r\n";
        out := out + "[sys] process is exited.\r\n";
      case Exited(Some(e)) =>
        out := out + "[sys] wait process failed - " + e + "\r\n";
      case Exited(None) =>
        out := out + "[sys] process is exited.\r\n";
    }

    /** loop: at most max(retries, 1) start attempts, stopping as soon as the
        service leaves STARTING; then a respawn for as long as the service is
        RUNNING, which does not count against the attempts. On exit the service
        and process states are reset. `script` holds the events of the
        successive runs; if it runs out while the loop would go on, the loop is
        reported as `unfinished` and its exit steps have not run. */
    method Loop(script: seq<RunEvent>, os: Os) returns (attempts: nat, respawns: nat, unfinished: bool)
      modifies this
      ensures attempts <= MaxAttempts(retries)
      ensures attempts + respawns <= |script|
      ensures |runs| == |old(runs)| + attempts + respawns
      ensures forall j | |old(runs)| <= j < |old(runs)| + attempts :: runs[j].withCallback
      ensures forall j | |old(runs)| + attempts <= j < |runs| :: !runs[j].withCallback && runs[j].status == SrvRunning
      // the runs follow one another: each starts in the state the previous one left
      ensures |runs| > |old(runs)| ==> runs[|old(runs)|].status == old(srvStatus)
      ensures forall j | |old(runs)| <= j < |runs| - 1 :: runs[j + 1].status == runs[j].after
      // every start attempt but the last left the service STARTING
      ensures forall j | |old(runs)| <= j < |old(runs)| + attempts - 1 :: runs[j].after == SrvStarting
      // the attempts stop early only when the service has left STARTING
      ensures attempts < MaxAttempts(retries) && attempts < |script| ==>
              attempts > 0 && runs[|old(runs)| + attempts - 1].after != SrvStarting
      // a finished loop ended because the service was neither RUNNING nor still being started
      ensures !unfinished && |runs| > |old(runs)| ==>
              runs[|runs| - 1].after != SrvRunning &&
              (runs[|runs| - 1].after == SrvStarting ==> attempts == MaxAttempts(retries) && respawns == 0)
      ensures unfinished <==> attempts + respawns == |script| && (srvStatus == SrvRunning || (srvStatus == SrvStarting && attempts < MaxAttempts(retries)))
      ensures !unfinished ==> srvStatus == SrvInit && pid == 0 && !stdinOpen && procStatus == ProcInit
      ensures loopsLaunched == old(loopsLaunched)
    {
      out := out + SrvStartLine;
      attempts, unfinished := StartAttempts(script, MaxAttempts(retries), os);
      respawns := 0;
      if unfinished {
        return;
      }
      respawns, unfinished := Respawn(script, attempts, os);
      if unfinished {
        return;
      }
      stdinOpen := false;
      pid := 0;
      SetStatus(SrvInit);
      procStatus := ProcInit;
      out := out + SrvEndLine;
    }

    /** The first loop of loop: runs with the readiness callback from
        `script`, at most `limit` of them, while the service stays STARTING. */
    method StartAttempts(script: seq<RunEvent>, limit: nat, os: Os) returns (attempts: nat, unfinished: bool)
      modifies this
      ensures attempts <= limit && attempts <= |script|
      ensures |runs| == |old(runs)| + attempts && runs[..|old(runs)|] == old(runs)
      ensures forall j | |old(runs)| <= j < |runs| :: runs[j].withCallback
      ensures attempts > 0 ==> runs[|old(runs)|].status == old(srvStatus) && runs[|runs| - 1].after == srvStatus
      ensures attempts == 0 ==> srvStatus == old(srvStatus)
      ensures forall j | |old(runs)| <= j < |runs| - 1 :: runs[j + 1].status == runs[j].after
      ensures forall j | |old(runs)| <= j < |runs| - 1 :: runs[j].after == SrvStarting
      ensures attempts < limit && attempts < |script| ==> attempts > 0 && srvStatus != SrvStarting
      ensures unfinished ==> attempts == |script| && attempts < limit && (srvStatus == SrvRunning || srvStatus == SrvStarting)
      ensures !unfinished && srvStatus == SrvStarting ==> attempts == limit
      ensures loopsLaunched == old(loopsLaunched)
    {
      attempts := 0;
      unfinished := false;
      while attempts < limit
        invariant attempts <= limit && attempts <= |script|
        invariant |runs| == |old(runs)| + attempts && runs[..|old(runs)|] == old(runs)
        invariant forall j | |old(runs)| <= j < |runs| :: runs[j].withCallback
        invariant forall j | |old(runs)| <= j < |runs| :: runs[j].after == SrvStarting
        invariant attempts > 0 ==> runs[|old(runs)|].status == old(srvStatus) && runs[|runs| - 1].after == srvStatus
        invariant forall j | |old(runs)| <= j < |runs| - 1 :: runs[j + 1].status == runs[j].after
        invariant attempts > 0 ==> srvStatus == SrvStarting
        invariant attempts == 0 ==> srvStatus == old(srvStatus)
        invariant loopsLaunched == old(loopsLaunched)
        decreases limit - attempts
      {
        if attempts == |script| {
          unfinished := srvStatus == SrvRunning || srvStatus == SrvStarting;
          return;
        }
        var _, _ := Run(true, script[attempts], os);
        attempts := attempts + 1;
        if srvStatus != SrvStarting {
          return;
        }
        out := out + " [sys]current status is '" + SrvString(srvStatus) + "'\r\n";
      }
    }

    /** The second loop of loop: runs without the callback from `script`,
        starting at index `from`, for as long as the service is RUNNING. */
    method Respawn(script: seq<RunEvent>, from: nat, os: Os) returns (respawns: nat, unfinished: bool)
      requires from <= |script|
      modifies this
      ensures from + respawns <= |script|
      ensures |runs| == |old(runs)| + respawns && runs[..|old(runs)|] == old(runs)
      ensures forall j | |old(runs)| <= j < |runs| :: !runs[j].withCallback && runs[j].status == SrvRunning
      ensures respawns > 0 ==> runs[|old(runs)|].status == old(srvStatus) && runs[|runs| - 1].after == srvStatus
      ensures respawns == 0 ==> srvStatus == old(srvStatus)
      ensures forall j | |old(runs)| <= j < |runs| - 1 :: runs[j + 1].status == runs[j].after
      ensures unfinished <==> srvStatus == SrvRunning
      ensures unfinished ==> from + respawns == |script|
      ensures old(srvStatus) != SrvRunning ==> respawns == 0
      ensures respawns > 0 ==> srvStatus != SrvStarting
      ensures loopsLaunched == old(loopsLaunched)
    {
      respawns, unfinished := 0, false;
      while srvStatus == SrvRunning
        invariant from + respawns <= |script|
        invariant |runs| == |old(runs)| + respawns && runs[..|old(runs)|] == old(runs)
        invariant forall j | |old(runs)| <= j < |runs| :: !runs[j].withCallback && runs[j].status == SrvRunning
        invariant respawns > 0 ==> runs[|old(runs)|].status == old(srvStatus) && runs[|runs| - 1].after == srvStatus
        invariant respawns == 0 ==> srvStatus == old(srvStatus)
        invariant respawns > 0 ==> srvStatus != SrvStarting
        invariant forall j | |old(runs)| <= j < |runs| - 1 :: runs[j + 1].status == runs[j].after
        invariant loopsLaunched == old(loopsLaunched)
        decreases |script| - from - respawns
      {
        if from + respawns == |script| {
          unfinished := true;
          return;
        }
        out := out + " [sys]current status is '" + SrvString(srvStatus) + "'\r\n";
        var _, _ := Run(false, script[from + respawns], os);
        respawns := respawns + 1;
      }
    }
  }

  const ProcEndLine := "[sys] --------------------  proc end  --------------------\r\n"
  const SrvStartLine := "[sys] ==================== srv  start ====================\r\n"
  const SrvEndLine := "[sys] ====================  srv  end  ====================\r\n"

  /** The log lines of the start command's arguments. */
  function ArgLines(args: seq<string>): string
  {
    if args == [] then "" else ArgLines(args[..|args| - 1]) + "[sys] \t\t" + args[|args| - 1] + "\r\n"
  }

  lemma ArgLinesStep(args: seq<string>, i: int)
    requires 0 <= i < |args|
    ensures ArgLines(args[..i + 1]) == ArgLines(args[..i]) + ("[sys] \t\t" + args[i] + "\r\n")
  {
    assert args[..i + 1][..i] == args[..i];
  }

  lemma AppendLine(a: string, b: string, c: string)
    ensures (a + b) + c == a + (b + c)
  {
  }

  /** The log only grows: a prefix of a prefix is a prefix. */
  lemma LogGrows(a: string, b: string, c: string)
    requires a <= b && b <= c
    ensures a <= c
  {
  }

  /** Text written right after `before` is found in what follows any shorter prefix. */
  lemma RelayedAfter(before: string, text: string, after: string, from: nat)
    requires before + text <= after && from <= |before|
    ensures Contains(after[from..], text)
  {
    assert after[from..][|before| - from..|before| - from + |text|] == after[|before|..|before| + |text|];
    assert after[|before|..|before| + |text|] == (before + text)[|before|..];
    assert OccursAt(after[from..], text, |before| - from);
  }

  /** What is found in the log from some point on is still found after more is written. */
  lemma RelayedKept(log: string, longer: string, k: nat, from: nat, text: string)
    requires log <= longer && from <= k <= |log| && Contains(log[k..], text)
    ensures Contains(longer[from..], text)
  {
    var i :| 0 <= i <= |log[k..]| - |text| && OccursAt(log[k..], text, i);
    assert longer[from..][k - from + i..k - from + i + |text|] == log[k..][i..i + |text|];
    assert OccursAt(longer[from..], text, k - from + i);
  }
}

=== FILE: hjson.dfy ===
/** hjson.go's `fixJSON`: json.Marshal escapes `<`, `>` and `&` (and writes
    backspace and form feed as \u escapes); fixJSON turns those five escapes
    back into the characters, or the short escapes, they stand for. */
module Hjson {
  import opened Text

  newtype byte = b: int | 0 <= b < 256

  // The five six-byte escapes fixJSON rewrites, spelled as bytes.
  const EscLess: seq<byte> := [0x5C, 0x75, 0x30, 0x30, 0x33, 0x63]      // <
  const EscGreater: seq<byte> := [0x5C, 0x75, 0x30, 0x30, 0x33, 0x65]   // >
  const EscAmpersand: seq<byte> := [0x5C, 0x75, 0x30, 0x30, 0x32, 0x36] // &
  const EscBackspace: seq<byte> := [0x5C, 0x75, 0x30, 0x30, 0x30, 0x38] // \u0008
  const EscFormFeed: seq<byte> := [0x5C, 0x75, 0x30, 0x30, 0x30, 0x63]  // \u000c

  // What each escape becomes.
  const Less: seq<byte> := [0x3C]             // <
  const Greater: seq<byte> := [0x3E]          // >
  const Ampersand: seq<byte> := [0x26]        // &
  const Backspace: seq<byte> := [0x5C, 0x62]  // \b
  const FormFeed: seq<byte> := [0x5C, 0x66]   // \f

  const Escapes: seq<seq<byte>> := [EscLess, EscGreater, EscAmpersand, EscBackspace, EscFormFeed]

  /** fixJSON: the five rewrites, applied one after the other to the whole text. */
  function FixJson(data: seq<byte>): (r: seq<byte>)
    ensures |r| <= |data|
  {
    var s1 := ReplaceAll(data, EscLess, Less);
    var s2 := ReplaceAll(s1, EscGreater, Greater);
    var s3 := ReplaceAll(s2, EscAmpersand, Ampersand);
    var s4 := ReplaceAll(s3, EscBackspace, Backspace);
    ReplaceAllShrinks(data, EscLess, Less);
    ReplaceAllShrinks(s1, EscGreater, Greater);
    ReplaceAllShrinks(s2, EscAmpersand, Ampersand);
    ReplaceAllShrinks(s3, EscBackspace, Backspace);
    ReplaceAllShrinks(s4, EscFormFeed, FormFeed);
    ReplaceAll(s4, EscFormFeed, FormFeed)
  }

  /** Input holding none of the five escapes comes back unchanged. */
  lemma FixJsonUnchanged(data: seq<byte>)
    requires forall k | 0 <= k < |Escapes| :: !Contains(data, Escapes[k])
    ensures FixJson(data) == data
  {
    assert !Contains(data, Escapes[0]) && !Contains(data, Escapes[1]) && !Contains(data, Escapes[2]);
    assert !Contains(data, Escapes[3]) && !Contains(data, Escapes[4]);
    ReplaceAllAbsent(data, EscLess, Less);
    ReplaceAllAbsent(data, EscGreater, Greater);
    ReplaceAllAbsent(data, EscAmpersand, Ampersand);
    ReplaceAllAbsent(data, EscBackspace, Backspace);
    ReplaceAllAbsent(data, EscFormFeed, FormFeed);
  }

  /** One rewrite step removes its own escape and keeps absent the escapes
      removed before it. */
  lemma StepClean(s: seq<byte>, target: seq<byte>, repl: seq<byte>, before: seq<seq<byte>>)
    requires CannotOverlap(target, repl)
    requires forall k | 0 <= k < |before| :: CannotOverlap(before[k], repl) && !Contains(s, before[k])
    ensures !Contains(ReplaceAll(s, target, repl), target)
    ensures forall k | 0 <= k < |before| :: !Contains(ReplaceAll(s, target, repl), before[k])
  {
    assert [] + s == s;
    assert [] + ReplaceAll(s, target, repl) == ReplaceAll(s, target, repl);
    ReplaceAllRemoves([], s, target, repl);
    forall k | 0 <= k < |before| ensures !Contains(ReplaceAll(s, target, repl), before[k]) {
      ReplaceAllKeepsAbsent([], s, target, repl, before[k]);
    }
  }

  /** No escape survives: no replacement text can form one of them again. */
  lemma FixJsonClean(data: seq<byte>)
    ensures forall k | 0 <= k < |Escapes| :: !Contains(FixJson(data), Escapes[k])
  {
    var s1 := ReplaceAll(data, EscLess, Less);
    var s2 := ReplaceAll(s1, EscGreater, Greater);
    var s3 := ReplaceAll(s2, EscAmpersand, Ampersand);
    var s4 := ReplaceAll(s3, EscBackspace, Backspace);
    var s5 := ReplaceAll(s4, EscFormFeed, FormFeed);
    StepClean(data, EscLess, Less, []);
    StepClean(s1, EscGreater, Greater, [EscLess]);
    StepClean(s2, EscAmpersand, Ampersand, [EscLess, EscGreater]);
    StepClean(s3, EscBackspace, Backspace, [EscLess, EscGreater, EscAmpersand]);
    StepClean(s4, EscFormFeed, FormFeed, [EscLess, EscGreater, EscAmpersand, EscBackspace]);
    assert FixJson(data) == s5;
  }
}

=== FILE: pidfile_supervisor.dfy ===
/** supervisor_with_pidfile.go: the supervisor for programs that detach and
    announce themselves through a pid file. It owns the service only when its
    own start made the pid file appear; a program found already running is
    left alone on stop. Whether the pid file exists, what it holds, and what
    the child and the operating system do are inputs of the model. */
module PidfileSupervision {
  import opened Text
  import opened Supervision
  import opened StreamMatch

  /** What the pid file holds when stop reads it: open fails (the error text,
      and whether a stat still succeeds), or its contents. */
  datatype PidFile = Unopenable(openErr: string, statOk: bool) | Holding(content: string)

  /** readPidfile's answer. */
  datatype PidRead = Pid(pid: int) | PidError(msg: string)

  /** textproto's ReadLine on a fresh reader: the text up to the first line
      feed, without it and without one carriage return before it; an empty
      file has no line. */
  function FirstLine(content: string): (r: Option<string>)
    ensures r.None? <==> content == ""
    ensures r.Some? ==> '\n' !in r.value
    ensures r.Some? ==> content == r.value || (|content| > |r.value| && content[..|r.value|] == r.value &&
                        (content[|r.value|] == '\n' || (|content| > |r.value| + 1 && content[|r.value|..|r.value| + 2] == "\r\n")))
  {
    if content == "" then None
    else
      var i := Index(content, "\n");
      if i < 0 then
        assert forall k | 0 <= k < |content| :: content[k] != '\n' by {
          forall k | 0 <= k < |content| ensures content[k] != '\n' {
            assert !OccursAt(content, "\n", k);
            assert content[k..k + 1] == [content[k]];
          }
        }
        Some(content)
      else
        assert forall k | 0 <= k < i :: content[k] != '\n' by {
          forall k | 0 <= k < i ensures content[k] != '\n' {
            assert !OccursAt(content, "\n", k);
            assert content[k..k + 1] == [content[k]];
          }
        }
        assert content[i..i + 1] == "\n";
        Some(DropCR(content[..i]))
  }

  /** strconv.ParseInt's complaint: all digits but too large is out of range,
      anything else is a syntax error. */
  function ParseIntError(line: string): (e: string)
    ensures ParseInt(line).None? && |line| > 0 && AllDigits(line) ==> e == "strconv.ParseInt: parsing \"" + line + "\": value out of range"
    ensures line == "" ==> e == "strconv.ParseInt: parsing \"\": invalid syntax"
  {
    var digits := if line != [] && (line[0] == '+' || line[0] == '-') then line[1..] else line;
    assert |line| > 0 && AllDigits(line) ==> IsDigit(line[0]) && digits == line;
    assert line == "" ==> digits == "";
    var reason := if digits != [] && AllDigits(digits) then "value out of range" else "invalid syntax";
    "strconv.ParseInt: parsing \"" + line + "\": " + reason
  }

  /** readPidfile: the first line of the pid file as a base-10 integer, or the
      reason it cannot be had. */
  function ReadPidfile(pidfile: string, file: PidFile): (r: PidRead)
    ensures r.Pid? <==> file.Holding? && FirstLine(file.content).Some? && ParseInt(FirstLine(file.content).value).Some?
    ensures r.Pid? ==> r.pid == ParseInt(FirstLine(file.content).value).value && IsInt64(r.pid)
    ensures file.Unopenable? && file.statOk ==>
            r == PidError("open pid file '" + pidfile + "' is error, permission error, " + file.openErr)
    ensures file.Unopenable? && !file.statOk ==>
            r == PidError("pid file '" + pidfile + "' is not exists? " + file.openErr)
    ensures file == Holding("") ==> r == PidError("read pid file '" + pidfile + "' failed, EOF")
  {
    match file
    case Unopenable(openErr, statOk) =>
      if statOk then PidError("open pid file '" + pidfile + "' is error, permission error, " + openErr)
      else PidError("pid file '" + pidfile + "' is not exists? " + openErr)
    case Holding(content) =>
      match FirstLine(content)
      case None => PidError("read pid file '" + pidfile + "' failed, EOF")
      case Some(line) =>
        match ParseInt(line)
        case None => PidError("read pid file '" + pidfile + "' failed, " + ParseIntError(line))
        case Some(pid) => Pid(pid)
  }

  /** A pid file written as the decimal pid, with or without a line ending and
      whatever follows it, reads back as that pid. */
  lemma ReadPidfileRoundTrip(pidfile: string, pid: int, ending: string, rest: string)
    requires IsInt64(pid)
    requires ending in {"", "\n", "\r\n"}
    requires ending == "" ==> rest == ""
    ensures ReadPidfile(pidfile, Holding(ShowInt(pid) + ending + rest)) == Pid(pid)
  {
    var t := ShowInt(pid);
    ShowIntHasNoBreak(pid);
    if ending == "" {
      assert t + ending + rest == t;
      NoBreakIsLine(t);
    } else {
      FirstLineOfLine(t + ending + rest, t);
    }
    ParseShowInt(pid);
  }

  /** The printed form of a number holds no line-ending characters. */
  lemma ShowIntHasNoBreak(i: int)
    ensures '\n' !in ShowInt(i) && '\r' !in ShowInt(i)
  {
    var t := ShowInt(i);
    if i < 0 {
      var d := ShowNat(-i);
      assert t == "-" + d;
      assert forall k | 1 <= k < |t| :: t[k] == d[k - 1];
      assert forall k | 0 <= k < |t| :: t[k] == '-' || IsDigit(t[k]);
    }
  }

  /** Text without a line feed is its own first line. */
  lemma NoBreakIsLine(t: string)
    requires t != "" && '\n' !in t
    ensures FirstLine(t) == Some(t)
  {
    assert !Contains(t, "\n") by {
      forall k | 0 <= k <= |t| - 1 ensures !OccursAt(t, "\n", k) {
        assert t[k..k + 1] == [t[k]];
      }
    }
  }

  /** When the text up to the first line break is `t`, that is the first line. */
  lemma FirstLineOfLine(content: string, t: string)
    requires |content| > |t| && content[..|t|] == t && '\n' !in t && '\r' !in t
    requires content[|t|] == '\n' || (|content| > |t| + 1 && content[|t|..|t| + 2] == "\r\n")
    ensures FirstLine(content) == Some(t)
  {
    var j := if content[|t|] == '\n' then |t| else |t| + 1;
    if j == |t| + 1 {
      assert content[j] == content[|t|..|t| + 2][1] == '\n';
    }
    assert content[j..j + 1] == [content[j]] == "\n";
    assert OccursAt(content, "\n", j);
    assert forall k | 0 <= k < j :: !OccursAt(content, "\n", k) by {
      forall k | 0 <= k < j ensures !OccursAt(content, "\n", k) {
        if k < |t| {
          assert content[k] == t[k];
        }
        assert content[k..k + 1] == [content[k]];
      }
    }
    var i := Index(content, "\n");
    assert i == j;
    if j == |t| + 1 {
      assert content[|t|] == content[|t|..|t| + 2][0] == '\r';
      assert content[..i] == content[..|t|] + [content[|t|]];
      assert content[..i] == t + "\r";
    } else {
      assert content[..i] == t;
    }
  }

  /** One run of the launcher: the start, what the launcher writes to its
      stdout and stderr (both connected to the unit's output), the first wait,
      then whether the pid file exists at each of the (one-second spaced) polls. */
  datatype PidRun = PidRun(startErr: Option<string>, output: seq<string>, waitErr: Option<string>, pidfileAt: int -> bool)

  /** The pid file shows up within the ten polls of run. */
  predicate PidfileAppears(r: PidRun) {
    exists i | 0 <= i < 10 :: PolledPresent(r, i)
  }

  predicate PolledPresent(r: PidRun, i: int) {
    r.pidfileAt(i)
  }

  /** A run that calls its readiness callback. */
  predicate Succeeds(r: PidRun) {
    r.startErr.None? && r.waitErr.None? && PidfileAppears(r)
  }

  /** The first of the attempts that succeeds, if any among the first `n`. */
  predicate FirstSuccess(attempt: int -> PidRun, n: int, k: int) {
    0 <= k < n && Succeeds(attempt(k)) && forall j | 0 <= j < k :: !Succeeds(attempt(j))
  }

  predicate AnySuccess(attempt: int -> PidRun, n: int) {
    exists k | 0 <= k < n :: Succeeds(attempt(k))
  }

  /** The pid the stop strategy is aimed at: the one in the pid file, or 0
      when it cannot be read. */
  function StopTarget(pidfile: string, file: PidFile): (pid: int)
    ensures ReadPidfile(pidfile, file).Pid? ==> pid == ReadPidfile(pidfile, file).pid
    ensures ReadPidfile(pidfile, file).PidError? ==> pid == 0
  {
    match ReadPidfile(pidfile, file)
    case Pid(pid) => pid
    case PidError(_) => 0
  }

  /** The strategy of this supervisor: `__signal__` signals the pid, any
      other program (including the force-kill names) runs as a stop command. */
  function PidfileStopReport(stop: Command, killTimeout: int, os: Os): (r: Report)
    ensures stop.proc == "__signal__" ==> r == KillBySignal(stop.arguments, killTimeout, os)
    ensures stop.proc != "__signal__" ==> r == KillByCmd(killTimeout, os)
  {
    if stop.proc == "__signal__" then KillBySignal(stop.arguments, killTimeout, os) else KillByCmd(killTimeout, os)
  }

  /** What interrupt logs: a successful strategy's text as it is, a failure's
      text on a line of its own. */
  function StopText(r: Report): (t: string)
    ensures r.ok ==> t == r.txt
    ensures !r.ok ==> t == r.txt + "\r\n" && HasSuffix(t, "\r\n")
  {
    if r.ok then r.txt else
      var t := r.txt + "\r\n";
      assert t[|t| - 2..] == "\r\n";
      t
  }

  /** What interrupt logs: nothing without a stop command, otherwise StopText
      of the strategy's report. */
  function InterruptLog(stop: Option<Command>, killTimeout: int, os: Os): (t: string)
    ensures stop.None? ==> t == ""
    ensures stop.Some? ==> t == StopText(PidfileStopReport(stop.value, killTimeout, os))
  {
    if stop.None? then "" else StopText(PidfileStopReport(stop.value, killTimeout, os))
  }

  const SrvStartLine := "[sys] ==================== srv  start ====================\r\n"
  const SrvEndLine := "[sys] ====================  srv  end  ====================\r\n"

  class PidfileSupervisor {
    const pidfile: string
    const retries: int
    const killTimeout: int
    const stop: Option<Command>

    var srvStatus: int
    /** 1 when this supervisor's own start made the pid file appear */
    var owner: int
    var lastError: Option<string>
    /** everything written to the unit's output */
    var out: string
    /** how many times run was called */
    var runsMade: nat
    /** the pids the stop strategy was aimed at */
    var targets: seq<int>

    constructor (pidfile: string, retries: int, killTimeout: int, stop: Option<Command>)
      ensures this.pidfile == pidfile && this.retries == retries && this.killTimeout == killTimeout
      ensures this.stop == stop
      ensures srvStatus == SrvInit && owner == 0 && lastError == None && out == ""
      ensures runsMade == 0 && targets == []
    {
      this.pidfile := pidfile;
      this.retries := retries;
      this.killTimeout := killTimeout;
      this.stop := stop;
      srvStatus := SrvInit;
      owner := 0;
      lastError := None;
      out := "";
      runsMade := 0;
      targets := [];
    }

    /** status: a RUNNING service that this supervisor did not start is
        "running, extern"; every other state is its name. */
    function Status(): (s: string)
      reads this
      ensures s == "running, extern" <==> srvStatus == SrvRunning && owner != 1
      ensures s != "running, extern" ==> s == SrvString(srvStatus)
    {
      if srvStatus == SrvRunning && owner != 1 then "running, extern"
      else
        var t := SrvString(srvStatus);
        assert t != "running, extern" by {
          if !(SrvInit <= srvStatus <= SrvStopping) {
            assert IsDigit(t[0]) || t[0] == '-';
          }
        }
        t
    }

    /** untilWith: never waits. A failure of the last start or stop is
        reported first; otherwise the state either is the expected one or an
        error says what it is. */
    function UntilWith(expected: int): (err: Option<string>)
      reads this
      ensures lastError.Some? ==> err == lastError
      ensures lastError.None? ==> (err.None? <==> srvStatus == expected)
      ensures lastError.None? && srvStatus != expected ==>
              err == Some("status is invalid, excepted is " + SrvString(expected) + ", actual is " + SrvString(srvStatus) + ".")
    {
      if lastError.Some? then lastError
      else if srvStatus == expected then None
      else Some("status is invalid, excepted is " + SrvString(expected) + ", actual is " + SrvString(srvStatus) + ".")
    }

    /** The readiness callback start hands to run: the supervisor becomes the
        owner exactly when it wins STARTING -> RUNNING. */
    method Claim()
      modifies this
      ensures old(srvStatus) == SrvStarting ==> srvStatus == SrvRunning && owner == 1
      ensures old(srvStatus) != SrvStarting ==> srvStatus == old(srvStatus) && owner == old(owner)
      ensures lastError == old(lastError) && out == old(out) && runsMade == old(runsMade) && targets == old(targets)
    {
      if srvStatus == SrvStarting {
        srvStatus := SrvRunning;
        owner := 1;
      }
    }

    /** run: start the child, wait for the launcher to return, then poll for
        the pid file at most ten times; the callback runs on the first poll
        that finds it, and a run that never sees it says so. */
    method Run(r: PidRun) returns (called: bool)
      modifies this
      ensures called <==> Succeeds(r)
      ensures called ==> (old(srvStatus) == SrvStarting ==> srvStatus == SrvRunning && owner == 1)
      ensures !called || old(srvStatus) != SrvStarting ==> srvStatus == old(srvStatus) && owner == old(owner)
      ensures r.startErr.Some? ==> out == old(out) + "[sys] start process failed - " + r.startErr.value + "\r\n"
      ensures r.startErr.None? && r.waitErr.Some? ==>
              out == old(out) + Concat(r.output) + "[sys] wait process failed - " + r.waitErr.value + "\r\n"
      ensures r.startErr.None? && r.waitErr.None? && !called ==>
              out == old(out) + Concat(r.output) + "[sys] pid file '" + pidfile + "' is not exists.\r\n"
      ensures called ==> out == old(out) + Concat(r.output)
      ensures r.startErr.None? ==> old(out) + Concat(r.output) <= out
      ensures runsMade == old(runsMade) + 1
      ensures lastError == old(lastError) && targets == old(targets)
    {
      runsMade := runsMade + 1;
      called := false;
      if r.startErr.Some? {
        out := out + "[sys] start process failed - " + r.startErr.value + "\r\n";
        return;
      }
      out := out + Concat(r.output);
      if r.waitErr.Some? {
        out := out + "[sys] wait process failed - " + r.waitErr.value + "\r\n";
        return;
      }
      var i := 0;
      while i < 10
        invariant 0 <= i <= 10
        invariant forall j | 0 <= j < i :: !PolledPresent(r, j)
        invariant srvStatus == old(srvStatus) && owner == old(owner) && out == old(out) + Concat(r.output)
        invariant runsMade == old(runsMade) + 1 && lastError == old(lastError) && targets == old(targets)
      {
        if PolledPresent(r, i) {
          Claim();
          called := true;
          return;
        }
        i := i + 1;
      }
      out := out + "[sys] pid file '" + pidfile + "' is not exists.\r\n";
    }

    /** start: a program already running (the pid file exists) is adopted
        without being owned. Otherwise, from INIT, up to `retries` runs are
        made until one of them brings the service to RUNNING; if none does,
        the service returns to INIT and start reports true. */
    method Start(present: bool, attempt: int -> PidRun) returns (res: bool)
      modifies this
      ensures present ==> !res && owner == 0 && runsMade == old(runsMade) &&
                          srvStatus == (if old(srvStatus) == SrvInit then SrvRunning else old(srvStatus)) &&
                          out == old(out) + SrvStartLine + "[sys] process is already started by other\r\n" &&
                          lastError == old(lastError)
      ensures !present && old(srvStatus) != SrvInit ==>
              !res && srvStatus == old(srvStatus) && owner == old(owner) && out == old(out) &&
              runsMade == old(runsMade) && lastError == old(lastError)
      ensures !present && old(srvStatus) == SrvInit ==>
              lastError == None &&
              (res <==> !AnySuccess(attempt, retries)) &&
              (res ==> srvStatus == SrvInit && owner == old(owner) && runsMade == old(runsMade) + (if retries > 0 then retries else 0)) &&
              (!res ==> srvStatus == SrvRunning && owner == 1 && FirstSuccess(attempt, retries, runsMade - old(runsMade) - 1))
      ensures targets == old(targets)
    {
      if present {
        out := out + SrvStartLine + "[sys] process is already started by other\r\n";
        if srvStatus == SrvInit {
          srvStatus := SrvRunning;
        }
        owner := 0;
        return false;
      }
      if srvStatus != SrvInit {
        return false;
      }
      srvStatus := SrvStarting;
      out := out + SrvStartLine;
      var i := 0;
      while i < retries
        invariant 0 <= i && (retries > 0 ==> i <= retries) && (retries <= 0 ==> i == 0)
        invariant srvStatus == SrvStarting && owner == old(owner) && targets == old(targets)
        invariant runsMade == old(runsMade) + i
        invariant forall j | 0 <= j < i :: !Succeeds(attempt(j))
      {
        var called := Run(attempt(i));
        if srvStatus != SrvStarting {
          lastError := None;
          assert FirstSuccess(attempt, retries, i);
          return false;
        }
        i := i + 1;
      }
      srvStatus := SrvInit;
      lastError := None;
      return true;
    }

    /** interrupt: without a stop command nothing happens. Otherwise the pid
        is read from the pid file (0 if that fails), `__signal__` signals it and
        any other command runs the stop command; only a failure is logged. */
    method Interrupt(file: PidFile, os: Os)
      modifies this
      ensures targets == old(targets) + (if stop.Some? then [StopTarget(pidfile, file)] else [])
      ensures out == old(out) + InterruptLog(stop, killTimeout, os)
      ensures srvStatus == old(srvStatus) && owner == old(owner) && lastError == old(lastError)
      ensures runsMade == old(runsMade)
    {
      if stop.None? {
        return;
      }
      var read := ReadPidfile(pidfile, file);
      var pid := if read.Pid? then read.pid else 0;
      targets := targets + [pid];
      var r: Report;
      if stop.value.proc == "__signal__" {
        r := KillBySignal(stop.value.arguments, killTimeout, os);
      } else {
        r := KillByCmd(killTimeout, os);
      }
      if r.ok {
        out := out + r.txt;
      } else {
        out := out + r.txt + "\r\n";
      }
    }

    /** stop: a supervisor that does not own the program only forgets it
        (RUNNING -> INIT) and never signals it. The owner moves RUNNING or
        STARTING to STOPPING, interrupts the program, returns to INIT and gives
        up ownership. */
    method Stop(file: PidFile, os: Os) returns (res: bool)
      modifies this
      ensures old(owner) != 1 ==>
              !res && srvStatus == (if old(srvStatus) == SrvRunning then SrvInit else old(srvStatus)) &&
              owner == old(owner) && targets == old(targets) && lastError == old(lastError) &&
              out == old(out) + "[sys] ignore process\r\n" + SrvEndLine
      ensures old(owner) == 1 ==> lastError == None
      ensures old(owner) == 1 ==>
              (res <==> old(srvStatus) == SrvRunning || old(srvStatus) == SrvStarting)
      ensures old(owner) == 1 && res ==>
              srvStatus == SrvInit && owner == 0 &&
              targets == old(targets) + (if stop.Some? then [StopTarget(pidfile, file)] else []) &&
              out == old(out) + InterruptLog(stop, killTimeout, os) + SrvEndLine
      ensures old(owner) == 1 && !res ==> srvStatus == old(srvStatus) && owner == 1 && targets == old(targets) && out == old(out)
      ensures runsMade == old(runsMade)
    {
      if owner != 1 {
        if srvStatus == SrvRunning {
          srvStatus := SrvInit;
        }
        out := out + "[sys] ignore process\r\n" + SrvEndLine;
        return false;
      }
      lastError := None;
      if srvStatus != SrvRunning && srvStatus != SrvStarting {
        return false;
      }
      srvStatus := SrvStopping;
      Interrupt(file, os);
      srvStatus := SrvInit;
      owner := 0;
      out := out + SrvEndLine;
      return true;
    }
  }

  /** Stopping a program the supervisor found already running never aims a
      stop strategy at it: start followed by stop leaves it alone. */
  method AdoptedIsNeverKilled(pidfile: string, retries: int, killTimeout: int, stop: Option<Command>,
                              file: PidFile, os: Os, attempt: int -> PidRun)
      returns (s: PidfileSupervisor, started: bool, stopped: bool)
    ensures fresh(s)
    ensures !started && !stopped
    ensures s.targets == [] && s.srvStatus == SrvInit && s.owner == 0
  {
    s := new PidfileSupervisor(pidfile, retries, killTimeout, stop);
    started := s.Start(true, attempt);
    assert s.Status() == "running, extern";
    stopped := s.Stop(file, os);
  }
}

=== FILE: process_tree.dfy ===
/** kill.go: killing a process together with everything it started, and
    asking whether a process (optionally with a given executable) is alive.
    The process table is a snapshot of (pid, parent pid, executable) entries;
    whether a kill succeeds is an input. */
module ProcessTree {
  import opened Text

  datatype Proc = Proc(pid: int, ppid: int, exe: string)

  /** Below `pid` the parent links have no cycle: every entry whose parent
      ranks no higher than `pid` ranks below that parent. Only the entries the
      recursive kill can reach are constrained; an entry it never visits, such
      as a self-parented idle process elsewhere in the listing, can be given a
      parent ranked above `pid`. The children of pid -1 are never visited, so
      links to -1 are free. */
  predicate RankedBelow(s: seq<Proc>, pid: int, rank: int -> nat) {
    forall k | 0 <= k < |s| :: s[k].ppid != -1 && rank(s[k].ppid) <= rank(pid) ==> rank(s[k].pid) < rank(s[k].ppid)
  }

  /** `c` is listed in the snapshot as a child of `p`. */
  predicate ChildAt(s: seq<Proc>, c: int, p: int) {
    exists i | 0 <= i < |s| :: s[i].pid == c && s[i].ppid == p
  }

  /** The pids killProcessAndChildren kills, in order: each child's subtree, in
      snapshot order, then `pid` itself; the pid -1 kills nothing. */
  ghost function KillOrder(s: seq<Proc>, pid: int, rank: int -> nat): (t: seq<int>)
    requires RankedBelow(s, pid, rank)
    ensures pid == -1 <==> t == []
    ensures pid != -1 ==> t[|t| - 1] == pid
    decreases rank(pid), 1, 0
  {
    if pid == -1 then [] else ChildrenOrder(s, pid, 0, rank) + [pid]
  }

  /** The kills of the subtrees of the children of `pid` listed at or after `i`. */
  ghost function ChildrenOrder(s: seq<Proc>, pid: int, i: nat, rank: int -> nat): seq<int>
    requires RankedBelow(s, pid, rank) && pid != -1 && i <= |s|
    decreases rank(pid), 0, |s| - i
  {
    if i == |s| then []
    else (if s[i].ppid == pid then KillOrder(s, s[i].pid, rank) else []) + ChildrenOrder(s, pid, i + 1, rank)
  }

  /** The outcome of killing one pid (os.FindProcess, then Process.Kill). */
  type KillResult = int -> Option<string>

  /** killProcessAndChildren: the snapshot is the given one, else a fresh
      listing; every listed child of `pid` is killed, recursively, before
      `pid`, and only the error of killing `pid` itself is returned. When no
      snapshot is given and listing fails, only `pid` is killed. */
  method KillProcessAndChildren(pid: int, processes: Option<seq<Proc>>, listing: Option<seq<Proc>>,
                                killErr: KillResult, ghost rank: int -> nat)
      returns (err: Option<string>, trace: seq<int>)
    requires processes.Some? ==> RankedBelow(processes.value, pid, rank)
    requires processes.None? && listing.Some? ==> RankedBelow(listing.value, pid, rank)
    ensures pid == -1 ==> err.None? && trace == []
    ensures pid != -1 ==> err == killErr(pid)
    ensures pid != -1 && processes.None? && listing.None? ==> trace == [pid]
    ensures processes.Some? ==> trace == KillOrder(processes.value, pid, rank)
    ensures processes.None? && listing.Some? ==> trace == KillOrder(listing.value, pid, rank)
    decreases rank(pid), if processes.None? then 2 else 1
  {
    if pid == -1 {
      return None, [];
    }
    var s: seq<Proc>;
    if processes.Some? {
      s := processes.value;
    } else if listing.Some? {
      s := listing.value;
    } else {
      return killErr(pid), [pid];
    }
    trace := KillChildren(pid, s, killErr, rank);
    trace := trace + [pid];
    err := killErr(pid);
  }

  /** The loop of killProcessAndChildren over the snapshot: the subtree of
      every listed child of `pid`, in snapshot order. */
  method KillChildren(pid: int, s: seq<Proc>, killErr: KillResult, ghost rank: int -> nat) returns (trace: seq<int>)
    requires RankedBelow(s, pid, rank) && pid != -1
    ensures trace == ChildrenOrder(s, pid, 0, rank)
    decreases rank(pid), 0
  {
    trace := [];
    var i := 0;
    ghost var whole := ChildrenOrder(s, pid, 0, rank);
    while i < |s|
      invariant 0 <= i <= |s|
      invariant trace + ChildrenOrder(s, pid, i, rank) == whole
    {
      var sub: seq<int> := [];
      if s[i].ppid == pid {
        var _, t := KillProcessAndChildren(s[i].pid, Some(s), None, killErr, rank);
        sub := t;
      }
      ChildrenOrderStep(s, pid, i, rank, trace, sub, whole);
      trace := trace + sub;
      i := i + 1;
    }
  }

  /** One step of the loop of KillChildren keeps its invariant. */
  lemma ChildrenOrderStep(s: seq<Proc>, pid: int, i: nat, rank: int -> nat, done: seq<int>, sub: seq<int>, whole: seq<int>)
    requires RankedBelow(s, pid, rank) && pid != -1 && i < |s|
    requires sub == if s[i].ppid == pid then KillOrder(s, s[i].pid, rank) else []
    requires done + ChildrenOrder(s, pid, i, rank) == whole
    ensures (done + sub) + ChildrenOrder(s, pid, i + 1, rank) == whole
  {
    ChildrenOrderUnfold(s, pid, i, rank);
    Regroup(done, sub, ChildrenOrder(s, pid, i + 1, rank), whole);
  }

  lemma ChildrenOrderUnfold(s: seq<Proc>, pid: int, i: nat, rank: int -> nat)
    requires RankedBelow(s, pid, rank) && pid != -1 && i < |s|
    ensures ChildrenOrder(s, pid, i, rank) ==
            (if s[i].ppid == pid then KillOrder(s, s[i].pid, rank) else []) + ChildrenOrder(s, pid, i + 1, rank)
  {
  }

  lemma Regroup(done: seq<int>, sub: seq<int>, later: seq<int>, whole: seq<int>)
    requires done + (sub + later) == whole
    ensures (done + sub) + later == whole
  {
    assert (done + sub) + later == done + (sub + later);
  }

  /** kill: killProcessAndChildren with a fresh listing. */
  method Kill(pid: int, listing: Option<seq<Proc>>, killErr: KillResult, ghost rank: int -> nat)
      returns (err: Option<string>, trace: seq<int>)
    requires listing.Some? ==> RankedBelow(listing.value, pid, rank)
    ensures pid == -1 ==> err.None? && trace == []
    ensures pid != -1 ==> err == killErr(pid)
    ensures pid != -1 && listing.None? ==> trace == [pid]
    ensures listing.Some? ==> trace == KillOrder(listing.value, pid, rank)
  {
    err, trace := KillProcessAndChildren(pid, None, listing, killErr, rank);
  }

  /** A listing holding a self-parented idle entry that the kill of pid 5
      never reaches is admitted, and the kill of 5 kills 5 alone. */
  lemma UnreachableCycleAdmitted()
    ensures var s := [Proc(0, 0, "idle"), Proc(5, 1, "app")];
            var rank: int -> nat := x => if x == 5 then 0 else if x == 0 then 1 else 10;
            RankedBelow(s, 5, rank) && KillOrder(s, 5, rank) == [5]
  {
    var s := [Proc(0, 0, "idle"), Proc(5, 1, "app")];
    var rank: int -> nat := x => if x == 5 then 0 else if x == 0 then 1 else 10;
    assert RankedBelow(s, 5, rank);
    assert ChildrenOrder(s, 5, 2, rank) == [];
    assert ChildrenOrder(s, 5, 1, rank) == [];
    assert ChildrenOrder(s, 5, 0, rank) == [];
  }

  /** A kill in the trace other than the last is of a child of a process
      killed later: the kill order never reaches beyond the tree of `pid`. */
  predicate KilledAfter(s: seq<Proc>, t: seq<int>, k: int)
    requires 0 <= k < |t|
  {
    exists j | k < j < |t| :: ChildAt(s, t[k], t[j])
  }

  /** Every pid killed before the last one is a listed child of one killed after it. */
  lemma {:induction false} KillOrderStaysInTree(s: seq<Proc>, pid: int, rank: int -> nat)
    requires RankedBelow(s, pid, rank)
    ensures forall k | 0 <= k < |KillOrder(s, pid, rank)| - 1 :: KilledAfter(s, KillOrder(s, pid, rank), k)
    decreases rank(pid), 1, 0
  {
    if pid != -1 {
      var c := ChildrenOrder(s, pid, 0, rank);
      var t := c + [pid];
      ChildrenOrderInTree(s, pid, 0, rank);
      assert InTree(s, c, pid);
      forall k | 0 <= k < |t| - 1 ensures KilledAfter(s, t, k) {
        assert t[k] == c[k];
        assert KilledAfter(s, c, k) || ChildAt(s, c[k], pid);
        if KilledAfter(s, c, k) {
          var j :| k < j < |c| && ChildAt(s, c[k], c[j]);
          assert t[j] == c[j];
        } else {
          assert ChildAt(s, c[k], pid);
          assert t[|t| - 1] == pid;
        }
      }
    }
  }

  /** Every pid of `c` is a child of one killed after it or a child of `pid`. */
  predicate InTree(s: seq<Proc>, c: seq<int>, pid: int) {
    forall k | 0 <= k < |c| :: KilledAfter(s, c, k) || ChildAt(s, c[k], pid)
  }

  /** In the kills of the children's subtrees, every pid is a child of one
      killed after it or a child of `pid`. */
  lemma {:induction false} ChildrenOrderInTree(s: seq<Proc>, pid: int, i: nat, rank: int -> nat)
    requires RankedBelow(s, pid, rank) && pid != -1 && i <= |s|
    ensures InTree(s, ChildrenOrder(s, pid, i, rank), pid)
    decreases rank(pid), 0, |s| - i
  {
    if i < |s| {
      var head := if s[i].ppid == pid then KillOrder(s, s[i].pid, rank) else [];
      var rest := ChildrenOrder(s, pid, i + 1, rank);
      var c := head + rest;
      assert c == ChildrenOrder(s, pid, i, rank);
      ChildrenOrderInTree(s, pid, i + 1, rank);
      if s[i].ppid == pid && s[i].pid != -1 {
        KillOrderStaysInTree(s, s[i].pid, rank);
        assert ChildAt(s, head[|head| - 1], pid);
      }
      InTreeJoin(s, head, rest, pid);
    }
  }

  /** A subtree's kills ending in a child of `pid`, followed by kills already in
      the tree of `pid`, stay in the tree of `pid`. */
  lemma InTreeJoin(s: seq<Proc>, head: seq<int>, rest: seq<int>, pid: int)
    requires forall k | 0 <= k < |head| - 1 :: KilledAfter(s, head, k)
    requires head != [] ==> ChildAt(s, head[|head| - 1], pid)
    requires InTree(s, rest, pid)
    ensures InTree(s, head + rest, pid)
  {
    var c := head + rest;
    forall k | 0 <= k < |c| ensures KilledAfter(s, c, k) || ChildAt(s, c[k], pid) {
      if k < |head| - 1 {
        assert KilledAfter(s, head, k);
        var j :| k < j < |head| && ChildAt(s, head[k], head[j]);
        assert c[k] == head[k] && c[j] == head[j];
      } else if k == |head| - 1 {
        assert c[k] == head[k];
      } else {
        var m := k - |head|;
        assert c[k] == rest[m];
        assert KilledAfter(s, rest, m) || ChildAt(s, rest[m], pid);
        if KilledAfter(s, rest, m) {
          var j :| m < j < |rest| && ChildAt(s, rest[m], rest[j]);
          assert c[j + |head|] == rest[j];
        }
      }
    }
  }

  /** Every listed child of a killed pid is killed before it. */
  lemma ChildrenKilledFirst(s: seq<Proc>, pid: int, rank: int -> nat, i: int)
    requires RankedBelow(s, pid, rank) && pid != -1 && 0 <= i < |s| && s[i].ppid == pid && s[i].pid != -1
    ensures s[i].pid in KillOrder(s, pid, rank)[..|KillOrder(s, pid, rank)| - 1]
  {
    ChildInChildrenOrder(s, pid, rank, 0, i);
    var t := KillOrder(s, pid, rank);
    assert t[..|t| - 1] == ChildrenOrder(s, pid, 0, rank);
  }

  lemma {:induction false} ChildInChildrenOrder(s: seq<Proc>, pid: int, rank: int -> nat, from: nat, i: int)
    requires RankedBelow(s, pid, rank) && pid != -1 && from <= i < |s| && s[i].ppid == pid && s[i].pid != -1
    ensures s[i].pid in ChildrenOrder(s, pid, from, rank)
    decreases i - from
  {
    var head := if s[from].ppid == pid then KillOrder(s, s[from].pid, rank) else [];
    assert ChildrenOrder(s, pid, from, rank) == head + ChildrenOrder(s, pid, from + 1, rank);
    if from == i {
      var t := KillOrder(s, s[i].pid, rank);
      assert t[|t| - 1] == s[i].pid;
      assert s[i].pid in head;
    } else {
      ChildInChildrenOrder(s, pid, rank, from + 1, i);
    }
  }

  // ---------------------------------------------------------------- liveness

  /** The executable matches the image name, ignoring the case of ASCII
      letters; an empty image matches every executable. */
  predicate MatchesImage(exe: string, image: string) {
    image == "" || Contains(ToLower(exe), ToLower(image))
  }

  /** Lower-casing twice is lower-casing once. */
  lemma ToLowerIdempotent(s: string)
    ensures ToLower(ToLower(s)) == ToLower(s)
  {
    var l := ToLower(s);
    assert forall k | 0 <= k < |s| :: LowerAscii(l[k]) == l[k];
  }

  /** The image test does not depend on the case of either name. */
  lemma MatchIgnoresCase(exe: string, image: string)
    ensures MatchesImage(exe, image) == MatchesImage(ToLower(exe), image)
    ensures image != "" ==> MatchesImage(exe, image) == MatchesImage(exe, ToLower(image))
  {
    ToLowerIdempotent(exe);
    ToLowerIdempotent(image);
    assert image != "" ==> ToLower(image) != "";
  }

  /** What ps.FindProcess answers for a pid. */
  datatype Lookup = Found(proc: Proc) | NotFound | LookupFailed(err: string)

  /** A result that may instead be a panic. */
  datatype Answer = Answer(b: bool) | Panic(msg: string)

  /** processExists: an unknown pid does not exist; a known one exists when
      its executable matches the image; a failing lookup panics. */
  function ProcessExists(image: string, lookup: Lookup): (r: Answer)
    ensures r.Panic? <==> lookup.LookupFailed?
    ensures r == Answer(true) <==> lookup.Found? && MatchesImage(lookup.proc.exe, image)
    ensures lookup.NotFound? ==> r == Answer(false)
  {
    match lookup
    case LookupFailed(e) => Panic(e)
    case NotFound => Answer(false)
    case Found(p) => Answer(MatchesImage(p.exe, image))
  }

  /** The first entry of the cached listing with the given pid, or -1. */
  function FirstWithPid(cached: seq<Proc>, pid: int): (k: int)
    ensures -1 <= k < |cached|
    ensures k == -1 <==> forall j | 0 <= j < |cached| :: cached[j].pid != pid
    ensures k >= 0 ==> cached[k].pid == pid && forall j | 0 <= j < k :: cached[j].pid != pid
  {
    if cached == [] then -1
    else if cached[|cached| - 1].pid == pid && FirstWithPid(cached[..|cached| - 1], pid) == -1 then |cached| - 1
    else FirstWithPid(cached[..|cached| - 1], pid)
  }

  /** IsInProcessList: a live lookup that matches settles it; otherwise the
      first entry of the cached listing with that pid is judged by the same
      image rule, and a pid missing from it is not alive. */
  method IsInProcessList(pid: int, image: string, lookup: Lookup, cached: seq<Proc>) returns (r: Answer)
    ensures lookup.LookupFailed? ==> r == Panic(lookup.err)
    ensures !lookup.LookupFailed? ==>
            (r == Answer(true) <==> ProcessExists(image, lookup) == Answer(true) ||
                                    (FirstWithPid(cached, pid) >= 0 && MatchesImage(cached[FirstWithPid(cached, pid)].exe, image)))
    ensures !lookup.LookupFailed? ==> r.Answer?
  {
    var live := ProcessExists(image, lookup);
    if live.Panic? {
      return live;
    }
    if live.b {
      return Answer(true);
    }
    var i := 0;
    while i < |cached|
      invariant 0 <= i <= |cached|
      invariant forall j | 0 <= j < i :: cached[j].pid != pid
    {
      if cached[i].pid == pid {
        assert FirstWithPid(cached, pid) == i;
        return Answer(MatchesImage(cached[i].exe, image));
      }
      i := i + 1;
    }
    return Answer(false);
  }
}

=== FILE: rotation.dfy ===
/** rotateFile.go: a log file that rotates once it has reached a size. Before
    a write that finds the file full, the oldest numbered copy is removed, every
    other copy moves one number up, the live file becomes copy 1 and a fresh
    live file is opened. The file system is a map from names to contents; the
    failures of its operations are inputs. */
module Rotation {
  import opened Text

  /** A failed file system operation: the name is gone, or anything else. */
  datatype FsError = NotExist | Failure(msg: string)

  /** Which operations fail: remove and rename per name, open, write. */
  datatype Faults = Faults(remove: string -> Option<FsError>, rename: (string, string) -> Option<FsError>,
                           open: Option<string>, write: Option<string>)

  /** No remove, rename or open fails: the rotation itself goes through. */
  ghost predicate NoRotationFaults(f: Faults) {
    (forall n :: f.remove(n) == None) && (forall a, b :: f.rename(a, b) == None) && f.open == None
  }

  ghost predicate NoFaults(f: Faults) {
    NoRotationFaults(f) && f.write == None
  }

  /** The text of a file system error. A missing file gets the fixed text
      "file does not exist", a stand-in: Go's `*PathError` would also name the
      operation and the path. */
  function ErrorText(e: FsError): string {
    match e
    case NotExist => "file does not exist"
    case Failure(m) => m
  }

  /** The numbered copy `k` of `base`: `base.%04d`. */
  function Slot(base: string, k: int): (n: string)
    ensures |n| >= |base| + 5 && n[..|base|] == base
  {
    base + "." + Pad4(k)
  }

  /** Different numbers name different copies. */
  lemma SlotInjective(base: string, a: int, b: int)
    requires Slot(base, a) == Slot(base, b)
    ensures a == b
  {
    assert Slot(base, a)[|base| + 1..] == Pad4(a);
    assert Slot(base, b)[|base| + 1..] == Pad4(b);
    Pad4Injective(a, b);
  }

  lemma SlotsDiffer(base: string)
    ensures forall a, b | a != b :: Slot(base, a) != Slot(base, b)
  {
    forall a, b | a != b ensures Slot(base, a) != Slot(base, b) {
      if Slot(base, a) == Slot(base, b) {
        SlotInjective(base, a, b);
      }
    }
  }

  /** The lowest copy number a rotation uses: 1, or maxNum itself when that is below 1. */
  function Lowest(maxNum: int): int {
    if maxNum >= 1 then 1 else maxNum
  }

  /** `n` is one of the copies `lo`..`hi` of `base`. */
  ghost predicate InSlots(n: string, base: string, lo: int, hi: int) {
    exists k | lo <= k <= hi :: n == Slot(base, k)
  }

  /** Name by name, `after` equals `before`. */
  predicate SameAt(before: map<string, string>, after: map<string, string>, n: string) {
    (n in after <==> n in before) && (n in before ==> after[n] == before[n])
  }

  /** `after` holds at `to` what `before` held at `from` (or neither holds anything). */
  predicate MovedAt(before: map<string, string>, after: map<string, string>, from: string, to: string) {
    (to in after <==> from in before) && (from in before ==> after[to] == before[from])
  }

  /** A complete rotation of the live file `live` with copies named from
      `base`: each copy k (from the lowest up to maxNum - 1) is now copy k + 1,
      the old top copy is gone, the live file is now the lowest copy, a new
      empty live file exists, and no other name changed. */
  ghost predicate RotatedFrom(before: map<string, string>, after: map<string, string>, live: string, base: string, maxNum: int)
    requires live in before
  {
    var lo := Lowest(maxNum);
    live in after && after[live] == "" &&
    Slot(base, lo) in after && after[Slot(base, lo)] == before[live] &&
    (forall k | lo < k <= maxNum :: MovedAt(before, after, Slot(base, k - 1), Slot(base, k))) &&
    (forall n | n != live && !InSlots(n, base, lo, maxNum) :: SameAt(before, after, n))
  }

  /** A rotation has one outcome: RotatedFrom fixes every name of the result. */
  lemma {:induction false} RotationDeterministic(before: map<string, string>, a1: map<string, string>,
                                                 a2: map<string, string>, live: string, base: string, maxNum: int)
    requires live in before
    requires RotatedFrom(before, a1, live, base, maxNum) && RotatedFrom(before, a2, live, base, maxNum)
    ensures a1 == a2
  {
    var lo := Lowest(maxNum);
    forall n ensures n in a1 <==> n in a2
    ensures n in a1 && n in a2 ==> a1[n] == a2[n]
    {
      if n != live && InSlots(n, base, lo, maxNum) {
        var k :| lo <= k <= maxNum && n == Slot(base, k);
        if k != lo {
          assert MovedAt(before, a1, Slot(base, k - 1), Slot(base, k));
          assert MovedAt(before, a2, Slot(base, k - 1), Slot(base, k));
        }
      } else if n != live {
        assert SameAt(before, a1, n) && SameAt(before, a2, n);
      }
    }
  }

  /** Copies above `num` and names outside the copies have not been touched. */
  ghost predicate Untouched(d0: map<string, string>, d: map<string, string>, base: string, num: int, maxNum: int) {
    (forall n | !InSlots(n, base, 1, maxNum) :: SameAt(d0, d, n)) &&
    (forall k | 1 <= k <= num :: SameAt(d0, d, Slot(base, k)))
  }

  /** Copies above `num` + 1 have moved one up, leaving copy `num` + 1 free. */
  ghost predicate Shifted(d0: map<string, string>, d: map<string, string>, base: string, num: int, maxNum: int) {
    Slot(base, num + 1) !in d &&
    forall k | num + 1 < k <= maxNum :: MovedAt(d0, d, Slot(base, k - 1), Slot(base, k))
  }

  lemma UntouchedFrame(d0: map<string, string>, d: map<string, string>, base: string, num: int, maxNum: int)
    requires Untouched(d0, d, base, num, maxNum)
    ensures forall n | !InSlots(n, base, 1, maxNum) :: SameAt(d0, d, n)
  {
  }

  /** One turn of the renaming loop keeps both loop facts. */
  lemma {:induction false} ShiftStep(d0: map<string, string>, d: map<string, string>, d': map<string, string>,
                                     base: string, num: int, maxNum: int, clean: bool)
    requires 1 <= num <= maxNum - 1
    requires Untouched(d0, d, base, num, maxNum)
    requires clean ==> Shifted(d0, d, base, num, maxNum)
    requires var from, to := Slot(base, num), Slot(base, num + 1);
             (from !in d && d' == d) || (from in d && (d' == d[to := d[from]] - {from} || (!clean && d' == d - {from})))
    ensures Untouched(d0, d', base, num - 1, maxNum)
    ensures clean ==> Shifted(d0, d', base, num - 1, maxNum)
  {
    SlotsDiffer(base);
    var from, to := Slot(base, num), Slot(base, num + 1);
    assert InSlots(from, base, 1, maxNum) && InSlots(to, base, 1, maxNum);
    assert SameAt(d0, d, from);
    if clean {
      forall k | num < k <= maxNum ensures MovedAt(d0, d', Slot(base, k - 1), Slot(base, k)) {
        if k > num + 1 {
          assert MovedAt(d0, d, Slot(base, k - 1), Slot(base, k));
        }
      }
    }
  }

  const ClosedError := "file already closed"

  class RotateFile {
    const filename: string
    const maxBytes: int
    const maxNum: int

    /** the file system as this writer sees it */
    var disk: map<string, string>
    var currentBytes: int
    /** whether the live file is open for writing */
    var fileOpen: bool

    predicate Valid()
      reads this
    {
      fileOpen ==> filename in disk
    }

    constructor (filename: string, maxBytes: int, maxNum: int, disk: map<string, string>)
      ensures this.filename == filename && this.maxBytes == maxBytes && this.maxNum == maxNum
      ensures this.disk == disk && currentBytes == 0 && !fileOpen
      ensures Valid()
    {
      this.filename := filename;
      this.maxBytes := maxBytes;
      this.maxNum := maxNum;
      this.disk := disk;
      currentBytes := 0;
      fileOpen := false;
    }

    /** The copies' base name: the file name, with ".error" for an error rotation. */
    function Base(isError: bool): (b: string)
    {
      if isError then filename + ".error" else filename
    }

    /** A numbered copy is never the live file. */
    lemma SlotIsNotLive(isError: bool, k: int)
      ensures Slot(Base(isError), k) != filename
    {
      assert |Slot(Base(isError), k)| > |filename|;
    }

    /** The first step of a rotation: the top copy goes, if it is there. */
    method RemoveTop(base: string, f: Faults) returns (err: Option<string>)
      modifies this
      ensures var top := Slot(base, maxNum);
              if top !in old(disk) || f.remove(top) == Some(NotExist) then err.None? && disk == old(disk)
              else if f.remove(top).Some? then err == Some(f.remove(top).value.msg) && disk == old(disk)
              else err.None? && disk == old(disk) - {top}
      ensures currentBytes == old(currentBytes) && fileOpen == old(fileOpen)
    {
      var top := Slot(base, maxNum);
      if top !in disk {
        return None;
      }
      match f.remove(top)
      case None =>
        disk := disk - {top};
        return None;
      case Some(NotExist) =>
        return None;
      case Some(Failure(m)) =>
        return Some(m);
    }

    /** The renaming loop: for num = maxNum - 1 down to 1, an existing copy
        num moves to num + 1. A rename that fails deletes the copy instead,
        and the rotation stops when that fails too. */
    method ShiftSlots(base: string, f: Faults) returns (err: Option<string>)
      modifies this
      ensures forall n | !InSlots(n, base, 1, maxNum) :: SameAt(old(disk), disk, n)
      ensures NoRotationFaults(f) && (maxNum >= 1 ==> Slot(base, maxNum) !in old(disk)) ==>
              err.None? &&
              (maxNum >= 1 ==> Slot(base, 1) !in disk) &&
              (forall k | 1 < k <= maxNum :: MovedAt(old(disk), disk, Slot(base, k - 1), Slot(base, k)))
      ensures currentBytes == old(currentBytes) && fileOpen == old(fileOpen)
    {
      err := None;
      var num := maxNum - 1;
      ghost var clean := NoRotationFaults(f) && (maxNum >= 1 ==> Slot(base, maxNum) !in old(disk));
      while num > 0
        invariant num <= maxNum - 1 && (maxNum >= 1 ==> 0 <= num)
        invariant Untouched(old(disk), disk, base, num, maxNum)
        invariant clean && maxNum >= 1 ==> Shifted(old(disk), disk, base, num, maxNum)
        invariant currentBytes == old(currentBytes) && fileOpen == old(fileOpen)
      {
        ghost var before := disk;
        if Slot(base, num) in disk {
          var e := Move(base, num, f);
          if e.Some? {
            UntouchedFrame(old(disk), disk, base, num, maxNum);
            return e;
          }
        }
        ShiftStep(old(disk), before, disk, base, num, maxNum, clean);
        num := num - 1;
      }
      UntouchedFrame(old(disk), disk, base, num, maxNum);
    }

    /** One step of the renaming loop, for copy `num` (which exists). */
    method Move(base: string, num: int, f: Faults) returns (err: Option<string>)
      requires Slot(base, num) in disk
      modifies this
      ensures var from, to := Slot(base, num), Slot(base, num + 1);
              if f.rename(from, to).None? then err.None? && disk == old(disk)[to := old(disk)[from]] - {from}
              else if f.remove(from).None? then err.None? && disk == old(disk) - {from}
              else err == Some(ErrorText(f.rename(from, to).value)) && disk == old(disk)
      ensures currentBytes == old(currentBytes) && fileOpen == old(fileOpen)
    {
      err := None;
      SlotsDiffer(base);
      var from, to := Slot(base, num), Slot(base, num + 1);
      match f.rename(from, to)
      case None =>
        disk := disk[to := disk[from]] - {from};
      case Some(e) =>
        if f.remove(from).None? {
          disk := disk - {from};
        } else {
          err := Some(ErrorText(e));
        }
    }

    /** The live file is closed and renamed to `hole`; a live file that is
        already gone is no error. */
    method MoveLive(hole: string, f: Faults) returns (err: Option<string>)
      requires filename in disk && hole != filename
      modifies this
      ensures !fileOpen
      ensures f.rename(filename, hole).None? ==> err.None? && disk == old(disk)[hole := old(disk)[filename]] - {filename}
      ensures f.rename(filename, hole) == Some(NotExist) ==> err.None? && disk == old(disk)
      ensures f.rename(filename, hole).Some? && f.rename(filename, hole).value.Failure? ==>
              err == Some(f.rename(filename, hole).value.msg) && disk == old(disk)
      ensures currentBytes == old(currentBytes)
    {
      fileOpen := false;
      match f.rename(filename, hole)
      case None =>
        disk := disk[hole := disk[filename]] - {filename};
        return None;
      case Some(NotExist) =>
        return None;
      case Some(Failure(m)) =>
        return Some(m);
    }

    /** The live file is opened for appending (created when missing) and the
        byte count starts again from 0. */
    method Reopen(f: Faults) returns (err: Option<string>)
      modifies this
      ensures f.open.Some? ==> err == f.open && disk == old(disk) && fileOpen == old(fileOpen) &&
                               currentBytes == old(currentBytes)
      ensures f.open.None? ==> err.None? && fileOpen && currentBytes == 0 &&
                               disk == old(disk)[filename := if filename in old(disk) then old(disk)[filename] else ""]
    {
      if f.open.Some? {
        return f.open;
      }
      disk := disk[filename := if filename in disk then disk[filename] else ""];
      fileOpen := true;
      currentBytes := 0;
      return None;
    }

    /** initRotate: when the live file exists it is rotated (see RotatedFrom);
        then the live file is opened afresh. */
    method InitRotate(isError: bool, f: Faults) returns (err: Option<string>)
      requires Valid()
      modifies this
      ensures Valid()
      ensures err.None? ==> fileOpen && currentBytes == 0 && filename in disk
      ensures err.Some? ==> currentBytes == old(currentBytes)
      ensures f.open.Some? ==> err.Some?
      ensures forall n | n != filename && !InSlots(n, Base(isError), Lowest(maxNum), maxNum) :: SameAt(old(disk), disk, n)
      ensures NoRotationFaults(f) && filename !in old(disk) ==> err.None? && disk == old(disk)[filename := ""]
      ensures NoRotationFaults(f) && filename in old(disk) ==>
              err.None? && RotatedFrom(old(disk), disk, filename, Base(isError), maxNum)
    {
      err := None;
      if filename in disk {
        var base := Base(isError);
        SlotsAreNotLive(isError);
        assert !InSlots(filename, base, 1, maxNum);
        ghost var d0 := disk;
        var e := RemoveTop(base, f);
        if e.Some? {
          return e;
        }
        ghost var d1 := disk;
        e := ShiftSlots(base, f);
        ghost var d2 := disk;
        if e.Some? {
          RotationFrame(d0, d1, d2, d2, d2, isError);
          return e;
        }
        var hole := Slot(base, Lowest(maxNum));
        e := MoveLive(hole, f);
        ghost var d3 := disk;
        if e.Some? {
          RotationFrame(d0, d1, d2, d3, d3, isError);
          return e;
        }
        e := Reopen(f);
        if e.Some? {
          RotationFrame(d0, d1, d2, d3, d3, isError);
          return e;
        }
        RotationFrame(d0, d1, d2, d3, disk, isError);
        if NoRotationFaults(f) {
          RotationComplete(d0, d1, d2, d3, disk, isError);
        }
      } else {
        err := Reopen(f);
      }
    }

    lemma SlotsAreNotLive(isError: bool)
      ensures forall k :: Slot(Base(isError), k) != filename
    {
      forall k ensures Slot(Base(isError), k) != filename {
        SlotIsNotLive(isError, k);
      }
    }

    /** Only the live file and the copies change during a rotation. */
    lemma RotationFrame(d0: map<string, string>, d1: map<string, string>, d2: map<string, string>,
                        d3: map<string, string>, d4: map<string, string>, isError: bool)
      requires var top := Slot(Base(isError), maxNum); d1 == d0 || d1 == d0 - {top}
      requires forall n | !InSlots(n, Base(isError), 1, maxNum) :: SameAt(d1, d2, n)
      requires var hole := Slot(Base(isError), Lowest(maxNum));
               filename in d2 && (d3 == d2 || d3 == d2[hole := d2[filename]] - {filename})
      requires d4 == d3 || d4 == d3[filename := if filename in d3 then d3[filename] else ""]
      ensures forall n | n != filename && !InSlots(n, Base(isError), Lowest(maxNum), maxNum) :: SameAt(d0, d4, n)
    {
      var base := Base(isError);
      forall n | n != filename && !InSlots(n, base, Lowest(maxNum), maxNum) ensures SameAt(d0, d4, n) {
        assert n != Slot(base, maxNum);
        assert n != Slot(base, Lowest(maxNum));
        assert !InSlots(n, base, 1, maxNum) by {
          if maxNum >= 1 {
            assert Lowest(maxNum) == 1;
          }
        }
      }
    }

    /** Without failures a rotation is complete. */
    lemma RotationComplete(d0: map<string, string>, d1: map<string, string>, d2: map<string, string>,
                           d3: map<string, string>, d4: map<string, string>, isError: bool)
      requires filename in d0
      requires var top := Slot(Base(isError), maxNum); d1 == d0 - {top}
      requires forall n | !InSlots(n, Base(isError), 1, maxNum) :: SameAt(d1, d2, n)
      requires maxNum >= 1 ==> Slot(Base(isError), 1) !in d2
      requires forall k | 1 < k <= maxNum :: MovedAt(d1, d2, Slot(Base(isError), k - 1), Slot(Base(isError), k))
      requires var hole := Slot(Base(isError), Lowest(maxNum));
               filename in d2 && d3 == d2[hole := d2[filename]] - {filename}
      requires d4 == d3[filename := ""]
      requires forall n | n != filename && !InSlots(n, Base(isError), Lowest(maxNum), maxNum) :: SameAt(d0, d4, n)
      ensures RotatedFrom(d0, d4, filename, Base(isError), maxNum)
    {
      var base := Base(isError);
      var lo := Lowest(maxNum);
      SlotsAreNotLive(isError);
      assert d2[filename] == d0[filename] by {
        assert !InSlots(filename, base, 1, maxNum);
      }
      forall k | lo < k <= maxNum ensures MovedAt(d0, d4, Slot(base, k - 1), Slot(base, k)) {
        assert Slot(base, k) != Slot(base, lo) by {
          if Slot(base, k) == Slot(base, lo) {
            SlotInjective(base, k, lo);
          }
        }
        assert Slot(base, k - 1) != Slot(base, maxNum) by {
          if Slot(base, k - 1) == Slot(base, maxNum) {
            SlotInjective(base, k - 1, maxNum);
          }
        }
      }
    }

    /** Write / WriteString: a full file is rotated first; the text is then
        appended and counted. A failed rotation or write writes nothing and
        counts nothing. */
    method Write(s: string, f: Faults) returns (n: int, err: Option<string>)
      requires Valid()
      modifies this
      ensures Valid()
      ensures err.Some? ==> n == 0
      ensures err.None? ==> n == |s| && fileOpen
      ensures old(currentBytes) < maxBytes ==>
              (err.None? <==> old(fileOpen) && f.write.None?) &&
              (err.None? ==> currentBytes == old(currentBytes) + |s| && disk == old(disk)[filename := old(disk)[filename] + s]) &&
              (err.Some? ==> currentBytes == old(currentBytes) && disk == old(disk))
      ensures old(currentBytes) >= maxBytes && NoFaults(f) ==>
              err.None? && currentBytes == |s| && filename in disk && disk[filename] == s &&
              (filename in old(disk) ==> RotatedFrom(old(disk), disk[filename := ""], filename, Base(false), maxNum))
      ensures old(currentBytes) >= maxBytes && NoRotationFaults(f) && f.write.Some? ==>
              err == f.write && currentBytes == 0 && filename in disk &&
              (filename !in old(disk) ==> disk == old(disk)[filename := ""]) &&
              (filename in old(disk) ==> RotatedFrom(old(disk), disk, filename, Base(false), maxNum))
    {
      if currentBytes >= maxBytes {
        var e := InitRotate(false, f);
        if e.Some? {
          return 0, Some("rotate file(\"" + filename + "\"): " + e.value + "\n");
        }
      }
      if !fileOpen {
        return 0, Some(ClosedError);
      }
      if f.write.Some? {
        return 0, f.write;
      }
      ghost var rotated := disk;
      disk := disk[filename := disk[filename] + s];
      currentBytes := currentBytes + |s|;
      assert disk[filename := ""] == rotated[filename := ""];
      return |s|, None;
    }

    /** RotateToError: a rotation whose copies are named `<file>.error.NNNN`;
        a failure is only reported. */
    method RotateToError(f: Faults)
      requires Valid()
      modifies this
      ensures Valid()
      ensures NoRotationFaults(f) && filename in old(disk) ==>
              fileOpen && currentBytes == 0 && RotatedFrom(old(disk), disk, filename, filename + ".error", maxNum)
    {
      var _ := InitRotate(true, f);
    }
  }

  /** NewRotateFile: the writer starts with a rotation (of an existing file) and
      fails if the live file cannot be opened. */
  method NewRotateFile(fname: string, maxBytes: int, maxNum: int, disk: map<string, string>, f: Faults)
      returns (w: RotateFile?, err: Option<string>)
    ensures err.Some? <==> w == null
    ensures f.open.Some? ==> err.Some?
    ensures w != null ==> fresh(w) && w.Valid() && w.fileOpen && w.currentBytes == 0 &&
                          w.filename == fname && w.maxBytes == maxBytes && w.maxNum == maxNum
    ensures w != null && NoRotationFaults(f) && fname !in disk ==> w.disk == disk[fname := ""]
    ensures w != null && NoRotationFaults(f) && fname in disk ==> RotatedFrom(disk, w.disk, fname, fname, maxNum)
  {
    var r := new RotateFile(fname, maxBytes, maxNum, disk);
    var e := r.InitRotate(false, f);
    if e.Some? {
      return null, e;
    }
    return r, None;
  }
}

=== FILE: stream_match.dfy ===
/** The streaming success-marker detector of io_wrap.go.
    A `MatchWriter` relays every chunk to its sink and watches the relayed stream
    for a literal marker, carrying a partial match (`offset`) across chunks.
    The detector only compares elements for equality, so it is generic in the
    element type; the supervisors use it on text. */
module StreamMatch {

  import opened Text

  /** The last `l` elements of `text` are the first `l` elements of `pattern`. */
  ghost predicate SuffixPrefix<T>(text: seq<T>, pattern: seq<T>, l: int) {
    0 <= l <= |text| && l <= |pattern| && text[|text| - l..] == pattern[..l]
  }

  /** `l` is the longest overlap of the end of `text` with the start of `pattern`. */
  ghost predicate LongestOverlap<T>(text: seq<T>, pattern: seq<T>, l: int) {
    SuffixPrefix(text, pattern, l) &&
    forall k :: l < k <= |pattern| ==> !SuffixPrefix(text, pattern, k)
  }

  /** With `c` elements of `pattern` already seen, the chunk `s` continues the
      partial match without finishing it. */
  ghost predicate Extends<T>(s: seq<T>, pattern: seq<T>, c: int)
    requires 0 <= c <= |pattern|
  {
    c + |s| < |pattern| && s == pattern[c..c + |s|]
  }

  /** With `c` elements of `pattern` already seen, the chunk `s` finishes the match. */
  ghost predicate Completes<T>(s: seq<T>, pattern: seq<T>, c: int)
    requires 0 <= c <= |pattern|
  {
    c + |s| >= |pattern| && s[..|pattern| - c] == pattern[c..]
  }

  /** crossingMatch: the longest suffix of `s` that is a prefix of `pattern`. */
  method CrossingMatch<T(==)>(s: seq<T>, pattern: seq<T>) returns (l: nat)
    ensures l <= |s| && l <= |pattern|
    ensures LongestOverlap(s, pattern, l)
  {
    l := |s|;
    if l > |pattern| {
      l := |pattern|;
    }
    while l > 0
      invariant l <= |s| && l <= |pattern|
      invariant forall k :: l < k <= |pattern| ==> !SuffixPrefix(s, pattern, k)
    {
      if s[|s| - l..] == pattern[..l] {
        return;
      }
      l := l - 1;
    }
  }

  lemma OccurrenceShifts<T>(seen: seq<T>, s: seq<T>, pattern: seq<T>, i: int)
    requires OccursAt(s, pattern, i)
    ensures OccursAt(seen + s, pattern, |seen| + i)
  {
    assert (seen + s)[|seen| + i..|seen| + i + |pattern|] == s[i..i + |pattern|];
  }

  lemma ContainsGrows<T>(seen: seq<T>, s: seq<T>, pattern: seq<T>)
    requires Contains(seen, pattern)
    ensures Contains(seen + s, pattern)
  {
    var i :| 0 <= i <= |seen| - |pattern| && OccursAt(seen, pattern, i);
    assert (seen + s)[i..i + |pattern|] == seen[i..i + |pattern|];
    assert OccursAt(seen + s, pattern, i);
  }

  /** A partial match of length `c` at the end of `seen` completed by `s`. */
  lemma CompletionOccurs<T>(seen: seq<T>, s: seq<T>, pattern: seq<T>, c: int)
    requires 0 <= c <= |pattern| && SuffixPrefix(seen, pattern, c) && Completes(s, pattern, c)
    ensures Contains(seen + s, pattern)
  {
    var i := |seen| - c;
    var t := seen + s;
    assert t[i..i + |pattern|] == seen[i..] + s[..|pattern| - c];
    assert pattern == pattern[..c] + pattern[c..];
    assert OccursAt(t, pattern, i);
  }

  /** An occurrence in `seen + s` lies in `seen`, lies in `s`, or straddles the
      boundary, where it is a partial match at the end of `seen` completed by `s`. */
  lemma OccurrenceSplits<T>(seen: seq<T>, s: seq<T>, pattern: seq<T>, i: int)
    requires OccursAt(seen + s, pattern, i)
    ensures OccursAt(seen, pattern, i) || OccursAt(s, pattern, i - |seen|) ||
            (var c := |seen| - i;
             0 < c < |pattern| && SuffixPrefix(seen, pattern, c) && Completes(s, pattern, c))
  {
    var t := seen + s;
    if i + |pattern| <= |seen| {
      assert t[i..i + |pattern|] == seen[i..i + |pattern|];
    } else if i >= |seen| {
      assert t[i..i + |pattern|] == s[i - |seen|..i - |seen| + |pattern|];
    } else {
      var c := |seen| - i;
      assert pattern[..c] == t[i..i + |pattern|][..c] == seen[i..];
      assert pattern[c..] == t[i..i + |pattern|][c..] == s[..|pattern| - c];
    }
  }

  /** Overlaps of `seen + s` no longer than `s` are overlaps of `s`; longer ones
      are an overlap of `seen` extended by all of `s`. */
  lemma OverlapSplits<T>(seen: seq<T>, s: seq<T>, pattern: seq<T>, l: int)
    requires SuffixPrefix(seen + s, pattern, l)
    ensures l <= |s| ==> SuffixPrefix(s, pattern, l)
    ensures l > |s| ==> SuffixPrefix(seen, pattern, l - |s|) && s == pattern[l - |s|..l]
  {
    var t := seen + s;
    if l <= |s| {
      assert t[|t| - l..] == s[|s| - l..];
    } else {
      var c := l - |s|;
      assert t[|t| - l..] == seen[|seen| - c..] + s;
      assert pattern[..l][..c] == pattern[..c];
      assert pattern[..l][c..] == pattern[c..l];
    }
  }

  lemma OverlapJoins<T>(seen: seq<T>, s: seq<T>, pattern: seq<T>, c: int)
    requires SuffixPrefix(seen, pattern, c) && c + |s| <= |pattern| && s == pattern[c..c + |s|]
    ensures SuffixPrefix(seen + s, pattern, c + |s|)
  {
    var t := seen + s;
    assert t[|t| - (c + |s|)..] == seen[|seen| - c..] + s;
    assert pattern[..c + |s|] == pattern[..c] + pattern[c..c + |s|];
  }

  /** The step of the failure chain: when `seen` ends with the first `orig`
      elements of `pattern`, its overlaps shorter than `cur` are exactly the
      overlaps of `pattern[orig - cur + 1..orig]`. */
  lemma ChainStep<T>(seen: seq<T>, pattern: seq<T>, orig: int, cur: int, k: int)
    requires 0 < cur <= orig && SuffixPrefix(seen, pattern, orig) && 0 <= k < cur
    ensures SuffixPrefix(seen, pattern, k) <==> SuffixPrefix(pattern[orig - cur + 1..orig], pattern, k)
  {
    var u := pattern[orig - cur + 1..orig];
    assert seen[|seen| - k..] == seen[|seen| - orig..][orig - k..];
    assert u[|u| - k..] == pattern[..orig][orig - k..];
  }

  /** match: decides whether `pattern` occurs in everything relayed so far
      (`seen`, of which only the carried `offset` is remembered) followed by
      the chunk `s`, and if not, the offset to carry into the next chunk. */
  method Match<T(==)>(s: seq<T>, pattern: seq<T>, offset: nat, ghost seen: seq<T>)
    returns (found: bool, next: nat)
    requires LongestOverlap(seen, pattern, offset)
    requires seen == [] || !Contains(seen, pattern)
    ensures found == Contains(seen + s, pattern)
    ensures found ==> next == 0
    ensures !found ==> next < |pattern| && LongestOverlap(seen + s, pattern, next)
  {
    var cur := offset;
    while cur > 0
      invariant cur <= offset
      invariant SuffixPrefix(seen, pattern, cur)
      invariant forall c :: cur < c <= offset && SuffixPrefix(seen, pattern, c) ==>
                  !Extends(s, pattern, c) && !Completes(s, pattern, c)
      decreases cur
    {
      if cur + |s| < |pattern| {
        if s == pattern[cur..cur + |s|] {
          OverlapJoins(seen, s, pattern, cur);
          forall k | cur + |s| < k <= |pattern|
            ensures !SuffixPrefix(seen + s, pattern, k)
          {
            if SuffixPrefix(seen + s, pattern, k) {
              OverlapSplits(seen, s, pattern, k);
            }
          }
          forall i | 0 <= i <= |seen + s| - |pattern|
            ensures !OccursAt(seen + s, pattern, i)
          {
            if OccursAt(seen + s, pattern, i) {
              OccurrenceSplits(seen, s, pattern, i);
            }
          }
          return false, cur + |s|;
        }
      } else {
        if s[..|pattern| - cur] == pattern[cur..] {
          CompletionOccurs(seen, s, pattern, cur);
          return true, 0;
        }
      }
      var u := pattern[offset - cur + 1..offset];
      ghost var prev := cur;
      cur := CrossingMatch(u, pattern);
      forall k | 0 <= k < prev
        ensures SuffixPrefix(seen, pattern, k) <==> SuffixPrefix(u, pattern, k)
      {
        ChainStep(seen, pattern, offset, prev, k);
      }
    }
    found := Contains(s, pattern);
    if found {
      var i :| 0 <= i <= |s| - |pattern| && OccursAt(s, pattern, i);
      OccurrenceShifts(seen, s, pattern, i);
      next := 0;
    } else {
      forall i | 0 <= i <= |seen + s| - |pattern|
        ensures !OccursAt(seen + s, pattern, i)
      {
        if OccursAt(seen + s, pattern, i) {
          OccurrenceSplits(seen, s, pattern, i);
        }
      }
      next := CrossingMatch(s, pattern);
      forall k | next < k <= |pattern|
        ensures !SuffixPrefix(seen + s, pattern, k)
      {
        if SuffixPrefix(seen + s, pattern, k) {
          OverlapSplits(seen, s, pattern, k);
        }
      }
      if next == |pattern| {
        assert OccursAt(s, pattern, |s| - |pattern|);
      }
    }
  }

  /** matchWriter: relays chunks to its sink and detects the marker once. */
  class MatchWriter<T(==)> {
    const pattern: seq<T>
    /** whether a sink is attached (`out != nil`) */
    const hasSink: bool
    /** whether a callback is attached (`cb != nil`) */
    const hasCallback: bool
    var offset: nat
    var matched: bool
    /** everything relayed so far, in order */
    var relayed: seq<T>
    /** how many times the callback has run */
    var callbacks: nat

    ghost predicate Valid()
      reads this
    {
      |pattern| > 0 &&
      matched == Contains(relayed, pattern) &&
      (!matched ==> LongestOverlap(relayed, pattern, offset)) &&
      callbacks == (if matched && hasCallback then 1 else 0)
    }

    constructor (pattern: seq<T>, hasSink: bool, hasCallback: bool)
      requires |pattern| > 0
      ensures Valid()
      ensures this.pattern == pattern && this.hasSink == hasSink && this.hasCallback == hasCallback
      ensures relayed == [] && !matched && callbacks == 0
    {
      this.pattern := pattern;
      this.hasSink := hasSink;
      this.hasCallback := hasCallback;
      offset := 0;
      matched := false;
      relayed := [];
      callbacks := 0;
    }

    /** Matched() */
    function Matched(): (m: bool)
      requires Valid()
      reads this
      ensures m == Contains(relayed, pattern)
    {
      matched
    }

    /** Write(p): `accepted` and `sinkErr` are the count and the error the sink
        reports (without a sink the whole chunk is taken and there is no error).
        Returns that count and error, and whether the callback ran during this
        call; only the accepted prefix is searched for the marker. */
    method Write(p: seq<T>, accepted: nat, sinkErr: Option<string>) returns (n: nat, err: Option<string>, fired: bool)
      requires Valid()
      requires accepted <= |p|
      modifies this
      ensures Valid()
      ensures n == (if hasSink then accepted else |p|)
      ensures err == (if hasSink then sinkErr else None)
      ensures relayed == old(relayed) + p[..n]
      ensures matched == Contains(relayed, pattern)
      ensures old(matched) ==> matched && !fired && callbacks == old(callbacks)
      ensures fired <==> !old(matched) && matched && hasCallback
      ensures callbacks <= 1
    {
      n := if hasSink then accepted else |p|;
      err := if hasSink then sinkErr else None;
      if matched {
        ContainsGrows(relayed, p[..n], pattern);
        relayed := relayed + p[..n];
        fired := false;
        return;
      }
      var m, o := Match(p[..n], pattern, offset, relayed);
      relayed := relayed + p[..n];
      matched, offset := m, o;
      fired := matched && hasCallback;
      if fired {
        callbacks := callbacks + 1;
      }
    }
  }

  /** wrap: the sink itself (null here) when there is no marker or no callback,
      otherwise a fresh detector in front of it. */
  method Wrap<T(==)>(hasSink: bool, pattern: seq<T>, hasCallback: bool) returns (w: MatchWriter?<T>)
    ensures (w == null) <==> (|pattern| == 0 || !hasCallback)
    ensures w != null ==> fresh(w) && w.Valid() && w.pattern == pattern && w.hasSink == hasSink &&
                          w.hasCallback && w.relayed == [] && !w.matched
  {
    if |pattern| == 0 || !hasCallback {
      return null;
    }
    w := new MatchWriter(pattern, hasSink, hasCallback);
  }

  function Concat<T>(chunks: seq<seq<T>>): seq<T> {
    if chunks == [] then [] else Concat(chunks[..|chunks| - 1]) + chunks[|chunks| - 1]
  }

  /** Feeding one more chunk appends exactly that chunk to what was fed. */
  lemma ConcatSnoc<T>(chunks: seq<seq<T>>, i: nat)
    requires i < |chunks|
    ensures Concat(chunks[..i + 1]) == Concat(chunks[..i]) + chunks[i]
  {
    assert chunks[..i + 1][..i] == chunks[..i];
  }

  /** The driver of the table test: a detector over a buffer sink fed the chunks in order. */
  method Feed<T(==)>(pattern: seq<T>, chunks: seq<seq<T>>) returns (matched: bool, sink: seq<T>)
    requires |pattern| > 0
    ensures matched == Contains(Concat(chunks), pattern)
    ensures sink == Concat(chunks)
  {
    var w := new MatchWriter(pattern, true, false);
    var i := 0;
    while i < |chunks|
      invariant 0 <= i <= |chunks|
      invariant w.Valid() && w.pattern == pattern && w.hasSink
      invariant w.relayed == Concat(chunks[..i])
      modifies w
    {
      var _, _, _ := w.Write(chunks[i], |chunks[i]|, None);
      ConcatSnoc(chunks, i);
      i := i + 1;
    }
    assert chunks[..|chunks|] == chunks;
    matched := w.Matched();
    sink := w.relayed;
  }
}

=== FILE: stream_match_table.dfy ===
/** The pattern/chunk table of io_wrap_test.go, run through the detector.
    Each row states what `Feed` reports; the expected column is the test's. */
module StreamMatchTable {
  import opened Text
  import opened StreamMatch

  lemma MismatchAt<T>(t: seq<T>, p: seq<T>, i: int, j: int)
    requires 0 <= j < |p| && 0 <= i && i + j < |t| && t[i + j] != p[j]
    ensures !OccursAt(t, p, i)
  {
  }

  lemma ConcatFour<T>(a: seq<T>, b: seq<T>, c: seq<T>, d: seq<T>)
    ensures Concat([a]) == a
    ensures Concat([a, b]) == a + b
    ensures Concat([a, b, c]) == a + b + c
    ensures Concat([a, b, c, d]) == a + b + c + d
  {
    assert [a, b, c, d][..3] == [a, b, c];
    assert [a, b, c][..2] == [a, b];
    assert [a, b][..1] == [a];
    assert [a][..0] == [];
  }

  /** "d" never occurs in "abc" (row 5). */
  lemma AbsentLetter()
    ensures !Contains(Concat(["abc"]), "d")
  {
    ConcatFour("abc", "", "", "");
    MismatchAt("abc", "d", 0, 0);
    MismatchAt("abc", "d", 1, 0);
    MismatchAt("abc", "d", 2, 0);
  }

  /** Rows 27 and 28: the chunks join to seven a's, four b's and a c. */
  lemma AbsentFourBs()
    ensures !Contains(Concat(["aaaaaaa", "bbb", "bc"]), "aaabbbc")
    ensures !Contains(Concat(["aaaaaaa", "bb", "bbc"]), "aaabbbc")
  {
    var p, t := "aaabbbc", "aaaaaaabbbbc";
    ConcatFour("aaaaaaa", "bbb", "bc", "");
    ConcatFour("aaaaaaa", "bb", "bbc", "");
    assert "aaaaaaa" + "bbb" + "bc" == t && "aaaaaaa" + "bb" + "bbc" == t;
    MismatchAt(t, p, 0, 3); MismatchAt(t, p, 1, 3); MismatchAt(t, p, 2, 3);
    MismatchAt(t, p, 3, 3); MismatchAt(t, p, 4, 6); MismatchAt(t, p, 5, 2);
  }

  /** Row 29: nine a's, four b's and a c. */
  lemma AbsentNineAs()
    ensures !Contains(Concat(["aaaaaaa", "aabb", "bbc"]), "aaabbbc")
  {
    var p, t := "aaabbbc", "aaaaaaaaabbbbc";
    ConcatFour("aaaaaaa", "aabb", "bbc", "");
    assert "aaaaaaa" + "aabb" + "bbc" == t;
    forall i | 0 <= i <= |t| - |p|
      ensures !OccursAt(t, p, i)
    {
      if i <= 5 {
        MismatchAt(t, p, i, 3);
      } else if i == 6 {
        MismatchAt(t, p, i, 6);
      } else {
        MismatchAt(t, p, i, 2);
      }
    }
  }

  /** Row 30: six a's, four b's and a c. */
  lemma AbsentSixAs()
    ensures !Contains(Concat(["aaaaaab", "bb", "bc"]), "aaabbbc")
  {
    var p, t := "aaabbbc", "aaaaaabbbbc";
    ConcatFour("aaaaaab", "bb", "bc", "");
    assert "aaaaaab" + "bb" + "bc" == t;
    MismatchAt(t, p, 0, 3); MismatchAt(t, p, 1, 3); MismatchAt(t, p, 2, 3);
    MismatchAt(t, p, 3, 6); MismatchAt(t, p, 4, 2);
  }

  /** Row 31: only two b's. */
  lemma AbsentTwoBs()
    ensures !Contains(Concat(["aaaaaa", "bb", "cc"]), "aaabbbc")
  {
    var p, t := "aaabbbc", "aaaaaabbcc";
    ConcatFour("aaaaaa", "bb", "cc", "");
    assert "aaaaaa" + "bb" + "cc" == t;
    MismatchAt(t, p, 0, 3); MismatchAt(t, p, 1, 3); MismatchAt(t, p, 2, 3);
    MismatchAt(t, p, 3, 5);
  }

  /** Rows 1-9 and 36: one chunk "abc" (or "a"). */
  method SingleChunkRows() returns (found: seq<bool>)
    ensures found == [true, true, true, true, false, true, true, true, false, false]
  {
    ConcatFour("a", "", "", "");
    ConcatFour("abc", "", "", "");
    assert OccursAt("a", "a", 0);
    assert OccursAt("abc", "a", 0);
    assert OccursAt("abc", "b", 1);
    assert OccursAt("abc", "c", 2);
    assert OccursAt("abc", "ab", 0);
    assert OccursAt("abc", "bc", 1);
    assert OccursAt("abc", "abc", 0);
    AbsentLetter();
    var m1, _ := Feed("a", ["a"]);
    var m2, _ := Feed("a", ["abc"]);
    var m3, _ := Feed("b", ["abc"]);
    var m4, _ := Feed("c", ["abc"]);
    var m5, _ := Feed("d", ["abc"]);
    var m6, _ := Feed("ab", ["abc"]);
    var m7, _ := Feed("bc", ["abc"]);
    var m8, _ := Feed("abc", ["abc"]);
    var m9, _ := Feed("abcd", ["abc"]);
    var m10, _ := Feed("abcd", ["abc"]);
    found := [m1, m2, m3, m4, m5, m6, m7, m8, m9, m10];
  }

  /** Rows 10-18: "ab" and "abc" split in every way. */
  method SplitShortRows() returns (found: seq<bool>)
    ensures found == [true, true, true, true, true, true, true, true, true]
  {
    ConcatFour("a", "b", "c", "");
    ConcatFour("ab", "c", "", "");
    ConcatFour("a", "bc", "", "");
    ConcatFour("abc", "", "", "");
    assert "a" + "b" + "c" == "abc" && "ab" + "c" == "abc" && "a" + "bc" == "abc";
    assert OccursAt("abc", "b", 1);
    assert OccursAt("abc", "ab", 0);
    assert OccursAt("abc", "abc", 0);
    var m1, _ := Feed("b", ["a", "b", "c"]);
    var m2, _ := Feed("ab", ["a", "b", "c"]);
    var m3, _ := Feed("ab", ["ab", "c"]);
    var m4, _ := Feed("ab", ["a", "bc"]);
    var m5, _ := Feed("ab", ["abc"]);
    var m6, _ := Feed("abc", ["a", "b", "c"]);
    var m7, _ := Feed("abc", ["ab", "c"]);
    var m8, _ := Feed("abc", ["a", "bc"]);
    var m9, _ := Feed("abc", ["abc"]);
    found := [m1, m2, m3, m4, m5, m6, m7, m8, m9];
  }

  /** Rows 19-26: markers with a repeated prefix, split after a run of that prefix. */
  method RepeatedPrefixRows() returns (found: seq<bool>)
    ensures found == [true, true, true, true, true, true, true, true]
  {
    ConcatFour("aa", "abc", "", "");
    ConcatFour("aaaaaaa", "abc", "", "");
    ConcatFour("aaaaaaa", "bc", "", "");
    ConcatFour("aaaaaaa", "aabc", "", "");
    ConcatFour("aaaaaaa", "aaabc", "", "");
    ConcatFour("aaaaaaa", "aaa", "bc", "");
    ConcatFour("aaaaaaa", "bb", "bc", "");
    assert OccursAt("aa" + "abc", "aabc", 1);
    assert OccursAt("aa" + "abc", "aaabc", 0);
    assert OccursAt("aaaaaaa" + "abc", "aaabc", 5);
    assert OccursAt("aaaaaaa" + "bc", "aaabc", 4);
    assert OccursAt("aaaaaaa" + "aabc", "aaabc", 6);
    assert OccursAt("aaaaaaa" + "aaabc", "aaabc", 7);
    assert OccursAt("aaaaaaa" + "aaa" + "bc", "aaabc", 7);
    assert OccursAt("aaaaaaa" + "bb" + "bc", "aaabbbc", 4);
    var m1, _ := Feed("aabc", ["aa", "abc"]);
    var m2, _ := Feed("aaabc", ["aa", "abc"]);
    var m3, _ := Feed("aaabc", ["aaaaaaa", "abc"]);
    var m4, _ := Feed("aaabc", ["aaaaaaa", "bc"]);
    var m5, _ := Feed("aaabc", ["aaaaaaa", "aabc"]);
    var m6, _ := Feed("aaabc", ["aaaaaaa", "aaabc"]);
    var m7, _ := Feed("aaabc", ["aaaaaaa", "aaa", "bc"]);
    var m8, _ := Feed("aaabbbc", ["aaaaaaa", "bb", "bc"]);
    found := [m1, m2, m3, m4, m5, m6, m7, m8];
  }

  /** Rows 27-31: the concatenated chunks do not contain the marker at all,
      so the detector reports no match however the chunks are cut. */
  method AbsentMarkerRows() returns (found: seq<bool>)
    ensures found == [false, false, false, false, false]
  {
    AbsentFourBs();
    AbsentNineAs();
    AbsentSixAs();
    AbsentTwoBs();
    var m1, _ := Feed("aaabbbc", ["aaaaaaa", "bbb", "bc"]);
    var m2, _ := Feed("aaabbbc", ["aaaaaaa", "bb", "bbc"]);
    var m3, _ := Feed("aaabbbc", ["aaaaaaa", "aabb", "bbc"]);
    var m4, _ := Feed("aaabbbc", ["aaaaaab", "bb", "bc"]);
    var m5, _ := Feed("aaabbbc", ["aaaaaa", "bb", "cc"]);
    found := [m1, m2, m3, m4, m5];
  }

  /** Rows 32-35: markers split across three and four chunks, and the same text in one chunk. */
  method ManyChunkRows() returns (found: seq<bool>)
    ensures found == [true, true, true, true]
  {
    ConcatFour("aaaaaa", "bb", "cc", "");
    ConcatFour("aaaaaa", "bb", "cc", "dd");
    ConcatFour("aaaaaa", "bb", "cc", "ddddd");
    ConcatFour("aaaaaabbccddddd", "", "", "");
    assert OccursAt("aaaaaa" + "bb" + "cc", "aaabbcc", 3);
    assert OccursAt("aaaaaa" + "bb" + "cc" + "dd", "aaabbccdd", 3);
    assert OccursAt("aaaaaa" + "bb" + "cc" + "ddddd", "aaabbccdd", 3);
    assert OccursAt("aaaaaabbccddddd", "aaabbccdd", 3);
    var m1, _ := Feed("aaabbcc", ["aaaaaa", "bb", "cc"]);
    var m2, _ := Feed("aaabbccdd", ["aaaaaa", "bb", "cc", "dd"]);
    var m3, _ := Feed("aaabbccdd", ["aaaaaa", "bb", "cc", "ddddd"]);
    var m4, _ := Feed("aaabbccdd", ["aaaaaabbccddddd"]);
    found := [m1, m2, m3, m4];
  }
}

=== FILE: supervision.dfy ===
/** The pieces of supervisor.go every supervisor shares: the status constants
    and their names, the child's command line and environment, the stop
    strategies, and the basic status machine of the `supervisor` type.
    What the operating system answers (whether a process can be found, a signal
    delivered, a wait finished in time) is an input of the model. */
module Supervision {
  import opened Text

  // Service states (srv_status).
  const SrvInit := 0
  const SrvStarting := 1
  const SrvRunning := 2
  const SrvStopping := 3

  // Child-process states (proc_status); the source spells the last one PROC_STOPPNG.
  const ProcInit := 0
  const ProcStarting := 1
  const ProcRunning := 2
  const ProcStopping := 3

  predicate IsInt32(i: int) {
    -0x8000_0000 <= i < 0x8000_0000
  }

  /** srvString: the name of a service state, or the decimal text of any other value. */
  function SrvString(status: int): (s: string)
    ensures status == SrvInit ==> s == "SRV_INIT"
    ensures status == SrvStarting ==> s == "SRV_STARTING"
    ensures status == SrvRunning ==> s == "SRV_RUNNING"
    ensures status == SrvStopping ==> s == "SRV_STOPPING"
    ensures !(SrvInit <= status <= SrvStopping) ==> ParseInt(s) == Some(status) || !IsInt32(status)
  {
    if status == SrvInit then "SRV_INIT"
    else if status == SrvStarting then "SRV_STARTING"
    else if status == SrvRunning then "SRV_RUNNING"
    else if status == SrvStopping then "SRV_STOPPING"
    else
      if IsInt32(status) then ParseShowInt(status); ShowInt(status)
      else ShowInt(status)
  }

  /** procString: the name of a process state, or the decimal text of any other value. */
  function ProcString(status: int): (s: string)
    ensures status == ProcInit ==> s == "PROC_INIT"
    ensures status == ProcStarting ==> s == "PROC_STARTING"
    ensures status == ProcRunning ==> s == "PROC_RUNNING"
    ensures status == ProcStopping ==> s == "PROC_STOPPING"
    ensures !(ProcInit <= status <= ProcStopping) ==> ParseInt(s) == Some(status) || !IsInt32(status)
  {
    if status == ProcInit then "PROC_INIT"
    else if status == ProcStarting then "PROC_STARTING"
    else if status == ProcRunning then "PROC_RUNNING"
    else if status == ProcStopping then "PROC_STOPPING"
    else
      if IsInt32(status) then ParseShowInt(status); ShowInt(status)
      else ShowInt(status)
  }

  /** Different int32 states never print the same. */
  lemma SrvStringInjective(a: int, b: int)
    requires IsInt32(a) && IsInt32(b) && SrvString(a) == SrvString(b)
    ensures a == b
  {
    NameIsNotNumber(a);
    NameIsNotNumber(b);
    if !(SrvInit <= a <= SrvStopping) && !(SrvInit <= b <= SrvStopping) {
      ShowIntInjective(a, b);
    }
  }

  /** Likewise for process states. */
  lemma ProcStringInjective(a: int, b: int)
    requires IsInt32(a) && IsInt32(b) && ProcString(a) == ProcString(b)
    ensures a == b
  {
    NameIsNotNumber(a);
    NameIsNotNumber(b);
    if !(ProcInit <= a <= ProcStopping) && !(ProcInit <= b <= ProcStopping) {
      ShowIntInjective(a, b);
    }
  }

  /** A state name starts with a letter, the text of a number with a digit or '-'. */
  lemma NameIsNotNumber(n: int)
    ensures ShowInt(n) !in {"SRV_INIT", "SRV_STARTING", "SRV_RUNNING", "SRV_STOPPING"}
    ensures ShowInt(n) !in {"PROC_INIT", "PROC_STARTING", "PROC_RUNNING", "PROC_STOPPING"}
  {
    var t := ShowInt(n);
    assert IsDigit(t[0]) || t[0] == '-';
  }

  lemma ShowIntInjective(a: int, b: int)
    requires IsInt64(a) && IsInt64(b) && ShowInt(a) == ShowInt(b)
    ensures a == b
  {
    ParseShowInt(a);
    ParseShowInt(b);
  }

  // ---------------------------------------------------------------- commands

  /** A configured command: program, arguments, extra environment entries
      (`NAME=value`) and working directory. */
  datatype Command = Command(proc: string, arguments: seq<string>, environments: seq<string>, directory: string)

  /** The child process command() describes. */
  datatype Spawn = Spawn(path: string, args: seq<string>, dir: string, env: seq<string>)

  /** command(): the unit's environment entries come first, the inherited
      environment `osEnv` after them; without entries the child inherits `osEnv` as it is. */
  function CommandOf(c: Command, osEnv: seq<string>): (s: Spawn)
    ensures s.path == c.proc && s.args == c.arguments && s.dir == c.directory
    ensures |s.env| == |c.environments| + |osEnv|
    ensures s.env[..|c.environments|] == c.environments && s.env[|c.environments|..] == osEnv
  {
    if |c.environments| != 0 then
      Spawn(c.proc, c.arguments, c.directory, c.environments + osEnv)
    else
      Spawn(c.proc, c.arguments, c.directory, osEnv)
  }

  // ---------------------------------------------------------------- stop strategies

  /** How interrupt ends a child. */
  datatype Strategy = ForceKill | BySignal | ByConsole | ByCommand

  /** The strategy the stop command selects: none, `"__kill___"` or `""` force-kill
      at once; `"__signal__"` and `"__console__"` name their strategies; every
      other program is run as a stop command. */
  function StrategyOf(stop: Option<Command>): (s: Strategy)
    ensures s == ForceKill <==> stop.None? || stop.value.proc == "__kill___" || stop.value.proc == ""
    ensures s == BySignal <==> stop.Some? && stop.value.proc == "__signal__"
    ensures s == ByConsole <==> stop.Some? && stop.value.proc == "__console__"
  {
    if stop.None? then ForceKill
    else if stop.value.proc == "__kill___" || stop.value.proc == "" then ForceKill
    else if stop.value.proc == "__signal__" then BySignal
    else if stop.value.proc == "__console__" then ByConsole
    else ByCommand
  }

  /** The sentinel is spelled with three underscores at the end: the two-underscore
      spelling is an ordinary program name and is run as a stop command. */
  lemma KillSentinelSpelling(c: Command)
    requires c.proc == "__kill__"
    ensures StrategyOf(Some(c)) == ByCommand
  {
  }

  /** What a strategy reports: success, and a text to log. */
  datatype Report = Report(ok: bool, txt: string)

  /** What the operating system answers to the steps of the stop strategies.
      Durations are in nanoseconds. */
  datatype Os = Os(
    findErr: Option<string>,       // os.FindProcess
    signalErr: Option<string>,     // Process.Signal
    wait: int -> Option<string>,   // waitWithTimeout, given its budget
    execErr: Option<string>,       // execWithTimeout of the stop command
    used: int,                     // how long the stop command ran
    killErr: Option<string>,       // kill(pid) of the process tree
    writeErr: Option<(int, string)>, // the stdin write of this argument index fails
    showDuration: int -> string)   // time.Duration's %v text

  datatype Signal = Kill | Interrupt

  /** The signals the `__signal__` strategy accepts by name. */
  function SignalOf(name: string): (s: Option<Signal>)
    ensures s == Some(Kill) <==> name == "kill"
    ensures s == Some(Interrupt) <==> name == "int"
  {
    if name == "kill" then Some(Kill) else if name == "int" then Some(Interrupt) else None
  }

  /** killBySignal: the first stop argument names the signal; the process is
      found, signalled, and waited for at most `killTimeout`. */
  function KillBySignal(args: seq<string>, killTimeout: int, os: Os): (r: Report)
    ensures args == [] ==> r == Report(false, "signal is empty")
    ensures args != [] && SignalOf(args[0]).None? ==> r == Report(false, "signal '" + args[0] + "' is unsupported")
    ensures r.ok <==> args != [] && SignalOf(args[0]).Some? && os.findErr.None? && os.signalErr.None? && os.wait(killTimeout).None?
    ensures r.ok ==> r.txt == ""
  {
    if args == [] then Report(false, "signal is empty")
    else if SignalOf(args[0]).None? then Report(false, "signal '" + args[0] + "' is unsupported")
    else if os.findErr.Some? then Report(false, os.findErr.value)
    else if os.signalErr.Some? then Report(false, os.signalErr.value)
    else if os.wait(killTimeout).Some? then Report(false, os.wait(killTimeout).value)
    else Report(true, "")
  }

  /** What is left of the kill budget after the stop command ran for `used`. */
  function WaitBudget(used: int, killTimeout: int): (b: Option<int>)
    ensures b.None? <==> used >= killTimeout
    ensures b.Some? ==> b.value > 0 && used + b.value == killTimeout
  {
    if used >= killTimeout then None else Some(killTimeout - used)
  }

  /** killByCmd: the stop command runs with the whole budget; if it used all of
      it the strategy fails with "timed out after", otherwise the process is
      waited for only the remainder. */
  function KillByCmd(killTimeout: int, os: Os): (r: Report)
    ensures os.findErr.None? && os.execErr.None? && os.used >= killTimeout ==>
            r == Report(false, "timed out after " + os.showDuration(killTimeout))
    ensures r.ok <==> os.findErr.None? && os.execErr.None? && os.used < killTimeout && os.wait(killTimeout - os.used).None?
    ensures r.ok ==> r.txt == ""
  {
    if os.findErr.Some? then Report(false, os.findErr.value)
    else if os.execErr.Some? then Report(false, os.execErr.value)
    else match WaitBudget(os.used, killTimeout)
      case None => Report(false, "timed out after " + os.showDuration(killTimeout))
      case Some(rest) =>
        if os.wait(rest).Some? then Report(false, os.wait(rest).value) else Report(true, "")
  }

  /** The stop command's run time plus the wait never exceed the kill budget. */
  lemma KillByCmdWithinBudget(killTimeout: int, os: Os)
    requires os.used >= 0
    ensures WaitBudget(os.used, killTimeout).Some? ==> os.used + WaitBudget(os.used, killTimeout).value <= killTimeout
    ensures WaitBudget(os.used, killTimeout).Some? ==> WaitBudget(os.used, killTimeout).value <= killTimeout
  {
  }

  /** The log text of the force-kill fallback: the strategy's text (if any) on
      its own line, then the kill's error or the note that the process was killed. */
  function ForceKillText(txt: string, killErr: Option<string>): (r: string)
    ensures |r| == (if txt == "" then 0 else |txt| + 2) +
                   (if killErr.None? then |"[sys] kill process when exit\r\n"| else |killErr.value| + 7)
    ensures txt != "" ==> r[..|txt| + 2] == txt + "\r\n"
    ensures killErr.None? ==> HasSuffix(r, "[sys] kill process when exit\r\n")
    ensures killErr.Some? ==> HasSuffix(r, "[sys]" + killErr.value + "\r\n")
  {
    var head := if txt != "" then txt + "\r\n" else "";
    var tail := if killErr.Some? then "[sys]" + killErr.value + "\r\n" else "[sys] kill process when exit\r\n";
    assert (head + tail)[|head + tail| - |tail|..] == tail;
    head + tail
  }

  /** The text written to a console child's stdin for the stop arguments, one per line. */
  function ConsoleText(args: seq<string>): (lines: seq<string>)
    ensures |lines| == |args| && forall k | 0 <= k < |args| :: lines[k] == args[k] + "\r\n"
  {
    if args == [] then [] else ConsoleText(args[..|args| - 1]) + [args[|args| - 1] + "\r\n"]
  }

  /** How many stop arguments reach the child's stdin before a write fails. */
  function Written(args: seq<string>, writeErr: Option<(int, string)>): (n: nat)
    ensures n <= |args|
    ensures n < |args| <==> writeErr.Some? && 0 <= writeErr.value.0 < |args|
  {
    if writeErr.Some? && 0 <= writeErr.value.0 < |args| then writeErr.value.0 else |args|
  }

  /** The lines a console stop writes to a redirected stdin: the arguments up
      to the first failed write. */
  function ConsoleWritten(args: seq<string>, writeErr: Option<(int, string)>): (lines: seq<string>)
    ensures |lines| <= |args|
    ensures writeErr.None? ==> lines == ConsoleText(args)
    ensures forall k | 0 <= k < |lines| :: lines[k] == args[k] + "\r\n"
  {
    assert writeErr.None? ==> args[..Written(args, writeErr)] == args;
    ConsoleText(args[..Written(args, writeErr)])
  }

  /** killByConsole's report. The arguments must be non-empty and stdin
      redirected (`missing` is the error text when it is not); then the first
      failed write, the process lookup and the wait decide, in that order. */
  function ConsoleReport(args: seq<string>, redirected: bool, missing: string, killTimeout: int, os: Os): (r: Report)
    ensures args == [] ==> r == Report(false, "console arguments is empty")
    ensures args != [] && !redirected ==> r == Report(false, missing)
    ensures args != [] && redirected && Written(args, os.writeErr) < |args| ==> r == Report(false, os.writeErr.value.1)
    ensures args != [] && redirected && Written(args, os.writeErr) == |args| && os.findErr.Some? ==>
            r == Report(false, os.findErr.value)
    ensures args != [] && redirected && Written(args, os.writeErr) == |args| && os.findErr.None? && os.wait(killTimeout).Some? ==>
            r == Report(false, os.wait(killTimeout).value)
    ensures r.ok <==> args != [] && redirected && Written(args, os.writeErr) == |args| &&
                      os.findErr.None? && os.wait(killTimeout).None?
    ensures r.ok ==> r.txt == ""
  {
    if args == [] then Report(false, "console arguments is empty")
    else if !redirected then Report(false, missing)
    else if Written(args, os.writeErr) < |args| then Report(false, os.writeErr.value.1)
    else if os.findErr.Some? then Report(false, os.findErr.value)
    else if os.wait(killTimeout).Some? then Report(false, os.wait(killTimeout).value)
    else Report(true, "")
  }

  /** The report of the strategy the stop command selects; force-kill reports nothing. */
  function StrategyReport(stop: Option<Command>, redirected: bool, missing: string, killTimeout: int, os: Os): (r: Option<Report>)
    ensures r.None? <==> StrategyOf(stop) == ForceKill
    ensures StrategyOf(stop) == BySignal ==> r == Some(KillBySignal(stop.value.arguments, killTimeout, os))
    ensures StrategyOf(stop) == ByConsole ==> r == Some(ConsoleReport(stop.value.arguments, redirected, missing, killTimeout, os))
    ensures StrategyOf(stop) == ByCommand ==> r == Some(KillByCmd(killTimeout, os))
  {
    match StrategyOf(stop)
    case ForceKill => None
    case BySignal => Some(KillBySignal(stop.value.arguments, killTimeout, os))
    case ByConsole => Some(ConsoleReport(stop.value.arguments, redirected, missing, killTimeout, os))
    case ByCommand => Some(KillByCmd(killTimeout, os))
  }

  /** Whether interrupting the child `pid` writes to its stdin: there is a
      child, the strategy is the console one and it has arguments. */
  predicate WritesConsole(pid: int, stop: Option<Command>) {
    pid != 0 && StrategyOf(stop) == ByConsole && stop.value.arguments != []
  }

  /** The error text supervisor.go gives when the child's stdin is not redirected. */
  const NotRedirected := "stdin is not redirect."

  /** What interrupt of supervisor.go writes to the output for a child: a
      successful strategy's text, otherwise the force-kill fallback text. */
  function InterruptOutput(report: Option<Report>, killErr: Option<string>): (t: string)
    ensures report.Some? && report.value.ok ==> t == report.value.txt
    ensures report.None? ==> t == ForceKillText("", killErr)
    ensures report.Some? && !report.value.ok ==> t == ForceKillText(report.value.txt, killErr)
  {
    if report.Some? && report.value.ok then report.value.txt
    else ForceKillText(if report.Some? then report.value.txt else "", killErr)
  }

  /** The untilWith decision for one observed status: done, keep waiting, or an error. */
  datatype Until = Done | Wait | Failed(msg: string)

  function UntilStep(from: int, to: int, s: int): (u: Until)
    ensures u == Done <==> s == to
    ensures u == Wait <==> s != to && s == from
    ensures u.Failed? ==> u.msg == "status is invalid, old_status is " + SrvString(from) +
                                   ", excepted is " + SrvString(to) + ", actual is " + SrvString(s)
  {
    if s == to then Done
    else if s == from then Wait
    else Failed("status is invalid, old_status is " + SrvString(from) + ", excepted is " + SrvString(to) + ", actual is " + SrvString(s))
  }

  /** What untilWith returns when it sees the statuses `seen` in turn (the
      current one first, then one per wake-up): the first status other than
      `from` decides; if every status is `from`, it is still waiting. */
  function UntilOutcome(from: int, to: int, seen: seq<int>): (u: Until)
    ensures u == Wait <==> forall k | 0 <= k < |seen| :: seen[k] == from && from != to
    ensures u == Done ==> exists k | 0 <= k < |seen| :: seen[k] == to
    ensures u.Failed? ==> exists k | 0 <= k < |seen| :: seen[k] != to && seen[k] != from
    ensures u != Wait ==> exists k | 0 <= k < |seen| ::
              u == UntilStep(from, to, seen[k]) && forall j | 0 <= j < k :: seen[j] == from && from != to
  {
    if seen == [] then Wait
    else if UntilStep(from, to, seen[0]) == Wait then
      var rest := UntilOutcome(from, to, seen[1..]);
      assert forall k | 1 <= k < |seen| :: seen[k] == seen[1..][k - 1];
      assert rest != Wait ==> exists k | 0 <= k < |seen| ::
               rest == UntilStep(from, to, seen[k]) && forall j | 0 <= j < k :: seen[j] == from && from != to
      by {
        if rest != Wait {
          var k :| 0 <= k < |seen[1..]| && rest == UntilStep(from, to, seen[1..][k]) &&
                   forall j | 0 <= j < k :: seen[1..][j] == from && from != to;
          assert rest == UntilStep(from, to, seen[k + 1]);
          assert forall j | 0 <= j < k + 1 :: seen[j] == from && from != to;
        }
      }
      rest
    else UntilStep(from, to, seen[0])
  }

  /** One observation of untilWith: a status that keeps it waiting leaves the
      outcome to the rest; any other status decides it. */
  lemma UntilOutcomeFirst(from: int, to: int, seen: seq<int>)
    requires seen != []
    ensures UntilStep(from, to, seen[0]) == Wait ==> UntilOutcome(from, to, seen) == UntilOutcome(from, to, seen[1..])
    ensures UntilStep(from, to, seen[0]) != Wait ==> UntilOutcome(from, to, seen) == UntilStep(from, to, seen[0])
  {
  }

  /** interrupt falls back to killing the process tree: there is a child, and
      either force-kill is the strategy or the strategy did not succeed. */
  predicate ForceKills(pid: int, report: Option<Report>) {
    pid != 0 && !(report.Some? && report.value.ok)
  }

  /** The `supervisor` type of supervisor.go, kept for its status machine:
      Start launches a loop only from INIT; Stop moves RUNNING or STARTING to
      STOPPING and interrupts the child. */
  class Supervisor {
    var srvStatus: int
    var pid: int
    const stop: Option<Command>
    const killTimeout: int
    /** everything written to the unit's output */
    var out: string
    /** what was written to the child's stdin, if it is redirected */
    var stdin: Option<seq<string>>
    /** how many times the condition variable was broadcast */
    var broadcasts: nat
    /** how many supervision loops Start launched */
    var loopsLaunched: nat
    /** the pids whose process tree was force-killed, in order */
    var killed: seq<int>

    constructor (stop: Option<Command>, killTimeout: int)
      ensures this.stop == stop && this.killTimeout == killTimeout
      ensures srvStatus == SrvInit && pid == 0 && out == "" && stdin.None?
      ensures broadcasts == 0 && loopsLaunched == 0 && killed == []
    {
      this.stop := stop;
      this.killTimeout := killTimeout;
      srvStatus := SrvInit;
      pid := 0;
      out := "";
      stdin := None;
      broadcasts := 0;
      loopsLaunched := 0;
      killed := [];
    }

    /** casStatus: compare-and-swap on the service state, broadcasting only on success. */
    method CasStatus(expected: int, next: int) returns (swapped: bool)
      modifies this
      ensures swapped <==> old(srvStatus) == expected
      ensures srvStatus == (if swapped then next else old(srvStatus))
      ensures broadcasts == old(broadcasts) + (if swapped then 1 else 0)
      ensures pid == old(pid) && out == old(out) && stdin == old(stdin) && loopsLaunched == old(loopsLaunched)
      ensures killed == old(killed)
    {
      if srvStatus != expected {
        return false;
      }
      srvStatus := next;
      broadcasts := broadcasts + 1;
      swapped := true;
    }

    /** setStatus: store and broadcast. */
    method SetStatus(next: int)
      modifies this
      ensures srvStatus == next && broadcasts == old(broadcasts) + 1
      ensures pid == old(pid) && out == old(out) && stdin == old(stdin) && loopsLaunched == old(loopsLaunched)
      ensures killed == old(killed)
    {
      srvStatus := next;
      broadcasts := broadcasts + 1;
    }

    /** Start: INIT to STARTING, then the supervision loop is launched. */
    method Start()
      modifies this
      ensures old(srvStatus) == SrvInit ==> srvStatus == SrvStarting && loopsLaunched == old(loopsLaunched) + 1
      ensures old(srvStatus) != SrvInit ==> srvStatus == old(srvStatus) && loopsLaunched == old(loopsLaunched)
      ensures broadcasts == old(broadcasts) + (if old(srvStatus) == SrvInit then 1 else 0)
      ensures pid == old(pid) && out == old(out) && stdin == old(stdin) && killed == old(killed)
    {
      var ok := CasStatus(SrvInit, SrvStarting);
      if !ok {
        return;
      }
      loopsLaunched := loopsLaunched + 1;
    }

    /** Stop: RUNNING or STARTING to STOPPING, then interrupt; from any other state nothing happens. */
    method Stop(os: Os)
      modifies this
      ensures old(srvStatus) == SrvRunning || old(srvStatus) == SrvStarting ==>
              srvStatus == SrvStopping && broadcasts == old(broadcasts) + 1 &&
              out == old(out) + (if old(pid) == 0 then ""
                                 else InterruptOutput(StrategyReport(stop, old(stdin).Some?, NotRedirected, killTimeout, os), os.killErr))
      ensures old(srvStatus) == SrvRunning || old(srvStatus) == SrvStarting ==>
              stdin == (if WritesConsole(old(pid), stop) && old(stdin).Some?
                        then Some(old(stdin).value + ConsoleWritten(stop.value.arguments, os.writeErr)) else old(stdin))
      ensures old(srvStatus) == SrvRunning || old(srvStatus) == SrvStarting ==>
              killed == old(killed) + (if ForceKills(old(pid), StrategyReport(stop, old(stdin).Some?, NotRedirected, killTimeout, os))
                                       then [old(pid)] else [])
      ensures !(old(srvStatus) == SrvRunning || old(srvStatus) == SrvStarting) ==>
              srvStatus == old(srvStatus) && out == old(out) && stdin == old(stdin) && broadcasts == old(broadcasts)
      ensures !(old(srvStatus) == SrvRunning || old(srvStatus) == SrvStarting) ==> killed == old(killed)
      ensures loopsLaunched == old(loopsLaunched) && pid == old(pid)
    {
      var ok := CasStatus(SrvRunning, SrvStopping);
      if !ok {
        ok := CasStatus(SrvStarting, SrvStopping);
        if !ok {
          return;
        }
      }
      Interrupt(os);
    }

    /** killByConsole of this type: writes each stop argument and a line break
      to the child's stdin, stopping at the first failed write; stdin stays open. */
    method KillByConsole(os: Os) returns (r: Report)
      requires stop.Some?
      modifies this
      ensures r == ConsoleReport(stop.value.arguments, old(stdin).Some?, NotRedirected, killTimeout, os)
      ensures stop.value.arguments != [] && old(stdin).Some? ==>
              stdin == Some(old(stdin).value + ConsoleWritten(stop.value.arguments, os.writeErr))
      ensures stop.value.arguments == [] || old(stdin).None? ==> stdin == old(stdin)
      ensures srvStatus == old(srvStatus) && pid == old(pid) && out == old(out)
      ensures broadcasts == old(broadcasts) && loopsLaunched == old(loopsLaunched) && killed == old(killed)
    {
      var args := stop.value.arguments;
      if args == [] {
        return Report(false, "console arguments is empty");
      }
      if stdin.None? {
        return Report(false, NotRedirected);
      }
      var i := 0;
      assert args[..0] == [] && ConsoleText([]) == [];
      assert old(stdin).value + ConsoleText(args[..0]) == stdin.value;
      while i < |args|
        invariant 0 <= i <= |args|
        invariant stdin == Some(old(stdin).value + ConsoleText(args[..i]))
        invariant os.writeErr.Some? ==> !(0 <= os.writeErr.value.0 < i)
        invariant srvStatus == old(srvStatus) && pid == old(pid) && out == old(out)
        invariant broadcasts == old(broadcasts) && loopsLaunched == old(loopsLaunched) && killed == old(killed)
      {
        if os.writeErr.Some? && os.writeErr.value.0 == i {
          return Report(false, os.writeErr.value.1);
        }
        assert args[..i + 1][..i] == args[..i];
        assert ConsoleText(args[..i + 1]) == ConsoleText(args[..i]) + [args[i] + "\r\n"];
        assert old(stdin).value + ConsoleText(args[..i + 1]) == stdin.value + [args[i] + "\r\n"];
        stdin := Some(stdin.value + [args[i] + "\r\n"]);
        i := i + 1;
      }
      assert args[..i] == args;
      if os.findErr.Some? {
        return Report(false, os.findErr.value);
      }
      if os.wait(killTimeout).Some? {
        return Report(false, os.wait(killTimeout).value);
      }
      r := Report(true, "");
    }

    /** interrupt: nothing without a child; otherwise the selected strategy, and
      on its failure (or for force-kill) the process tree is killed and the
      fallback text logged. A successful strategy's text goes to the output. */
    method Interrupt(os: Os)
      modifies this
      ensures old(pid) == 0 ==> out == old(out) && stdin == old(stdin)
      ensures old(pid) != 0 ==>
              out == old(out) + InterruptOutput(StrategyReport(stop, old(stdin).Some?, NotRedirected, killTimeout, os), os.killErr)
      ensures stdin == (if WritesConsole(old(pid), stop) && old(stdin).Some?
                        then Some(old(stdin).value + ConsoleWritten(stop.value.arguments, os.writeErr)) else old(stdin))
      ensures killed == old(killed) + (if ForceKills(old(pid), StrategyReport(stop, old(stdin).Some?, NotRedirected, killTimeout, os))
                                       then [old(pid)] else [])
      ensures srvStatus == old(srvStatus) && pid == old(pid)
      ensures broadcasts == old(broadcasts) && loopsLaunched == old(loopsLaunched)
    {
      if pid == 0 {
        return;
      }
      var r := Report(false, "");
      var strategy := StrategyOf(stop);
      if strategy != ForceKill {
        if strategy == BySignal {
          r := KillBySignal(stop.value.arguments, killTimeout, os);
        } else if strategy == ByConsole {
          r := KillByConsole(os);
        } else {
          r := KillByCmd(killTimeout, os);
        }
        if r.ok {
          out := out + r.txt;
          return;
        }
      }
      killed := killed + [pid];
      out := out + ForceKillText(r.txt, os.killErr);
    }
  }
}

=== FILE: text.dfy ===
/** The parts of Go's strings, strconv and fmt packages that the daemon relies
    on, written out over sequences so that their behaviour is part of the model:
    substring search, Split/SplitN/Join, TrimSpace, suffix handling, ASCII
    lower-casing, decimal printing and parsing (strconv.ParseInt with base 10)
    and the `%04d` verb. */
module Text {

  /** `pattern` occurs in `text` starting at position `i`. */
  predicate OccursAt<T(==)>(text: seq<T>, pattern: seq<T>, i: int) {
    0 <= i && i + |pattern| <= |text| && text[i..i + |pattern|] == pattern
  }

  /** `pattern` is a substring of `text`. */
  predicate Contains<T(==)>(text: seq<T>, pattern: seq<T>) {
    exists i | 0 <= i <= |text| - |pattern| :: OccursAt(text, pattern, i)
  }

  // ---------------------------------------------------------------- search

  /** The first occurrence of `pattern` at or after `from`, or -1. */
  function IndexFrom<T(==)>(s: seq<T>, pattern: seq<T>, from: nat): (r: int)
    ensures r == -1 || (from <= r && OccursAt(s, pattern, r))
    ensures r == -1 ==> forall j | from <= j :: !OccursAt(s, pattern, j)
    ensures r >= 0 ==> forall j | from <= j < r :: !OccursAt(s, pattern, j)
    decreases |s| + 1 - from
  {
    if from + |pattern| > |s| then -1
    else if s[from..from + |pattern|] == pattern then from
    else IndexFrom(s, pattern, from + 1)
  }

  /** strings.Index: the first occurrence of `pattern` in `s`, or -1. */
  function Index<T(==)>(s: seq<T>, pattern: seq<T>): (r: int)
    ensures r == -1 <==> !Contains(s, pattern)
    ensures r >= 0 ==> OccursAt(s, pattern, r) && forall j | 0 <= j < r :: !OccursAt(s, pattern, j)
  {
    IndexFrom(s, pattern, 0)
  }

  /** An occurrence inside a prefix is an occurrence in the whole sequence. */
  lemma OccursInPrefix<T>(s: seq<T>, n: int, pattern: seq<T>, j: int)
    requires 0 <= n <= |s| && OccursAt(s[..n], pattern, j)
    ensures OccursAt(s, pattern, j)
  {
    assert s[..n][j..j + |pattern|] == s[j..j + |pattern|];
  }

  /** An occurrence inside a suffix is an occurrence in the whole sequence. */
  lemma OccursInSuffix<T>(s: seq<T>, n: int, pattern: seq<T>, j: int)
    requires 0 <= n <= |s| && OccursAt(s[n..], pattern, j)
    ensures OccursAt(s, pattern, n + j)
  {
    assert s[n..][j..j + |pattern|] == s[n + j..n + j + |pattern|];
  }

  // ---------------------------------------------------------------- Split / Join

  /** strings.Split with a non-empty separator: the pieces between the
      successive leftmost occurrences of `sep`. */
  function Split<T(==)>(s: seq<T>, sep: seq<T>): (parts: seq<seq<T>>)
    requires |sep| > 0
    ensures |parts| >= 1
    decreases |s|
  {
    var i := Index(s, sep);
    if i < 0 then [s] else [s[..i]] + Split(s[i + |sep|..], sep)
  }

  /** The text before the first occurrence of `sep` does not contain `sep`. */
  lemma BeforeFirstIsFree<T>(s: seq<T>, sep: seq<T>)
    requires |sep| > 0 && Index(s, sep) >= 0
    ensures !Contains(s[..Index(s, sep)], sep)
  {
    var i := Index(s, sep);
    forall j | 0 <= j <= i - |sep| ensures !OccursAt(s[..i], sep, j) {
      if OccursAt(s[..i], sep, j) {
        OccursInPrefix(s, i, sep, j);
      }
    }
  }

  /** No piece of a split contains the separator. */
  lemma {:induction false} SplitPiecesFree<T>(s: seq<T>, sep: seq<T>)
    requires |sep| > 0
    ensures forall k | 0 <= k < |Split(s, sep)| :: !Contains(Split(s, sep)[k], sep)
    decreases |s|
  {
    var i := Index(s, sep);
    if i >= 0 {
      BeforeFirstIsFree(s, sep);
      SplitPiecesFree(s[i + |sep|..], sep);
      assert Split(s, sep) == [s[..i]] + Split(s[i + |sep|..], sep);
    }
  }

  /** strings.Join. */
  function Join<T>(parts: seq<seq<T>>, sep: seq<T>): seq<T> {
    if |parts| == 0 then []
    else if |parts| == 1 then parts[0]
    else parts[0] + sep + Join(parts[1..], sep)
  }

  /** Joining the pieces of a split with the same separator gives the text back. */
  lemma {:induction false} JoinSplit<T>(s: seq<T>, sep: seq<T>)
    requires |sep| > 0
    ensures Join(Split(s, sep), sep) == s
    decreases |s|
  {
    var i := Index(s, sep);
    if i >= 0 {
      var rest := s[i + |sep|..];
      var tail := Split(rest, sep);
      JoinSplit(rest, sep);
      JoinCons(s[..i], tail, sep);
      assert Split(s, sep) == [s[..i]] + tail;
      assert s[i..i + |sep|] == sep;
      assert s == s[..i] + sep + rest;
    }
  }

  lemma JoinCons<T>(a: seq<T>, tail: seq<seq<T>>, sep: seq<T>)
    requires |tail| >= 1
    ensures Join([a] + tail, sep) == a + sep + Join(tail, sep)
  {
    assert ([a] + tail)[1..] == tail;
  }

  /** strings.SplitN(s, sep, 2): the text before the first `sep` and the text after it. */
  function SplitFirst<T(==)>(s: seq<T>, sep: seq<T>): (parts: seq<seq<T>>)
    requires |sep| > 0
    ensures |parts| == 1 <==> !Contains(s, sep)
    ensures |parts| == 1 ==> parts[0] == s
    ensures |parts| != 1 ==> |parts| == 2 && parts[0] + sep + parts[1] == s && !Contains(parts[0], sep)
  {
    var i := Index(s, sep);
    if i < 0 then [s]
    else
      BeforeFirstIsFree(s, sep);
      assert s[i..i + |sep|] == sep;
      assert s == s[..i] + sep + s[i + |sep|..];
      [s[..i], s[i + |sep|..]]
  }

  // ---------------------------------------------------------------- ReplaceAll

  /** bytes.Replace / strings.ReplaceAll with a non-empty `target`: scanning from
      the left, every occurrence that does not overlap an earlier replaced one
      is replaced by `repl`. */
  function ReplaceAll<T(==)>(s: seq<T>, target: seq<T>, repl: seq<T>): seq<T>
    requires |target| > 0
    decreases |s|
  {
    if |s| < |target| then s
    else if s[..|target|] == target then repl + ReplaceAll(s[|target|..], target, repl)
    else [s[0]] + ReplaceAll(s[1..], target, repl)
  }

  /** Text without `target` passes through ReplaceAll unchanged. */
  lemma {:induction false} ReplaceAllAbsent<T>(s: seq<T>, target: seq<T>, repl: seq<T>)
    requires |target| > 0 && !Contains(s, target)
    ensures ReplaceAll(s, target, repl) == s
    decreases |s|
  {
    if |s| >= |target| {
      assert !OccursAt(s, target, 0);
      assert !Contains(s[1..], target) by {
        forall j | 0 <= j <= |s[1..]| - |target| ensures !OccursAt(s[1..], target, j) {
          if OccursAt(s[1..], target, j) {
            OccursInSuffix(s, 1, target, j);
          }
        }
      }
      ReplaceAllAbsent(s[1..], target, repl);
    }
  }

  /** A replacement no longer than what it replaces never lengthens the text. */
  lemma {:induction false} ReplaceAllShrinks<T>(s: seq<T>, target: seq<T>, repl: seq<T>)
    requires |target| > 0 && |repl| <= |target|
    ensures |ReplaceAll(s, target, repl)| <= |s|
    decreases |s|
  {
    if |s| >= |target| {
      if s[..|target|] == target {
        ReplaceAllShrinks(s[|target|..], target, repl);
      } else {
        ReplaceAllShrinks(s[1..], target, repl);
      }
    }
  }

  /** No occurrence of `q` can share an element with a copy of `r`, whatever
      surrounds it: the last element of `r` is not the first of `q`, and no
      element of `r` appears in `q` after its first position. */
  predicate CannotOverlap<T(==)>(q: seq<T>, r: seq<T>) {
    |q| >= 2 && |r| > 0 && r[|r| - 1] != q[0] &&
    forall k | 0 <= k < |r| :: r[k] !in q[1..]
  }

  /** An occurrence of `q` that would touch the copy of `r` in `x + r + y` is impossible. */
  lemma NoOccurrenceAcross<T>(x: seq<T>, r: seq<T>, y: seq<T>, q: seq<T>, i: int)
    requires CannotOverlap(q, r)
    requires |x| - |q| < i < |x| + |r|
    ensures !OccursAt(x + r + y, q, i)
  {
    var t := x + r + y;
    if 0 <= i && i + |q| <= |t| {
      if i + 1 <= |x| {
        // the first element of r lines up with q[|x| - i], which is not r[0]
        var k := |x|;
        assert t[k] == r[0];
        assert q[1..][k - i - 1] == q[k - i];
        assert t[i..i + |q|][k - i] != q[k - i];
      } else if i + 1 < |x| + |r| {
        // r[i + 1 - |x|] lines up with q[1]
        var k := i + 1;
        assert t[k] == r[k - |x|];
        assert q[1..][0] == q[1];
        assert t[i..i + |q|][1] != q[1];
      } else {
        // the last element of r lines up with q[0]
        assert t[i] == r[|r| - 1];
        assert t[i..i + |q|][0] != q[0];
      }
    }
  }

  /** Gluing two texts without `q` around a copy of `r` that `q` cannot overlap
      gives a text without `q`. */
  lemma GlueAbsent<T>(c: seq<T>, r: seq<T>, rest: seq<T>, q: seq<T>)
    requires CannotOverlap(q, r) && !Contains(c, q) && !Contains(rest, q)
    ensures !Contains(c + r + rest, q)
  {
    var out := c + r + rest;
    forall i | 0 <= i <= |out| - |q| ensures !OccursAt(out, q, i) {
      if i + |q| <= |c| {
        assert out[i..i + |q|] == c[i..i + |q|];
        assert !OccursAt(c, q, i);
      } else if i < |c| + |r| {
        NoOccurrenceAcross(c, r, rest, q, i);
      } else {
        var j := i - |c| - |r|;
        assert out[i..i + |q|] == rest[j..j + |q|];
        assert !OccursAt(rest, q, j);
      }
    }
  }

  /** A prefix of a text without `q` has no `q`. */
  lemma PrefixAbsent<T>(s: seq<T>, n: int, q: seq<T>)
    requires 0 <= n <= |s| && !Contains(s, q)
    ensures !Contains(s[..n], q)
  {
    forall j | 0 <= j <= n - |q| ensures !OccursAt(s[..n], q, j) {
      if OccursAt(s[..n], q, j) {
        OccursInPrefix(s, n, q, j);
      }
    }
  }

  /** A suffix of a text without `q` has no `q`. */
  lemma SuffixAbsent<T>(s: seq<T>, n: int, q: seq<T>)
    requires 0 <= n <= |s| && !Contains(s, q)
    ensures !Contains(s[n..], q)
  {
    forall j | 0 <= j <= |s| - n - |q| ensures !OccursAt(s[n..], q, j) {
      if OccursAt(s[n..], q, j) {
        OccursInSuffix(s, n, q, j);
      }
    }
  }

  /** ReplaceAll cannot create an occurrence of a sequence `q` that cannot overlap
      the replacement: when `c + s` has no `q`, neither has `c + ReplaceAll(s)`. */
  lemma {:induction false} ReplaceAllKeepsAbsent<T>(c: seq<T>, s: seq<T>, target: seq<T>, repl: seq<T>, q: seq<T>)
    requires |target| > 0 && CannotOverlap(q, repl)
    requires !Contains(c + s, q)
    ensures !Contains(c + ReplaceAll(s, target, repl), q)
    decreases |s|
  {
    if |s| < |target| {
    } else if s[..|target|] == target {
      var t := s[|target|..];
      assert !Contains([] + t, q) by {
        assert (c + s)[|c| + |target|..] == t;
        SuffixAbsent(c + s, |c| + |target|, q);
        assert [] + t == t;
      }
      ReplaceAllKeepsAbsent([], t, target, repl, q);
      assert !Contains(ReplaceAll(t, target, repl), q) by {
        assert [] + ReplaceAll(t, target, repl) == ReplaceAll(t, target, repl);
      }
      GlueAfterMatch(c, s, target, repl, q);
    } else {
      var c' := c + [s[0]];
      assert !Contains(c' + s[1..], q) by {
        assert c + s == c' + s[1..];
      }
      ReplaceAllKeepsAbsent(c', s[1..], target, repl, q);
      assert c + ReplaceAll(s, target, repl) == c' + ReplaceAll(s[1..], target, repl) by {
        assert ReplaceAll(s, target, repl) == [s[0]] + ReplaceAll(s[1..], target, repl);
      }
    }
  }

  /** The step of ReplaceAllKeepsAbsent where `s` starts with `target`. */
  lemma GlueAfterMatch<T>(c: seq<T>, s: seq<T>, target: seq<T>, repl: seq<T>, q: seq<T>)
    requires 0 < |target| <= |s| && s[..|target|] == target && CannotOverlap(q, repl)
    requires !Contains(c + s, q) && !Contains(ReplaceAll(s[|target|..], target, repl), q)
    ensures !Contains(c + ReplaceAll(s, target, repl), q)
  {
    var rest := ReplaceAll(s[|target|..], target, repl);
    assert (c + s)[..|c|] == c;
    PrefixAbsent(c + s, |c|, q);
    GlueAbsent(c, repl, rest, q);
    assert ReplaceAll(s, target, repl) == repl + rest;
    assert c + (repl + rest) == c + repl + rest;
  }

  /** After ReplaceAll no occurrence of `target` is left, provided `target` cannot
      overlap `repl`. `c` is output already produced, in which no occurrence of
      `target` starts. */
  lemma {:induction false} ReplaceAllRemoves<T>(c: seq<T>, s: seq<T>, target: seq<T>, repl: seq<T>)
    requires CannotOverlap(target, repl)
    requires forall i | 0 <= i < |c| :: !OccursAt(c + s, target, i)
    ensures !Contains(c + ReplaceAll(s, target, repl), target)
    decreases |s|
  {
    var out := c + ReplaceAll(s, target, repl);
    if |s| < |target| {
      assert out == c + s;
    } else if s[..|target|] == target {
      var t := s[|target|..];
      ReplaceAllRemoves([], t, target, repl);
      assert [] + ReplaceAll(t, target, repl) == ReplaceAll(t, target, repl);
      assert !Contains(c, target) by {
        forall i | 0 <= i <= |c| - |target| ensures !OccursAt(c, target, i) {
          assert (c + s)[i..i + |target|] == c[i..i + |target|];
          assert !OccursAt(c + s, target, i);
        }
      }
      GlueAbsent(c, repl, ReplaceAll(t, target, repl), target);
      assert out == c + repl + ReplaceAll(t, target, repl);
    } else {
      var c' := c + [s[0]];
      assert c + s == c' + s[1..];
      assert !OccursAt(c + s, target, |c|) by {
        assert (c + s)[|c|..|c| + |target|] == s[..|target|];
      }
      ReplaceAllRemoves(c', s[1..], target, repl);
      assert out == c' + ReplaceAll(s[1..], target, repl);
    }
  }

  // ---------------------------------------------------------------- white space

  /** unicode.IsSpace: the characters strings.TrimSpace removes. */
  predicate IsSpace(c: char) {
    if c <= ' ' then c == ' ' || '\t' <= c <= '\r'
    else '\U{0085}' <= c && IsWideSpace(c)
  }

  /** The white-space characters beyond ASCII. */
  predicate IsWideSpace(c: char) {
    c == '\U{0085}' || c == '\U{00A0}' || c == '\U{1680}' || ('\U{2000}' <= c <= '\U{200A}') ||
    c == '\U{2028}' || c == '\U{2029}' || c == '\U{202F}' || c == '\U{205F}' || c == '\U{3000}'
  }

  /** strings.TrimLeftFunc(s, unicode.IsSpace). */
  function TrimLeftSpace(s: string): (r: string)
    ensures |r| <= |s| && r == s[|s| - |r|..]
    ensures forall k | 0 <= k < |s| - |r| :: IsSpace(s[k])
    ensures r == [] || !IsSpace(r[0])
  {
    if |s| > 0 && IsSpace(s[0]) then TrimLeftSpace(s[1..]) else s
  }

  /** strings.TrimRightFunc(s, unicode.IsSpace). */
  function TrimRightSpace(s: string): (r: string)
    ensures |r| <= |s| && r == s[..|r|]
    ensures forall k | |r| <= k < |s| :: IsSpace(s[k])
    ensures r == [] || !IsSpace(r[|r| - 1])
  {
    if |s| > 0 && IsSpace(s[|s| - 1]) then TrimRightSpace(s[..|s| - 1]) else s
  }

  /** `r` is `s` without `i` leading and some trailing white-space characters. */
  predicate TrimmedAt(s: string, r: string, i: int) {
    && 0 <= i <= |s| - |r|
    && r == s[i..i + |r|]
    && (forall k | 0 <= k < i :: IsSpace(s[k]))
    && (forall k | i + |r| <= k < |s| :: IsSpace(s[k]))
  }

  /** Trimming the right end of a left-trimmed string trims both ends of the original. */
  lemma TrimBothAt(s: string, l: string, r: string)
    requires |l| <= |s| && l == s[|s| - |l|..]
    requires forall k | 0 <= k < |s| - |l| :: IsSpace(s[k])
    requires |r| <= |l| && r == l[..|r|]
    requires forall k | |r| <= k < |l| :: IsSpace(l[k])
    ensures TrimmedAt(s, r, |s| - |l|)
  {
    var i := |s| - |l|;
    assert r == s[i..i + |r|];
    forall k | i + |r| <= k < |s|
      ensures IsSpace(s[k])
    {
      assert s[k] == l[k - i];
    }
  }

  /** Trimming the left end and then the right end leaves neither end white. */
  lemma TrimBoth(s: string)
    ensures var r := TrimRightSpace(TrimLeftSpace(s)); r == [] || (!IsSpace(r[0]) && !IsSpace(r[|r| - 1]))
    ensures TrimmedAt(s, TrimRightSpace(TrimLeftSpace(s)), |s| - |TrimLeftSpace(s)|)
  {
    var l := TrimLeftSpace(s);
    var r := TrimRightSpace(l);
    PrefixKeepsStart(l, r);
    TrimBothAt(s, l, r);
  }

  /** A non-empty prefix of `l` starts where `l` does. */
  lemma PrefixKeepsStart(l: string, r: string)
    requires l == [] || !IsSpace(l[0])
    requires |r| <= |l| && r == l[..|r|]
    ensures r == [] || !IsSpace(r[0])
  {
    if r != [] {
      assert r[0] == l[0];
    }
  }

  /** strings.TrimSpace: `s` without its leading and trailing white space. */
  function TrimSpace(s: string): (r: string)
    ensures r == [] || (!IsSpace(r[0]) && !IsSpace(r[|r| - 1]))
    ensures exists i :: TrimmedAt(s, r, i)
  {
    TrimBoth(s);
    TrimRightSpace(TrimLeftSpace(s))
  }

  /** Trimming twice is trimming once. */
  lemma TrimSpaceIdempotent(s: string)
    ensures TrimSpace(TrimSpace(s)) == TrimSpace(s)
  {
    var t := TrimSpace(s);
    if t != [] {
      assert TrimLeftSpace(t) == t;
      assert TrimRightSpace(t) == t;
    }
  }

  /** strings.TrimLeft(s, string([c])): `s` without its leading run of `c`. */
  function TrimLeftChar(s: string, c: char): (r: string)
    ensures |r| <= |s| && r == s[|s| - |r|..]
    ensures forall k | 0 <= k < |s| - |r| :: s[k] == c
    ensures r == [] || r[0] != c
  {
    if |s| > 0 && s[0] == c then TrimLeftChar(s[1..], c) else s
  }

  /** strings.HasSuffix. */
  predicate HasSuffix(s: string, suffix: string) {
    |suffix| <= |s| && s[|s| - |suffix|..] == suffix
  }

  /** strings.TrimSuffix. */
  function TrimSuffix(s: string, suffix: string): (r: string)
    ensures HasSuffix(s, suffix) ==> r + suffix == s
    ensures !HasSuffix(s, suffix) ==> r == s
  {
    if HasSuffix(s, suffix) then s[..|s| - |suffix|] else s
  }

  /** Lower-casing of the letters A-Z. */
  function LowerAscii(c: char): (l: char)
    ensures 'A' <= c <= 'Z' ==> 'a' <= l <= 'z' && l as int - c as int == 32
    ensures !('A' <= c <= 'Z') ==> l == c
  {
    if 'A' <= c <= 'Z' then (c as int + 32) as char else c
  }

  /** strings.ToLower, restricted to ASCII letters. */
  function ToLower(s: string): (r: string)
    ensures |r| == |s| && forall k | 0 <= k < |s| :: r[k] == LowerAscii(s[k])
  {
    if s == [] then [] else [LowerAscii(s[0])] + ToLower(s[1..])
  }

  // ---------------------------------------------------------------- decimal numbers

  predicate IsDigit(c: char) {
    '0' <= c <= '9'
  }

  function DigitValue(c: char): (d: nat)
    requires IsDigit(c)
    ensures d < 10
  {
    c as int - '0' as int
  }

  function DigitChar(d: nat): (c: char)
    requires d < 10
    ensures IsDigit(c) && DigitValue(c) == d
  {
    ('0' as int + d) as char
  }

  predicate AllDigits(s: string) {
    forall k | 0 <= k < |s| :: IsDigit(s[k])
  }

  /** The value of a run of decimal digits (leading zeros allowed). */
  function DigitsValue(s: string): nat
    requires AllDigits(s)
  {
    if s == [] then 0 else DigitsValue(s[..|s| - 1]) * 10 + DigitValue(s[|s| - 1])
  }

  /** The decimal digits of `n`, without leading zeros. */
  function ShowNat(n: nat): (s: string)
    ensures |s| >= 1 && AllDigits(s)
    ensures |s| > 1 ==> s[0] != '0'
  {
    if n < 10 then [DigitChar(n)] else ShowNat(n / 10) + [DigitChar(n % 10)]
  }

  /** strconv.Itoa / fmt's `%d`: an optional minus sign and the digits of the magnitude. */
  function ShowInt(i: int): (s: string)
    ensures |s| >= 1 && (IsDigit(s[0]) || s[0] == '-')
  {
    if i < 0 then "-" + ShowNat(-i) else ShowNat(i)
  }

  lemma {:induction false} ShowNatValue(n: nat)
    ensures DigitsValue(ShowNat(n)) == n
  {
    if n >= 10 {
      ShowNatValue(n / 10);
      var s := ShowNat(n);
      assert s[..|s| - 1] == ShowNat(n / 10);
    }
  }

  /** Leading zeros do not change the value of a run of digits. */
  lemma {:induction false} LeadingZerosValue(z: nat, s: string)
    requires AllDigits(s)
    ensures AllDigits(Zeros(z) + s) && DigitsValue(Zeros(z) + s) == DigitsValue(s)
    decreases |s|
  {
    var t := Zeros(z) + s;
    assert AllDigits(t);
    if s == [] {
      assert t == Zeros(z);
      ZerosValue(z);
    } else {
      assert t[..|t| - 1] == Zeros(z) + s[..|s| - 1];
      LeadingZerosValue(z, s[..|s| - 1]);
    }
  }

  function Zeros(n: nat): (z: string)
    ensures |z| == n && forall k | 0 <= k < n :: z[k] == '0'
  {
    if n == 0 then [] else Zeros(n - 1) + ['0']
  }

  lemma {:induction false} ZerosValue(n: nat)
    ensures AllDigits(Zeros(n)) && DigitsValue(Zeros(n)) == 0
  {
    if n > 0 {
      ZerosValue(n - 1);
      assert Zeros(n)[..n - 1] == Zeros(n - 1);
    }
  }

  /** Go's `int` and `int64`: the range strconv.ParseInt(s, 10, 0) accepts on a 64-bit host. */
  predicate IsInt64(i: int) {
    -0x8000_0000_0000_0000 <= i < 0x8000_0000_0000_0000
  }

  /** strconv.ParseInt(s, 10, 0): an optional '+' or '-' followed by one or more
      decimal digits, in the 64-bit range; anything else is an error (None). */
  function ParseInt(s: string): (r: Option<int>)
    ensures r.Some? ==> IsInt64(r.value)
  {
    if s == [] then None
    else
      var negative := s[0] == '-';
      var digits := if s[0] == '+' || s[0] == '-' then s[1..] else s;
      if digits == [] || !AllDigits(digits) then None
      else
        var v: int := if negative then -(DigitsValue(digits) as int) else DigitsValue(digits);
        if IsInt64(v) then Some(v) else None
  }

  /** Parsing the printed form of a 64-bit integer gives it back. */
  lemma ParseShowInt(i: int)
    requires IsInt64(i)
    ensures ParseInt(ShowInt(i)) == Some(i)
  {
    var s := ShowInt(i);
    if i < 0 {
      var d := ShowNat(-i);
      ShowNatValue(-i);
      assert s == "-" + d;
      assert s[0] == '-' && s[1..] == d;
      assert d != [] && AllDigits(d);
      assert -(DigitsValue(d) as int) == i;
    } else {
      var d := ShowNat(i);
      ShowNatValue(i);
      assert s == d && IsDigit(s[0]);
      assert s[0] != '+' && s[0] != '-';
      assert DigitsValue(d) == i;
    }
  }

  /** Text that does not start with a sign or a digit is never a number. */
  lemma ParseIntRejects(s: string)
    requires s != [] && !IsDigit(s[0]) && s[0] != '+' && s[0] != '-'
    ensures ParseInt(s) == None
  {
    assert !AllDigits(s);
  }

  /** fmt.Sprintf("%04d", i): zero-padded to four characters, the sign counting
      towards the width. */
  function Pad4(i: int): (s: string)
    ensures |s| >= 4
  {
    if i < 0 then
      var d := ShowNat(-i);
      "-" + Zeros(if |d| < 3 then 3 - |d| else 0) + d
    else
      var d := ShowNat(i);
      Zeros(if |d| < 4 then 4 - |d| else 0) + d
  }

  /** The value printed by Pad4 can be read back: `%04d` is one-to-one. */
  lemma Pad4Value(i: int)
    ensures i >= 0 ==> AllDigits(Pad4(i)) && DigitsValue(Pad4(i)) == i
    ensures i < 0 ==> Pad4(i)[0] == '-' && AllDigits(Pad4(i)[1..]) && -(DigitsValue(Pad4(i)[1..]) as int) == i
  {
    if i < 0 {
      Pad4Negative(i);
    } else {
      Pad4NonNegative(i);
    }
  }

  lemma Pad4Negative(i: int)
    requires i < 0
    ensures Pad4(i)[0] == '-' && AllDigits(Pad4(i)[1..]) && DigitsValue(Pad4(i)[1..]) == -i
  {
    var d := ShowNat(-i);
    var z: nat := if |d| < 3 then 3 - |d| else 0;
    var p := Pad4(i);
    var t := Zeros(z) + d;
    SignedDigits(Zeros(z), d, p);
    assert p[1..] == t;
    ShowNatValue(-i);
    LeadingZerosValue(z, d);
    assert AllDigits(t) && DigitsValue(t) == -i;
  }

  lemma Pad4NonNegative(i: int)
    requires i >= 0
    ensures AllDigits(Pad4(i)) && DigitsValue(Pad4(i)) == i
  {
    var d := ShowNat(i);
    var z: nat := if |d| < 4 then 4 - |d| else 0;
    ShowNatValue(i);
    LeadingZerosValue(z, d);
  }

  /** After the minus sign come the padding and the digits. */
  lemma SignedDigits(z: string, d: string, p: string)
    requires p == "-" + z + d
    ensures |p| >= 1 && p[0] == '-' && p[1..] == z + d
  {
    assert p == "-" + (z + d);
  }

  lemma Pad4Injective(a: int, b: int)
    requires Pad4(a) == Pad4(b)
    ensures a == b
  {
    Pad4Value(a);
    Pad4Value(b);
    assert a >= 0 ==> IsDigit(Pad4(a)[0]);
    assert b >= 0 ==> IsDigit(Pad4(b)[0]);
  }

  // ---------------------------------------------------------------- lines

  /** Drops one trailing carriage return. */
  function DropCR(s: string): (r: string)
    ensures r == s || (s == r + "\r")
  {
    if |s| > 0 && s[|s| - 1] == '\r' then s[..|s| - 1] else s
  }

  /** bufio.ScanLines: the lines of `text`, split at '\n', each without a
      trailing '\r'; a final line without '\n' counts, an empty final line does not. */
  function Lines(text: string): (lines: seq<string>)
    ensures forall k | 0 <= k < |lines| :: '\n' !in lines[k]
    decreases |text|
  {
    if text == [] then []
    else
      var i := Index(text, "\n");
      if i < 0 then
        assert forall k | 0 <= k < |text| :: text[k] != '\n' by {
          forall k | 0 <= k < |text| ensures text[k] != '\n' {
            assert !OccursAt(text, "\n", k);
            assert text[k..k + 1] == [text[k]];
          }
        }
        [DropCR(text)]
      else
        assert forall k | 0 <= k < i :: text[k] != '\n' by {
          forall k | 0 <= k < i ensures text[k] != '\n' {
            assert !OccursAt(text, "\n", k);
            assert text[k..k + 1] == [text[k]];
          }
        }
        [DropCR(text[..i])] + Lines(text[i + 1..])
  }

  datatype Option<T> = None | Some(value: T)
}
